=== FILE: README.md ===
# Discharge-summary reader: a Dafny model

This project models the text-to-record pipeline of the dual-view medical
record reader. The pipeline takes the plain text of an emergency-department
discharge summary and produces two read-only views of it.

1. `split_into_sections` cuts the text into canonical sections. It finds
   header lines such as `DISCHARGE DIAGNOSES:` or `Follow up` using a fixed
   alias table. Repeated sections are merged, and an allergies entry falls
   back to `NKDA`.
2. `_split_list` and `build_record_from_sections` turn the sections map into
   a fixed-shape record.
3. `parse_labs_section` reads the labs section line by line with one lab-line
   pattern.
4. `render_patient_view` and `render_emt_view` build the patient view and the
   EMT view of a record.

Everything is modelled as pure functions over `string` (`seq<char>`) and
immutable datatypes. The modules follow the program:

| module | file | models |
|---|---|---|
| `Text` | text.dfy | the Python `str` operations used (`strip`, ASCII `lower`, `split`, `join`, `splitlines`) |
| `Aliases` | aliases.dfy | `HEADER_ALIASES`, the alias cleaning, `alias_to_canonical` and `canonicalize` |
| `Sections` | sections.dfy | header recognition, contents, the merge loop, the NKDA fallback |
| `HeaderExamples` | headerexamples.dfy | "FOLLOW UP:", one of the header lines the splitter's comment names, and two illustrative lines, "Plan: rest" and "Plan to rest" |
| `Lists` | lists.dfy | `_split_list` |
| `Decimals` | decimals.dfy | the value of a lab number, as an exact decimal |
| `LabGrammar` | labgrammar.dfy | the `LAB_LINE` pattern and how the backtracking matcher resolves it |
| `Labs` | labs.dfy | `parse_labs_section` and the lab entries |
| `LabExamples` | labexamples.dfy | the two lab lines of `parse_labs_section`'s docstring, and two illustrative lines |
| `Fields` | fields.dfy | `build_record_from_sections` and the record |
| `Render` | render.dfy | both views |
| `Options` | options.dfy | `Option` |

Header recognition is modelled line by line, not as a general regular
expression.

- A line is a header when its ASCII-lower-cased text starts with an alias and
  then has one of two shapes. The standalone form allows whitespace, at most
  one colon, and whitespace to the end of the line. The inline form requires
  whitespace and then a colon.
- Python tries the standalone alternative of the pattern first. Within an
  alternative, it takes the earliest alias in the sorted order: longest
  escaped text first, table order on ties. `Choose` makes the same choice.

The lab-line pattern is written two ways:

- as a grammar over cut positions (`LabGrammar.Valid`);
- as a deterministic matcher (`LabGrammar.LabMatch`). It takes the shortest
  test name after which a greedy reading of the value, the unit, the range
  and the flag succeeds.

`LabMatch`'s contract and `LabMatchComplete` prove that the matcher finds a
match whenever the grammar allows one, and that it prefers the shortest test
name and then the longest value, as the regular-expression engine does.

Where the code's own comments and the code disagree, the model follows the
code. The comment at src/parse_sections.py:77 speaks of merging a repeated
header, but a repeat whose content is empty replaces the earlier content with
`""` (src/parse_sections.py:78-81). `Sections.EmptyRepeatReplaces` states
this. The comment at src/parse_sections.py:83 says the NKDA fallback applies
whenever NKDA appears, but the function returns early when no header is
found (src/parse_sections.py:60-61). `Sections.NoHeaderNoSections` states
this.

## Model

| member | source | states |
|---|---|---|
| Aliases.KeysAreCanonical | src/parse_sections.py:3-29 | the nine sections and the nine canonical key strings correspond one to one |
| Aliases.Flatten | src/parse_sections.py:44-45 | every alias in the flattened table comes from its own section's list, and every alias of every listed section is in it |
| Aliases.SectionsApart | src/parse_sections.py:3-29 | the alias lists of two different sections share no alias |
| Aliases.TableUnique | src/parse_sections.py:3-29 | no alias appears under two canonical names, so `alias_to_canonical` never overwrites a key with a different section |
| Aliases.TableLists | src/parse_sections.py:44-47 | every alias of every section reaches the dictionary, paired with its section |
| Aliases.CleanAliasAt | src/parse_sections.py:46 | `strip().lower()` keeps every character of an alias that starts and ends without whitespace, lower-cased |
| Aliases.CleanAliasIsClean | src/parse_sections.py:46 | a cleaned alias has no surrounding whitespace and no upper-case letter, and cleaning it again changes nothing |
| Aliases.EntriesClean | src/parse_sections.py:44-48 | every alias that enters the pattern and the dictionary is in cleaned form |
| Aliases.CleanMatchedText | src/parse_sections.py:65-69 | header text whose lower-case form is a clean alias cleans to exactly that alias |
| Aliases.Lookup | src/parse_sections.py:65-66 | the dictionary lookup fails exactly when the alias is not listed, and otherwise returns a section it is listed under |
| Aliases.Canonicalize | src/parse_sections.py:65-66 | a listed alias gives a canonical key, and an unlisted text gives its own cleaned form |
| Aliases.CanonicalizeEntry | src/parse_sections.py:65-66 | the text of a clean table entry canonicalizes to the key of a section that lists it |
| Sections.WordAfter | src/parse_sections.py:53-56 | an alias followed by whitespace and then a word is a header in neither form |
| Sections.Pick | src/parse_sections.py:54-55 | the alternative the engine takes is a matching one that sorts before every other matching one, and there is none exactly when nothing matches |
| Sections.Choose | src/parse_sections.py:53-57 | a line matches exactly when some alias fits it in some form; the inline form is taken only when no alias fits the standalone form; the chosen alias sorts before every other fitting one |
| Sections.MatchHeader | src/parse_sections.py:53-72 | a line matches exactly when some alternative fits its lower-cased form, and the alternative is the one `Choose` takes; with a clean table the key is canonical; an inline match splits the line into the alias, a colon with whitespace around it, and a tail that does not begin with whitespace; a standalone header leaves nothing on its line |
| Sections.InlineLineShape | src/parse_sections.py:55 | an inline header leaves the end of its line, after a colon with only whitespace around it |
| Sections.InlineRestOfLine | src/parse_sections.py:55 | the colon an inline header needs is present in the original line, not only in its lower-case form |
| Sections.LowerTrimLeft | src/parse_sections.py:53 | ignoring case does not move whitespace or colons, so the rest of the line has the same shape |
| Sections.HeaderKey | src/parse_sections.py:65-70 | the key of a header line is the canonical name of the section that lists the matched alias |
| Sections.MatchLinesKeys | src/parse_sections.py:68-70 | every header line of a text carries one of the nine canonical keys |
| Sections.NextHeader | src/parse_sections.py:74 | the next match starts at the first header line after the current one, and no line in between is a header |
| Sections.OccurrencesKeys | src/parse_sections.py:68-75 | with canonical header keys every match has a canonical key |
| Sections.OccurrencesEmpty | src/parse_sections.py:68-75 | there is no match from a line on exactly when no line from there on is a header line |
| Sections.OccurrencesFrom | src/parse_sections.py:68-75 | the matches from a later line on are the last matches from an earlier line on |
| Sections.OccurrenceSpan | src/parse_sections.py:72-74 | the content of a header line's match is the text from where the match ends to the line break before the next header line, or to the end of the text: the text is everything before the tail, then the content, then the lines from the next header line on |
| Sections.TextOccurrenceSpan | src/parse_sections.py:68-75 | every header line of the text gives one match, with the line's key, at the position counted from the end by the header lines after it; its content is placed in the text as above |
| Sections.ContentsFor | src/parse_sections.py:75 | every content filed under a key is stripped |
| Sections.AfterLastEmpty | src/parse_sections.py:78-81 | what survives is a run of non-empty contents at the end of all the contents |
| Sections.AfterLastEmptyCut | src/parse_sections.py:78-81 | the content just before the survivors, when there is one, is empty, so the survivors are exactly the contents after the last empty one |
| Sections.AppendLine | src/parse_sections.py:79 | appending a non-empty stripped content on a new line and stripping gives the longer list joined by line breaks |
| Sections.MergeOneValue | src/parse_sections.py:77-81 | one step of the merge loop keeps the loop-free description of every key |
| Sections.MergeOneSame | src/parse_sections.py:77-81 | the key of the current match gets the joined non-empty contents since the last empty one |
| Sections.MergeValue | src/parse_sections.py:68-81 | a key is in the merged map exactly when some match used it; its value is that key's contents since the last empty one, in document order, one per line |
| Sections.JoinStripped | src/parse_sections.py:79 | non-empty stripped lines joined with line breaks form a stripped text |
| Sections.StripsJoinedLines | src/parse_sections.py:79 | the strip after appending changes nothing when both parts are stripped |
| Sections.MergeStripped | src/parse_sections.py:75-81 | no merged value has surrounding whitespace, and the keys are exactly those of the matches |
| Sections.SearchNkda | src/parse_sections.py:84 | the search succeeds exactly when NKDA, in any case and as a whole word, occurs at some position |
| Sections.Assemble | src/parse_sections.py:59-87 | no matches give the empty map, and every value returned is stripped |
| Sections.SplitWith | src/parse_sections.py:38-87 | empty text gives the empty map, and every value is stripped |
| Sections.HasHeaderIff | src/parse_sections.py:59-61 | the pattern finds a match exactly when some line of the text is a header |
| Sections.SplitIntoSections | src/parse_sections.py:31-87 | empty text gives the empty map; every key is one of the nine canonical names; every value is stripped |
| Sections.SplitKeys | src/parse_sections.py:65-70 | with a clean alias table every returned key is canonical |
| Sections.AssembleKeys | src/parse_sections.py:83-85 | the fallback adds no key but the canonical "allergies" |
| Sections.MergedText | src/parse_sections.py:75-81 | the merged text of a key is stripped, and it is empty when no match used the key |
| Sections.WithNkdaValue | src/parse_sections.py:84-85 | the fallback sets allergies to "NKDA" exactly when they are missing or blank and NKDA occurs; it never changes another key or a non-blank allergies value |
| Sections.AssembleValue | src/parse_sections.py:63-85 | once matches exist, each key's value is its merged contents, except that blank allergies become "NKDA" when NKDA occurs |
| Sections.SplitValue | src/parse_sections.py:31-87 | with at least one header line, the value of every key is given without the loop: its contents since the last empty one, joined by line breaks, plus the NKDA rule |
| Sections.NoHeaderNoSections | src/parse_sections.py:59-61 | a text without a header line gives the empty map even when it mentions NKDA |
| Sections.EmptyRepeatReplaces | src/parse_sections.py:78-81 | a repeated header with empty content replaces the earlier content with "" |
| HeaderExamples.PlanToRestNotHeader | src/parse_sections.py:53-56 | illustrative: "Plan to rest" is not a header line, since no alias of the table fits it in either form |
| HeaderExamples.PlanColonRestIsHeader | src/parse_sections.py:53-56 | illustrative: "Plan: rest" is a header line, through the alias "plan" in the inline form |
| HeaderExamples.HeaderOf | src/parse_sections.py:53-70 | a line that one alias fits, and that no other alias of the table can begin, is a header of that alias's form, filed under the key of the alias's section; an inline fit counts only when the alias does not fit on a line of its own |
| HeaderExamples.FollowUpHeader | src/parse_sections.py:50-56 | "FOLLOW UP:", which the comment gives as an example match, is a header on a line of its own, filed under "follow-up" |
| Text.StripKeepsFirst | src/parse_labs.py:41 | `strip` keeps a first character that is not whitespace |
| Text.StripExact | src/parse_sections.py:75 | `strip` removes exactly the surrounding whitespace: a stripped core wrapped in whitespace strips back to the core |
| Text.StripEmpty | src/parse_labs.py:31-33 | a line strips to nothing exactly when it is all whitespace |
| Text.StripFixpoint | src/parse_sections.py:79 | `strip` leaves exactly the stripped texts alone, so it is idempotent |
| Text.LowerIdempotent | src/parse_sections.py:46 | lower-casing twice is lower-casing once |
| Text.LowerKeepsStripped | src/parse_sections.py:66 | a text and its lower-case form are stripped together |
| Text.SplitJoin | src/parse_fields.py:13-14 | splitting the join of separator-free pieces at the separator gives the pieces back |
| Text.JoinSplit | src/parse_fields.py:13-14 | joining the pieces of a split with the separator gives the text back |
| Text.SplitAppend | src/parse_fields.py:13-14 | a separator splits the text into the pieces of each side, in order |
| Text.ReplaceChar | src/parse_fields.py:13 | `replace` changes exactly the occurrences of one character, position by position |
| Lists.SplitList | src/parse_fields.py:6-15 | the empty text gives no items; every item is non-empty, has no comma or line break, and neither starts nor ends with a space, hyphen, tab or carriage return |
| Lists.CleanItems | src/parse_fields.py:14-15 | cleaning gives valid items and never more items than pieces |
| Lists.CleanItemsAppend | src/parse_fields.py:14-15 | cleaning works piece by piece: the items of two runs of pieces are the two runs' items concatenated |
| Lists.SplitListAppend | src/parse_fields.py:13-15 | splitting at a comma or line break concatenates the items of both sides, so left-to-right order and duplicates are kept |
| Lists.SplitListItem | src/parse_fields.py:14-15 | a valid item alone is read back as the one-item list |
| Lists.SplitListPadded | src/parse_fields.py:14 | surrounding spaces, hyphens, tabs and carriage returns are trimmed off an item, while inner characters such as the hyphen of "2-3" are kept |
| Lists.SplitListJoin | src/parse_fields.py:6-15 | valid items joined with ", " split back into the same list |
| Lists.SplitListLeadingSpace | src/parse_fields.py:14 | a leading space never changes the items |
| Lists.SplitListIdempotent | src/parse_fields.py:6-15 | joining the items and splitting again gives the same items |
| Lists.SplitListExample | src/parse_fields.py:9 | "Penicillin, Latex\nPeanuts" gives ["Penicillin", "Latex", "Peanuts"] |
| Decimals.NatTextValue | src/parse_labs.py:42 | a natural number's decimal digits read back as that number |
| Decimals.PadTextValue | src/parse_labs.py:42 | zero-padded fraction digits read back as their number |
| Decimals.DigitsValueJoin | src/parse_labs.py:42 | the value of two digit runs written one after the other is the first shifted by the second's length, plus the second |
| Decimals.Normalize | src/parse_labs.py:42 | dropping trailing fraction zeros gives the canonical form with no larger scale |
| Decimals.NormalizeSameValue | src/parse_labs.py:42 | normalizing keeps the value, as `float("2.50") == float("2.5")` |
| Decimals.NumberValue | src/parse_labs.py:42 | the value of a number text is in canonical form |
| Decimals.NumberRoundTrip | src/parse_labs.py:42 | writing a canonical decimal and reading it back gives the same decimal |
| Decimals.TextMagnitude | src/parse_labs.py:42 | the written number has as many fraction digits as the scale, and its digits read back as the magnitude |
| Decimals.ValueTextParts | src/parse_labs.py:8 | the text of a decimal is a number: its sign, whole digits and fraction digits are those of the decimal |
| LabGrammar.ClassFacts | src/parse_labs.py:6-14 | no character can start two of the parts that follow the value: a number or unit character is never whitespace or "(", and a flag is neither |
| LabGrammar.Span | src/parse_labs.py:6-14 | a greedy run of a character class stops at the first character outside it |
| LabGrammar.SpanAt | src/parse_labs.py:6-14 | a run of the class that ends at a character outside it is the greedy run |
| LabGrammar.CloseParen | src/parse_labs.py:12 | the closing parenthesis found is the first ")" at or after the start |
| LabGrammar.FlagPart | src/parse_labs.py:13-15 | the flag reading fits the grammar: whitespace, an optional H or L, whitespace and the end |
| LabGrammar.RefPart | src/parse_labs.py:11-15 | the range reading fits the grammar and starts after the skipped whitespace |
| LabGrammar.UnitPart | src/parse_labs.py:9-15 | the unit reading fits the grammar and starts after the skipped whitespace |
| LabGrammar.UnitLongest | src/parse_labs.py:9-15 | the unit run is the longest one: it ends at the end of the line or before a character no unit may hold, so a trailing H or L joins the unit when it can |
| LabGrammar.NumberEndIsNumber | src/parse_labs.py:8 | the greedy number reading is a number text |
| LabGrammar.RestPart | src/parse_labs.py:7-15 | the reading of everything after the test name fits the grammar |
| LabGrammar.Scan | src/parse_labs.py:6 | the lazy test name search returns the first name end, made of name characters, after which the rest reads |
| LabGrammar.LabMatch | src/parse_labs.py:4-18 | a match fits the grammar, and no shorter test name leaves a rest that reads |
| LabGrammar.NameFrom | src/parse_labs.py:5-6 | the match starting at the first letter fits the grammar with the shortest working test name |
| LabGrammar.FlagComplete | src/parse_labs.py:13-15 | whenever the grammar allows a flag reading, the matcher finds one |
| LabGrammar.RefRejects | src/parse_labs.py:12-15 | where a range cannot start, only a flag and whitespace can remain |
| LabGrammar.RefComplete | src/parse_labs.py:11-15 | whenever the grammar allows a range-and-flag reading, the matcher finds one |
| LabGrammar.RefAfterUnit | src/parse_labs.py:10-15 | after the greedy unit a range-and-flag reading still exists whenever it existed after a shorter unit |
| LabGrammar.UnitComplete | src/parse_labs.py:9-15 | whenever the grammar allows a unit reading, the matcher finds one |
| LabGrammar.UnitAfterNumber | src/parse_labs.py:8-15 | a longer greedy number leaves a unit reading whenever a shorter one did |
| LabGrammar.NumberComplete | src/parse_labs.py:8 | the greedy number reading is never shorter than any number the grammar allows there |
| LabGrammar.NumberEndAt | src/parse_labs.py:8 | a number followed by a non-number character is exactly the greedy reading |
| LabGrammar.NumberStart | src/parse_labs.py:8 | a number text starts with a minus sign or a digit |
| LabGrammar.RestComplete | src/parse_labs.py:7-15 | whenever the grammar allows a reading of the rest, the matcher finds one with a value at least as long |
| LabGrammar.ScanComplete | src/parse_labs.py:6 | the lazy search finds a test name no longer than any the grammar allows |
| LabGrammar.LabMatchComplete | src/parse_labs.py:4-18 | whenever the line fits the grammar the matcher finds a match; its test name is no longer, and with an equally long name its value is no shorter |
| Labs.ParseLine | src/parse_labs.py:35-47 | a line gives an entry exactly when the pattern matches; `raw` is the line; every field comes from the matched cut of the line: the test is the stripped name capture, the value is the number capture read as a decimal, the unit, range and flag are the stripped unit, range and flag captures (none when a capture is empty or absent); the test name starts with a letter; a unit or range, when present, is non-empty; a flag is H or L |
| Labs.ParseLines | src/parse_labs.py:30-47 | at most one entry per line, each with a stripped non-empty raw text |
| Labs.LineEntries | src/parse_labs.py:31-47 | a line gives the entry of its stripped text, or nothing when it is blank or does not match |
| Labs.ParseLabs | src/parse_labs.py:20-49 | the empty text gives no entries, and every raw text is stripped and non-empty |
| Labs.ParseLinesAppend | src/parse_labs.py:30-47 | the entries of two runs of lines are the two runs' entries, in line order |
| Labs.ParseLabsAppend | src/parse_labs.py:30-47 | a line break splits the entries into those of the text before and after it, in order |
| Labs.ParseLabsOneLine | src/parse_labs.py:30-47 | a single line gives its own entry or nothing |
| Labs.NameStripped | src/parse_labs.py:41 | a well-formed test name, which neither starts nor ends with whitespace, is left alone by the strip |
| Labs.NoRestInName | src/parse_labs.py:6-8 | inside a well-formed test name no shorter name is followed by whitespace and a value, so the lazy name does not stop early |
| Labs.LabLineRoundTrip | src/parse_labs.py:4-18 | writing a well-formed entry as "test value [unit] [(range)] [flag]" and parsing it gives the entry back; the name may hold spaces before words that do not begin with a digit or "-" |
| Labs.UnitRoundTrip | src/parse_labs.py:10-15 | the tail after the value reads back as the unit, range and flag it was written from |
| Labs.RefRoundTrip | src/parse_labs.py:12-15 | a written range and flag read back as themselves |
| Labs.FlagRoundTrip | src/parse_labs.py:14-15 | a written flag reads back as itself |
| Labs.BareFlagIsUnit | src/parse_labs.py:10-14 | with no unit and no range, a trailing H or L is read as the unit and the flag is None |
| LabExamples.WbcExample | src/parse_labs.py:22-23 | "WBC 13.2 x10^9/L (4.0 - 11.0) H" gives test WBC, value 13.2, unit x10^9/L, range "4.0 - 11.0" and flag H |
| LabExamples.CreatinineExample | src/parse_labs.py:22-24 | "Creatinine 112 umol/L (60 - 110) H" gives test Creatinine, value 112, unit umol/L, range "60 - 110" and flag H |
| LabExamples.HbA1cExample | src/parse_labs.py:6-10 | illustrative: "Hemoglobin A1c 6.1 %" gives test "Hemoglobin A1c", value 6.1 and unit "%": the name runs past a space |
| LabExamples.NaExample | src/parse_labs.py:10-14 | illustrative: "Na 140 H" gives unit H and no flag |
| Fields.BuildRecord | src/parse_fields.py:17-52 | the patient and the encounter date and facility are unset; the visit type is "ED Discharge"; vitals and imaging are empty; the evidence is unset; the lists hold valid items; diagnoses come from "diagnosis" unless it is missing or empty, then from "diagnoses"; allergies, medications and labs are read from their keys; the discharge instructions and return precautions are the texts under their keys, verbatim, and empty when the key is missing; the follow-up comes from "follow-up" unless it is missing or empty, then from "follow up" |
| Fields.BuildRecordRoundTrip | src/parse_fields.py:39-42 | lists written under "diagnosis", "allergies" and "medications" as ", "-joined text come back as the same lists |
| Fields.BuildRecordDiagnosesKey | src/parse_fields.py:22 | a list written under "diagnoses", with no non-empty "diagnosis", comes back as the diagnoses |
| Fields.BuildRecordReads | src/parse_fields.py:22-48 | the record depends on nothing but the nine keys the builder reads |
| Fields.BuildRecordIgnoresEmpty | src/parse_fields.py:22-48 | an empty value counts as a missing key |
| Fields.BuildRecordEmpty | src/parse_fields.py:17-52 | the empty map gives the record with all-empty lists and strings |
| Fields.BuildRecordExample | src/parse_fields.py:22-48 | a sections map holding the six sections of the app's sample discharge summary gives one diagnosis, one allergy and one medication, the follow-up, the discharge instructions and the return precautions as written, and no labs |
| Fields.RecordOf | src/parse_fields.py:17-52 | the record of any text has visit type "ED Discharge" and valid list items |
| Fields.NoHeaderEmptyRecord | src/parse_sections.py:59-61 | a text without a header line gives the empty record, whatever else it says |
| Render.SeenLine | src/render_patient.py:9-12 | with diagnoses the sentence starts "You were seen in the emergency department for: "; it is the plain sentence exactly when there are none |
| Render.RenderPatient | src/render_patient.py:3-24 | the title is "Patient View"; the summary has one or two sentences, two exactly when there are allergies; the first depends on the diagnoses; the other fields pass through |
| Render.ListingRoundTrip | src/render_patient.py:10-15 | a listing sentence reads back as the items it lists |
| Render.SeenLineRoundTrip | src/render_patient.py:9-12 | the first sentence reads back as the diagnoses |
| Render.SummaryRoundTrip | src/render_patient.py:8-15 | the summary of a record with valid items names its diagnoses and allergies exactly |
| Render.SummaryOfText | src/render_patient.py:8-15 | the same holds for the record of any document text |
| Render.OrPlaceholder | src/render_emt.py:10-12 | `xs if xs else [placeholder]`: never empty; the list itself when non-empty |
| Render.RenderEmt | src/render_emt.py:3-14 | the title is "EMT View"; allergies and medications default to ["None listed"] and problems to ["Not specified"]; the return precautions pass through |
| Render.PlaceholderRoundTrip | src/render_emt.py:10-12 | reading a placeholder list back gives the original exactly when the original is not the placeholder alone |
| Render.EmtRoundTrip | src/render_emt.py:10-12 | each EMT list gives back the record's list unless that list is its own placeholder |
| Render.ViewsAgree | src/render_patient.py:20-23 | both views show the same return precautions, and the same medications exactly when the record has some |

## Left out

- app/main.py (the user interface, file upload, PDF text extraction) is not part of this model: it is input and presentation only.
- Python's regular-expression engine is not modelled in general. The header pattern and the lab-line pattern are hand-written matchers, and the lab matcher is proved to make the engine's choice.
- The standalone header form `\s*:?\s*$` can also consume a following line that holds only a colon. This corner case is not modelled: a header's line is decided by its own text.
- `float(...)` on the lab value is modelled as an exact decimal (`Decimals.Decimal`), without IEEE rounding.
- `strip()` uses Python's full whitespace set, but case is modelled in ASCII only (`Text.Lower`). Under `re.I` Python also matches `ſ` (U+017F) against `s`, the Kelvin sign (U+212A) against `k`, and dotless `ı` (U+0131) and dotted `İ` (U+0130) against `i`. So Python reads "Diagnoſis:" or "Dıagnosis:" as a header and files it under a non-canonical key such as "diagnoſis". The model reads no header there, and `Sections.SplitIntoSections`' "every key is canonical" depends on this.
- Sections.IsWordChar: `\b` in `\bNKDA\b` is modelled with ASCII word characters. Python's `\w` is Unicode, so in "éNKDA" Python sees no word boundary and applies no fallback, while the model sets "NKDA".
- LabGrammar.InClass and Text.IsDigit: `\d` is modelled as the ASCII digits. Python's `\d` matches every Unicode decimal digit and `float()` accepts them, so "WBC ١٣.٢" gives an entry in Python and none in the model.
- Decimals.NumberValue: "-0" and "-0.0" read as zero, while Python's `float` keeps the sign, and the JSON shows -0.0.
- `Text.SplitLines` splits at every line-break character, so `\r\n` and a final line break give extra empty lines. The lab parser skips blank lines, so its result is unchanged.
- Dictionary insertion order and JSON display are not modelled; sections are a `map<string, string>`.
- The lab entry's `datetime` key is always `None` and is left out of `Labs.LabEntry`.
- The renderers take a `Fields.Record`, which always has every field, so their `.get(key, default)` defaults never apply.
- The patient's age is an `Option<nat>`; it is never set.
- Fields.SampleSections: the sections of the app's sample text (app/main.py:22-29) are written out by hand; that `split_into_sections` gives exactly this map from that text is not proved, because reasoning character by character about its lines of up to 107 characters is beyond what the verifier does within its resource limit. The header recognition behind it is shown on "FOLLOW UP:" (`HeaderExamples.FollowUpHeader`) and in general by `Sections.SplitValue`.
- Lists.SplitListExample: stated for the documented text only; the general order and duplicate facts are `Lists.SplitListAppend` and `Lists.SplitListJoin`.
- Aliases.EntriesClean: states that the cleaned table is clean, not that cleaning leaves each listed alias unchanged. `Aliases.CleanAliasAt` gives that character by character where the examples need it.

=== FILE: aliases.dfy ===
/** The header alias table (`HEADER_ALIASES`, src/parse_sections.py) and the
    alias-to-canonical lookup the splitter builds from it. */
module Aliases {
  import opened Options
  import opened Text

  /** The nine canonical sections. */
  datatype Section =
    | Diagnosis
    | Allergies
    | Medications
    | DischargeInstructions
    | FollowUp
    | ReturnPrecautions
    | Vitals
    | Labs
    | Imaging
  {
    /** The dictionary key the splitter files the section under, spelled as in
        the source (with its spaces and hyphen). */
    function Key(): (k: string)
      ensures k in CanonicalKeys
    {
      match this
      case Diagnosis => "diagnosis"
      case Allergies => "allergies"
      case Medications => "medications"
      case DischargeInstructions => "discharge instructions"
      case FollowUp => "follow-up"
      case ReturnPrecautions => "return precautions"
      case Vitals => "vitals"
      case Labs => "labs"
      case Imaging => "imaging"
    }
  }

  const CanonicalKeys: set<string> := {
    "diagnosis", "allergies", "medications", "discharge instructions",
    "follow-up", "return precautions", "vitals", "labs", "imaging"
  }

  /** The keys are exactly the nine canonical names, one per section. */
  lemma KeysAreCanonical()
    ensures forall s: Section :: s.Key() in CanonicalKeys
    ensures forall k :: k in CanonicalKeys ==> exists s: Section :: s.Key() == k
    ensures forall s: Section, t: Section :: s.Key() == t.Key() ==> s == t
  {
    assert Diagnosis.Key() == "diagnosis";
    assert Allergies.Key() == "allergies";
    assert Medications.Key() == "medications";
    assert DischargeInstructions.Key() == "discharge instructions";
    assert FollowUp.Key() == "follow-up";
    assert ReturnPrecautions.Key() == "return precautions";
    assert Vitals.Key() == "vitals";
    assert Labs.Key() == "labs";
    assert Imaging.Key() == "imaging";
  }

  /** `HEADER_ALIASES[s.Key()]`: the aliases of a section, in the source's
      order. */
  function AliasesOf(s: Section): seq<string> {
    match s
    case Diagnosis =>
      ["diagnosis", "diagnoses", "discharge diagnosis", "discharge diagnoses",
       "discharge dx", "dx", "impression", "primary diagnosis", "final diagnosis"]
    case Allergies =>
      ["allergies", "allergy", "allergy list", "allergies list", "allergies:",
       "allergy information", "nkda"]
    case Medications =>
      ["medications", "meds", "med list", "medication list", "current medications",
       "discharge medications", "rx", "prescriptions"]
    case DischargeInstructions =>
      ["discharge instructions", "instructions", "plan", "instructions / plan",
       "home care", "care instructions"]
    case FollowUp =>
      ["follow-up", "follow up", "followup", "follow-up instructions",
       "follow up instructions", "follow up plan"]
    case ReturnPrecautions =>
      ["return precautions", "return to ed if", "return to er if", "return if",
       "seek care if", "when to return", "return to emergency if", "go to ed if"]
    case Vitals => ["vitals", "vital signs"]
    case Labs => ["labs", "laboratory", "lab results", "bloodwork", "blood work"]
    case Imaging => ["imaging", "radiology", "ct", "x-ray", "xray", "ultrasound", "cxr"]
  }

  /** The sections in the order `HEADER_ALIASES` lists them. */
  const Order: seq<Section> := [
    Diagnosis, Allergies, Medications, DischargeInstructions, FollowUp,
    ReturnPrecautions, Vitals, Labs, Imaging
  ]

  /** The aliases of `s`, each paired with `s`. */
  function Listing(s: Section): (t: seq<(string, Section)>)
    ensures |t| == |AliasesOf(s)|
    ensures forall k :: 0 <= k < |t| ==> t[k] == (AliasesOf(s)[k], s)
  {
    seq(|AliasesOf(s)|, k requires 0 <= k < |AliasesOf(s)| => (AliasesOf(s)[k], s))
  }

  /** The listings of `ss`, one after the other: the loop over
      `HEADER_ALIASES.items()` and each section's aliases. */
  function Flatten(ss: seq<Section>): (t: seq<(string, Section)>)
    ensures forall i :: 0 <= i < |t| ==> t[i].0 in AliasesOf(t[i].1) && t[i].1 in ss
    ensures forall k, x :: 0 <= k < |ss| && x in AliasesOf(ss[k]) ==> (x, ss[k]) in t
  {
    if ss == [] then []
    else
      var t := Listing(ss[0]) + Flatten(ss[1..]);
      assert forall k :: 1 <= k < |ss| ==> ss[k] == ss[1..][k - 1];
      t
  }

  /** `HEADER_ALIASES` flattened in the source's order: each alias with the
      section it names. */
  const Table: seq<(string, Section)> := Flatten(Order)

  /** Every section is in `Order`. */
  lemma InOrder(s: Section)
    ensures s in Order
  {
  }

  /** No alias of `s` is an alias of `t`. */
  predicate Apart(s: Section, t: Section) {
    forall x :: x in AliasesOf(s) ==> x !in AliasesOf(t)
  }

  lemma ApartDiagnosisAllergies()
    ensures Apart(Diagnosis, Allergies)
  {
  }

  lemma ApartDiagnosisMedications()
    ensures Apart(Diagnosis, Medications)
  {
  }

  lemma ApartDiagnosisDischargeInstructions()
    ensures Apart(Diagnosis, DischargeInstructions)
  {
  }

  lemma ApartDiagnosisFollowUp()
    ensures Apart(Diagnosis, FollowUp)
  {
  }

  lemma ApartDiagnosisReturnPrecautions()
    ensures Apart(Diagnosis, ReturnPrecautions)
  {
  }

  lemma ApartDiagnosisVitals()
    ensures Apart(Diagnosis, Vitals)
  {
  }

  lemma ApartDiagnosisLabs()
    ensures Apart(Diagnosis, Labs)
  {
  }

  lemma ApartDiagnosisImaging()
    ensures Apart(Diagnosis, Imaging)
  {
  }

  lemma ApartAllergiesMedications()
    ensures Apart(Allergies, Medications)
  {
  }

  lemma ApartAllergiesDischargeInstructions()
    ensures Apart(Allergies, DischargeInstructions)
  {
  }

  lemma ApartAllergiesFollowUp()
    ensures Apart(Allergies, FollowUp)
  {
  }

  lemma ApartAllergiesReturnPrecautions()
    ensures Apart(Allergies, ReturnPrecautions)
  {
  }

  lemma ApartAllergiesVitals()
    ensures Apart(Allergies, Vitals)
  {
  }

  lemma ApartAllergiesLabs()
    ensures Apart(Allergies, Labs)
  {
  }

  lemma ApartAllergiesImaging()
    ensures Apart(Allergies, Imaging)
  {
  }

  lemma ApartMedicationsDischargeInstructions()
    ensures Apart(Medications, DischargeInstructions)
  {
  }

  lemma ApartMedicationsFollowUp()
    ensures Apart(Medications, FollowUp)
  {
  }

  lemma ApartMedicationsReturnPrecautions()
    ensures Apart(Medications, ReturnPrecautions)
  {
  }

  lemma ApartMedicationsVitals()
    ensures Apart(Medications, Vitals)
  {
  }

  lemma ApartMedicationsLabs()
    ensures Apart(Medications, Labs)
  {
  }

  lemma ApartMedicationsImaging()
    ensures Apart(Medications, Imaging)
  {
  }

  lemma ApartDischargeInstructionsFollowUp()
    ensures Apart(DischargeInstructions, FollowUp)
  {
  }

  lemma ApartDischargeInstructionsReturnPrecautions()
    ensures Apart(DischargeInstructions, ReturnPrecautions)
  {
  }

  lemma ApartDischargeInstructionsVitals()
    ensures Apart(DischargeInstructions, Vitals)
  {
  }

  lemma ApartDischargeInstructionsLabs()
    ensures Apart(DischargeInstructions, Labs)
  {
  }

  lemma ApartDischargeInstructionsImaging()
    ensures Apart(DischargeInstructions, Imaging)
  {
  }

  lemma ApartFollowUpReturnPrecautions()
    ensures Apart(FollowUp, ReturnPrecautions)
  {
  }

  lemma ApartFollowUpVitals()
    ensures Apart(FollowUp, Vitals)
  {
  }

  lemma ApartFollowUpLabs()
    ensures Apart(FollowUp, Labs)
  {
  }

  lemma ApartFollowUpImaging()
    ensures Apart(FollowUp, Imaging)
  {
  }

  lemma ApartReturnPrecautionsVitals()
    ensures Apart(ReturnPrecautions, Vitals)
  {
  }

  lemma ApartReturnPrecautionsLabs()
    ensures Apart(ReturnPrecautions, Labs)
  {
  }

  lemma ApartReturnPrecautionsImaging()
    ensures Apart(ReturnPrecautions, Imaging)
  {
  }

  lemma ApartVitalsLabs()
    ensures Apart(Vitals, Labs)
  {
  }

  lemma ApartVitalsImaging()
    ensures Apart(Vitals, Imaging)
  {
  }

  lemma ApartLabsImaging()
    ensures Apart(Labs, Imaging)
  {
  }

  /** Sections with different names share no alias. */
  lemma SectionsApart()
    ensures forall s: Section, t: Section :: s != t ==> Apart(s, t)
  {
    ApartDiagnosisAllergies();
    ApartDiagnosisMedications();
    ApartDiagnosisDischargeInstructions();
    ApartDiagnosisFollowUp();
    ApartDiagnosisReturnPrecautions();
    ApartDiagnosisVitals();
    ApartDiagnosisLabs();
    ApartDiagnosisImaging();
    ApartAllergiesMedications();
    ApartAllergiesDischargeInstructions();
    ApartAllergiesFollowUp();
    ApartAllergiesReturnPrecautions();
    ApartAllergiesVitals();
    ApartAllergiesLabs();
    ApartAllergiesImaging();
    ApartMedicationsDischargeInstructions();
    ApartMedicationsFollowUp();
    ApartMedicationsReturnPrecautions();
    ApartMedicationsVitals();
    ApartMedicationsLabs();
    ApartMedicationsImaging();
    ApartDischargeInstructionsFollowUp();
    ApartDischargeInstructionsReturnPrecautions();
    ApartDischargeInstructionsVitals();
    ApartDischargeInstructionsLabs();
    ApartDischargeInstructionsImaging();
    ApartFollowUpReturnPrecautions();
    ApartFollowUpVitals();
    ApartFollowUpLabs();
    ApartFollowUpImaging();
    ApartReturnPrecautionsVitals();
    ApartReturnPrecautionsLabs();
    ApartReturnPrecautionsImaging();
    ApartVitalsLabs();
    ApartVitalsImaging();
    ApartLabsImaging();
  }

  /** In a table of listed aliases no alias appears under two sections. */
  lemma {:induction false} UniqueIn(t: seq<(string, Section)>)
    requires forall i :: 0 <= i < |t| ==> t[i].0 in AliasesOf(t[i].1)
    ensures forall i, j :: 0 <= i < |t| && 0 <= j < |t| && t[i].0 == t[j].0 ==> t[i].1 == t[j].1
  {
    SectionsApart();
    forall i, j | 0 <= i < |t| && 0 <= j < |t| && t[i].0 == t[j].0
      ensures t[i].1 == t[j].1
    {
      assert t[i].1 == t[j].1 || Apart(t[i].1, t[j].1);
    }
  }

  /** No alias appears under two sections in the table. */
  lemma TableUnique()
    ensures forall i, j :: 0 <= i < |Table| && 0 <= j < |Table| && Table[i].0 == Table[j].0
                           ==> Table[i].1 == Table[j].1
  {
    UniqueIn(Table);
  }

  /** Every alias of every section is in the table, paired with its section. */
  lemma TableLists(s: Section, x: string)
    requires x in AliasesOf(s)
    ensures (x, s) in Table
  {
    InOrder(s);
    var k :| 0 <= k < |Order| && Order[k] == s;
  }

  /** `a.strip().lower()`: the form in which an alias enters both the header
      pattern and the alias-to-canonical dictionary. */
  function CleanAlias(a: string): string {
    Lower(Strip(a))
  }

  /** Cleaning keeps, lower-cased, every character of an alias that begins
      with a non-whitespace character up to its last non-whitespace one. */
  lemma {:induction false} CleanAliasAt(x: string, k: nat)
    requires k < |x| && x[0] !in Whitespace && x[k] !in Whitespace
    ensures k < |CleanAlias(x)| && CleanAlias(x)[k] == LowerChar(x[k])
  {
    assert TrimLeft(x, Whitespace) == x;
    TrimRightPrefix(x, Whitespace);
  }

  /** The cleaned aliases with their sections, in table order. */
  function Entries(): seq<(string, Section)> {
    seq(|Table|, i requires 0 <= i < |Table| => (CleanAlias(Table[i].0), Table[i].1))
  }

  /** Every alias of `t` is already in cleaned form. */
  predicate AllClean(t: seq<(string, Section)>) {
    forall i :: 0 <= i < |t| ==> CleanAlias(t[i].0) == t[i].0
  }

  /** A cleaned alias has no surrounding whitespace and no upper-case letter, and
      cleaning it again changes nothing. */
  lemma CleanAliasIsClean(a: string)
    ensures IsStripped(CleanAlias(a), Whitespace)
    ensures forall k :: 0 <= k < |CleanAlias(a)| ==> !('A' <= CleanAlias(a)[k] <= 'Z')
    ensures CleanAlias(CleanAlias(a)) == CleanAlias(a)
  {
    var s := Strip(a);
    var c := Lower(s);
    assert IsStripped(s, Whitespace);
    LowerKeepsStripped(s);
    StripFixpoint(c, Whitespace);
    assert Strip(c) == c;
    LowerIdempotent(s);
    assert CleanAlias(c) == Lower(c);
  }

  /** The source's table is clean once `strip().lower()` has been applied. */
  lemma EntriesClean()
    ensures AllClean(Entries())
  {
    forall i | 0 <= i < |Entries()| ensures CleanAlias(Entries()[i].0) == Entries()[i].0 {
      CleanAliasIsClean(Table[i].0);
    }
  }

  /** Text whose lower-case form is a clean alias cleans to that alias: it cannot
      carry surrounding whitespace, since `lower` keeps whitespace. */
  lemma CleanMatchedText(t: string, a: string)
    requires CleanAlias(a) == a
    requires Lower(t) == a
    ensures CleanAlias(t) == a
  {
    CleanAliasIsClean(a);
    LowerKeepsStripped(t);
    StripFixpoint(t, Whitespace);
  }

  // ---------------------------------------------------------------------------
  // alias_to_canonical and canonicalize

  /** No entry of `t` uses the alias `a`. */
  predicate Unlisted(a: string, t: seq<(string, Section)>) {
    forall j :: 0 <= j < |t| ==> t[j].0 != a
  }

  /** `alias_to_canonical.get(a)`: the dictionary is filled in table order, so
      the LAST entry for an alias wins. */
  function Lookup(t: seq<(string, Section)>, a: string): (r: Option<Section>)
    ensures r.None? <==> Unlisted(a, t)
    ensures r.Some? ==> exists j :: 0 <= j < |t| && t[j] == (a, r.value)
                                    && forall k :: j < k < |t| ==> t[k].0 != a
  {
    if |t| == 0 then None
    else
      var last := t[|t| - 1];
      if last.0 == a then Some(last.1)
      else
        var init := t[..|t| - 1];
        var r := Lookup(init, a);
        assert r.None? ==> Unlisted(a, t) by {
          if r.None? {
            forall j | 0 <= j < |t| ensures t[j].0 != a {
              if j < |t| - 1 { assert t[j] == init[j]; }
            }
          }
        }
        assert r.Some? ==> exists j :: 0 <= j < |t| && t[j] == (a, r.value)
                                       && forall k :: j < k < |t| ==> t[k].0 != a by {
          if r.Some? {
            var j :| 0 <= j < |init| && init[j] == (a, r.value)
                     && forall k :: j < k < |init| ==> init[k].0 != a;
            assert t[j] == (a, r.value);
            forall k | j < k < |t| ensures t[k].0 != a {
              if k < |t| - 1 { assert t[k] == init[k]; }
            }
          }
        }
        r
  }

  /** `canonicalize(raw)` with the dictionary built from `t`: the section key of
      the cleaned text when it is an alias, the cleaned text itself otherwise. */
  function Canonicalize(t: seq<(string, Section)>, raw: string): (r: string)
    ensures Lookup(t, CleanAlias(raw)).Some? ==> r in CanonicalKeys
    ensures Lookup(t, CleanAlias(raw)).None? ==> r == CleanAlias(raw)
  {
    var k := CleanAlias(raw);
    var found := Lookup(t, k);
    if found.Some? then found.value.Key() else k
  }

  /** Every alias of a clean table canonicalizes to the key of a section: the
      one its last listing names. */
  lemma CanonicalizeEntry(t: seq<(string, Section)>, i: nat)
    requires AllClean(t)
    requires i < |t|
    ensures Canonicalize(t, t[i].0) in CanonicalKeys
    ensures exists j :: 0 <= j < |t| && t[j].0 == t[i].0 && Canonicalize(t, t[i].0) == t[j].1.Key()
  {
    assert !Unlisted(t[i].0, t);
  }
}

=== FILE: decimals.dfy ===
/** The numeric value of a lab line: the text `-?\d+(\.\d+)?` and the number
    `float()` reads from it, kept as an exact decimal. */
module Decimals {
  import opened Text

  function Pow10(n: nat): (p: nat)
    ensures p >= 1
  {
    if n == 0 then 1 else 10 * Pow10(n - 1)
  }

  predicate AllDigits(x: string) {
    forall i :: 0 <= i < |x| ==> IsDigit(x[i])
  }

  function DigitValue(c: char): (n: nat)
    requires IsDigit(c)
    ensures n < 10
  {
    c as int - '0' as int
  }

  function DigitChar(n: nat): (c: char)
    requires n < 10
    ensures IsDigit(c) && DigitValue(c) == n
  {
    ('0' as int + n) as char
  }

  /** The number a run of decimal digits spells, most significant first. */
  function DigitsValue(x: string): (n: nat)
    requires AllDigits(x)
    ensures n < Pow10(|x|)
  {
    if |x| == 0 then 0 else DigitsValue(x[..|x| - 1]) * 10 + DigitValue(x[|x| - 1])
  }

  /** `n` in decimal without leading zeros (`"0"` for zero). */
  function NatText(n: nat): (x: string)
    ensures x != [] && AllDigits(x)
  {
    if n < 10 then [DigitChar(n)] else NatText(n / 10) + [DigitChar(n % 10)]
  }

  /** `n` in exactly `w` decimal digits, with leading zeros. */
  function PadText(n: nat, w: nat): (x: string)
    requires n < Pow10(w)
    ensures |x| == w && AllDigits(x)
  {
    if w == 0 then "" else PadText(n / 10, w - 1) + [DigitChar(n % 10)]
  }

  lemma {:induction false} NatTextValue(n: nat)
    ensures DigitsValue(NatText(n)) == n
  {
    if n >= 10 {
      var x := NatText(n / 10) + [DigitChar(n % 10)];
      assert x[..|x| - 1] == NatText(n / 10);
      NatTextValue(n / 10);
    }
  }

  lemma {:induction false} PadTextValue(n: nat, w: nat)
    requires n < Pow10(w)
    ensures DigitsValue(PadText(n, w)) == n
  {
    if w > 0 {
      var x := PadText(n / 10, w - 1) + [DigitChar(n % 10)];
      assert x[..|x| - 1] == PadText(n / 10, w - 1);
      PadTextValue(n / 10, w - 1);
    }
  }

  // ---------------------------------------------------------------------------
  // The number syntax

  /** The text after an optional leading minus sign. */
  function Unsigned(x: string): string {
    if |x| > 0 && x[0] == '-' then x[1..] else x
  }

  /** The index of the first `.` in `x`, or `|x|` when there is none. */
  function DotIndex(x: string): (k: nat)
    ensures k <= |x|
    ensures k < |x| ==> x[k] == '.'
    ensures forall i :: 0 <= i < k ==> x[i] != '.'
  {
    if |x| == 0 then 0 else if x[0] == '.' then 0 else 1 + DotIndex(x[1..])
  }

  /** `x` is what `-?\d+(\.\d+)?` matches in full: an optional minus sign,
      digits, and optionally a point followed by more digits. */
  predicate IsNumber(x: string) {
    var b := Unsigned(x);
    var k := DotIndex(b);
    1 <= k && AllDigits(b[..k]) && (k == |b| || (k + 1 < |b| && AllDigits(b[k + 1..])))
  }

  /** The digits before the point. */
  function WholeDigits(x: string): string {
    Unsigned(x)[..DotIndex(Unsigned(x))]
  }

  /** The digits after the point (none when there is no point). */
  function FractionDigits(x: string): string {
    var b := Unsigned(x);
    var k := DotIndex(b);
    if k < |b| then b[k + 1..] else ""
  }

  // ---------------------------------------------------------------------------
  // Exact decimals

  /** The number `units / 10^scale`. */
  datatype Decimal = Decimal(units: int, scale: nat)

  /** The shortest form of a value: no trailing zero after the point. Two
      canonical decimals are equal exactly when their values are. */
  predicate Canonical(d: Decimal) {
    d.scale == 0 || d.units % 10 != 0
  }

  predicate SameValue(a: Decimal, b: Decimal) {
    a.units * Pow10(b.scale) == b.units * Pow10(a.scale)
  }

  /** Trailing zeros after the point dropped (`2.50` and `2.5` are the same
      `float`). */
  function Normalize(d: Decimal): (r: Decimal)
    ensures Canonical(r)
    ensures r.scale <= d.scale
    decreases d.scale
  {
    if d.scale > 0 && d.units % 10 == 0 then Normalize(Decimal(d.units / 10, d.scale - 1)) else d
  }

  /** Normalizing keeps the value. */
  lemma {:induction false} NormalizeSameValue(d: Decimal)
    ensures SameValue(Normalize(d), d)
    decreases d.scale
  {
    if d.scale > 0 && d.units % 10 == 0 {
      var d' := Decimal(d.units / 10, d.scale - 1);
      NormalizeSameValue(d');
      DropZero(d, Normalize(d'));
    }
  }

  /** Dropping a trailing zero keeps the value. */
  lemma DropZero(d: Decimal, r: Decimal)
    requires d.scale > 0 && d.units % 10 == 0
    requires SameValue(r, Decimal(d.units / 10, d.scale - 1))
    ensures SameValue(r, d)
  {
    var a, b := r.units, d.units / 10;
    var p, pr := Pow10(d.scale - 1), Pow10(r.scale);
    assert a * p == b * pr;
    assert d.units == 10 * b;
    calc {
      a * Pow10(d.scale);
      a * (10 * p);
      10 * (a * p);
      10 * (b * pr);
      (10 * b) * pr;
      d.units * pr;
    }
  }

  /** `float(x)` for a number text, as an exact canonical decimal. */
  function NumberValue(x: string): (d: Decimal)
    requires IsNumber(x)
    ensures Canonical(d)
  {
    var sign := if |x| > 0 && x[0] == '-' then -1 else 1;
    Normalize(Decimal(sign * Magnitude(x), |FractionDigits(x)|))
  }

  /** The digits of a number text, point removed, as one natural number. */
  function Magnitude(x: string): nat
    requires IsNumber(x)
  {
    AllDigitsJoin(WholeDigits(x), FractionDigits(x));
    DigitsValue(WholeDigits(x) + FractionDigits(x))
  }

  lemma AllDigitsJoin(a: string, b: string)
    requires AllDigits(a) && AllDigits(b)
    ensures AllDigits(a + b)
  {
    assert forall i :: 0 <= i < |a + b| ==> (a + b)[i] == if i < |a| then a[i] else b[i - |a|];
  }

  /** Digits written after other digits shift them left. */
  lemma {:induction false} DigitsValueJoin(a: string, b: string)
    requires AllDigits(a) && AllDigits(b)
    ensures AllDigits(a + b)
    ensures DigitsValue(a + b) == DigitsValue(a) * Pow10(|b|) + DigitsValue(b)
  {
    AllDigitsJoin(a, b);
    if |b| == 0 {
      assert a + b == a;
    } else {
      var b' := b[..|b| - 1];
      var c := b[|b| - 1];
      assert (a + b)[..|a + b| - 1] == a + b';
      assert (a + b)[|a + b| - 1] == c;
      assert b[..|b| - 1] == b';
      DigitsValueJoin(a, b');
      assert DigitsValue(a + b) == DigitsValue(a + b') * 10 + DigitValue(c);
      assert DigitsValue(b) == DigitsValue(b') * 10 + DigitValue(c);
      ShiftDigit(DigitsValue(a), Pow10(|b'|), DigitsValue(b'), DigitValue(c));
    }
  }

  lemma ShiftDigit(x: int, p: int, y: int, c: int)
    ensures (x * p + y) * 10 + c == x * (10 * p) + (y * 10 + c)
  {
  }

  function Abs(n: int): nat {
    if n < 0 then -n else n
  }

  /** A decimal written out the way the number syntax reads it. */
  function ValueText(d: Decimal): string {
    (if d.units < 0 then "-" else "") + WholeText(d) + FractionText(d)
  }

  /** The digits of the whole part of a decimal. */
  function WholeText(d: Decimal): (w: string)
    ensures w != [] && AllDigits(w)
  {
    ModBelow(Abs(d.units), Pow10(d.scale));
    NatText(Abs(d.units) / Pow10(d.scale))
  }

  /** The point and the digits of the fractional part, if the scale is not 0. */
  function FractionText(d: Decimal): (f: string)
    ensures f == "" <==> d.scale == 0
    ensures f != "" ==> f[0] == '.' && |f| == d.scale + 1 && AllDigits(f[1..])
  {
    var m := Abs(d.units);
    var p := Pow10(d.scale);
    ModBelow(m, p);
    if d.scale == 0 then "" else "." + PadText(m % p, d.scale)
  }

  lemma ModBelow(m: nat, p: nat)
    requires p >= 1
    ensures m % p < p && m / p >= 0
    ensures (m / p) * p + m % p == m
  {
  }

  /** A sign, digits and an optional point with digits make a number text,
      and reading it splits it back into those parts. */
  lemma NumberParts(neg: bool, w: string, f: string)
    requires w != [] && AllDigits(w)
    requires f == [] || (f[0] == '.' && |f| >= 2 && AllDigits(f[1..]))
    ensures var x := (if neg then "-" else "") + w + f;
      IsNumber(x) && WholeDigits(x) == w && FractionDigits(x) == (if f == [] then [] else f[1..])
      && ((|x| > 0 && x[0] == '-') <==> neg)
  {
    var x := (if neg then "-" else "") + w + f;
    var b := w + f;
    assert Unsigned(x) == b by {
      if neg {
        assert x == "-" + b;
        assert x[1..] == b;
      } else {
        assert x == b;
        assert IsDigit(w[0]);
      }
    }
    DotIndexAfterDigits(w, f);
    assert b[..|w|] == w;
    if f != [] {
      assert b[|w| + 1..] == f[1..];
    }
  }

  /** The text of a decimal is a number text whose parts are the whole and the
      fractional digits of the decimal. */
  lemma ValueTextParts(d: Decimal)
    ensures IsNumber(ValueText(d))
    ensures WholeDigits(ValueText(d)) == NatText(Abs(d.units) / Pow10(d.scale))
    ensures FractionDigits(ValueText(d)) ==
            (if d.scale == 0 then "" else PadText(Abs(d.units) % Pow10(d.scale), d.scale))
    ensures (|ValueText(d)| > 0 && ValueText(d)[0] == '-') <==> d.units < 0
  {
    var f := FractionText(d);
    NumberParts(d.units < 0, WholeText(d), f);
    if d.scale > 0 {
      assert f[1..] == PadText(Abs(d.units) % Pow10(d.scale), d.scale);
    }
  }

  /** The first point of `w + f` is right after the digits `w`. */
  lemma {:induction false} DotIndexAfterDigits(w: string, f: string)
    requires AllDigits(w)
    requires f == [] || f[0] == '.'
    ensures DotIndex(w + f) == |w|
  {
    if |w| > 0 {
      assert (w + f)[1..] == w[1..] + f;
      DotIndexAfterDigits(w[1..], f);
    } else {
      assert w + f == f;
    }
  }

  /** Writing a canonical decimal and reading it back gives the same decimal. */
  lemma NumberRoundTrip(d: Decimal)
    requires Canonical(d)
    ensures IsNumber(ValueText(d))
    ensures NumberValue(ValueText(d)) == d
  {
    var x := ValueText(d);
    ValueTextParts(d);
    TextMagnitude(d);
    var sign := if |x| > 0 && x[0] == '-' then -1 else 1;
    assert sign * Abs(d.units) == d.units;
    assert Normalize(d) == d;
  }

  /** The digits of the text of a decimal spell the magnitude of its units. */
  lemma TextMagnitude(d: Decimal)
    ensures IsNumber(ValueText(d))
    ensures |FractionDigits(ValueText(d))| == d.scale
    ensures Magnitude(ValueText(d)) == Abs(d.units)
  {
    ValueTextParts(d);
    var x := ValueText(d);
    var m := Abs(d.units);
    var p := Pow10(d.scale);
    ModBelow(m, p);
    NatTextValue(m / p);
    if d.scale > 0 {
      PadTextValue(m % p, d.scale);
    } else {
      assert m % p == 0;
    }
    var w, f := WholeDigits(x), FractionDigits(x);
    assert DigitsValue(w) == m / p;
    assert DigitsValue(f) == m % p;
    DigitsValueJoin(w, f);
  }
}

=== FILE: fields.dfy ===
/** `build_record_from_sections` (src/parse_fields.py): the sections map turned
    into the structured record of one discharge document. */
module Fields {
  import opened Options
  import opened Text
  import opened Lists
  import opened Labs
  import opened Aliases
  import opened Sections

  /** Patient identity. The builder has nothing to fill it with. */
  datatype Patient = Patient(name: Option<string>, age: Option<nat>, sex: Option<string>)

  /** Encounter metadata. Only the visit type is ever set. */
  datatype Encounter = Encounter(date: Option<string>, facility: Option<string>, visitType: string)

  /** The structured record. `vitals` and `imaging` are always empty and
      `sourceEvidence` is always unset; their element types never matter. */
  datatype Record = Record(
    patient: Patient,
    encounter: Encounter,
    diagnoses: seq<string>,
    allergies: seq<string>,
    medications: seq<string>,
    vitals: seq<string>,
    labs: seq<LabEntry>,
    imaging: seq<string>,
    dischargeInstructions: string,
    followUp: string,
    returnPrecautions: string,
    sourceEvidence: Option<string>)

  const VisitType: string := "ED Discharge"

  /** The section keys the builder reads. */
  const Read: set<string> := {
    "diagnosis", "diagnoses", "allergies", "medications", "labs",
    "discharge instructions", "follow-up", "follow up", "return precautions"
  }

  /** Python's `sections.get(key) or ""`: a missing key and an empty value
      both give "". */
  function Field(sections: map<string, string>, key: string): (v: string)
    ensures key in sections ==> v == sections[key]
    ensures key !in sections ==> v == ""
  {
    if key in sections then sections[key] else ""
  }

  /** Python's `sections.get(first) or sections.get(second) or ""`: the first
      key's text unless it is missing or empty, then the second's. */
  function FirstOf(sections: map<string, string>, first: string, second: string): (v: string)
    ensures Field(sections, first) != "" ==> v == sections[first]
    ensures Field(sections, first) == "" ==> v == Field(sections, second)
  {
    var a := Field(sections, first);
    if a != "" then a else Field(sections, second)
  }

  /** The record of a document with no sections at all. */
  function EmptyRecord(): Record {
    Record(Patient(None, None, None), Encounter(None, None, VisitType),
      [], [], [], [], [], [], "", "", "", None)
  }

  /** `build_record_from_sections(sections)`: the diagnoses come from
      "diagnosis" unless it is missing or empty, then from "diagnoses"; the
      follow-up from "follow-up", then from "follow up"; the narrative fields
      are copied as they are. */
  function BuildRecord(sections: map<string, string>): (r: Record)
    ensures r.patient == Patient(None, None, None)
    ensures r.encounter == Encounter(None, None, "ED Discharge")
    ensures r.vitals == [] && r.imaging == [] && r.sourceEvidence == None
    ensures AllItems(r.diagnoses) && AllItems(r.allergies) && AllItems(r.medications)
    ensures forall i :: 0 <= i < |r.labs| ==> IsRaw(r.labs[i].raw)
    ensures Field(sections, "diagnosis") != "" ==> r.diagnoses == SplitList(sections["diagnosis"])
    ensures Field(sections, "diagnosis") == "" ==> r.diagnoses == SplitList(Field(sections, "diagnoses"))
    ensures r.allergies == SplitList(Field(sections, "allergies"))
    ensures r.medications == SplitList(Field(sections, "medications"))
    ensures r.labs == ParseLabs(Field(sections, "labs"))
    ensures "discharge instructions" in sections ==> r.dischargeInstructions == sections["discharge instructions"]
    ensures "return precautions" in sections ==> r.returnPrecautions == sections["return precautions"]
    ensures r.dischargeInstructions == Field(sections, "discharge instructions")
    ensures r.returnPrecautions == Field(sections, "return precautions")
    ensures Field(sections, "follow-up") != "" ==> r.followUp == sections["follow-up"]
    ensures Field(sections, "follow-up") == "" ==> r.followUp == Field(sections, "follow up")
  {
    Record(
      Patient(None, None, None),
      Encounter(None, None, VisitType),
      SplitList(FirstOf(sections, "diagnosis", "diagnoses")),
      SplitList(Field(sections, "allergies")),
      SplitList(Field(sections, "medications")),
      [],
      ParseLabs(Field(sections, "labs")),
      [],
      Field(sections, "discharge instructions"),
      FirstOf(sections, "follow-up", "follow up"),
      Field(sections, "return precautions"),
      None)
  }

  /** The lists are read back: clean items written under their keys joined
      by ", " come out of the builder as the same lists. */
  lemma {:induction false} BuildRecordRoundTrip(sections: map<string, string>, dx: seq<string>,
                                                 allergies: seq<string>, meds: seq<string>)
    requires AllItems(dx) && AllItems(allergies) && AllItems(meds)
    requires Field(sections, "diagnosis") == Join(dx, ", ") && "diagnoses" !in sections
    requires Field(sections, "allergies") == Join(allergies, ", ")
    requires Field(sections, "medications") == Join(meds, ", ")
    ensures var r := BuildRecord(sections);
            r.diagnoses == dx && r.allergies == allergies && r.medications == meds
  {
    SplitListJoin(dx);
    SplitListJoin(allergies);
    SplitListJoin(meds);
  }

  /** A document that lists its diagnoses under "diagnoses" (and has no
      non-empty "diagnosis" section) gets them back from that key. */
  lemma {:induction false} BuildRecordDiagnosesKey(sections: map<string, string>, dx: seq<string>)
    requires AllItems(dx)
    requires Field(sections, "diagnosis") == "" && Field(sections, "diagnoses") == Join(dx, ", ")
    ensures BuildRecord(sections).diagnoses == dx
  {
    SplitListJoin(dx);
  }

  /** The record depends on nothing but the keys the builder reads: two maps
      that agree on those keys give the same record. */
  lemma {:induction false} BuildRecordReads(a: map<string, string>, b: map<string, string>)
    requires forall k :: k in Read ==> Field(a, k) == Field(b, k)
    ensures BuildRecord(a) == BuildRecord(b)
  {
    assert Field(a, "diagnosis") == Field(b, "diagnosis");
    assert Field(a, "diagnoses") == Field(b, "diagnoses");
    assert Field(a, "allergies") == Field(b, "allergies");
    assert Field(a, "medications") == Field(b, "medications");
    assert Field(a, "labs") == Field(b, "labs");
    assert Field(a, "discharge instructions") == Field(b, "discharge instructions");
    assert Field(a, "follow-up") == Field(b, "follow-up");
    assert Field(a, "follow up") == Field(b, "follow up");
    assert Field(a, "return precautions") == Field(b, "return precautions");
  }

  /** An empty value counts as missing: dropping every key whose value is
      empty does not change the record. */
  lemma {:induction false} BuildRecordIgnoresEmpty(sections: map<string, string>)
    ensures BuildRecord(map k | k in sections && sections[k] != "" :: sections[k]) == BuildRecord(sections)
  {
    var kept := map k | k in sections && sections[k] != "" :: sections[k];
    forall k | k in Read
      ensures Field(kept, k) == Field(sections, k)
    {
    }
    BuildRecordReads(kept, sections);
  }

  /** The builder is total, and the empty map gives all-empty lists and
      strings. */
  lemma BuildRecordEmpty()
    ensures BuildRecord(map[]) == EmptyRecord()
  {
  }

  /** A sections map holding, under their canonical keys, the six headings
      and contents of the sample discharge summary the app offers
      (app/main.py), written out by hand rather than computed from the sample
      text. */
  function SampleSections(): map<string, string> {
    map[
      "diagnosis" := "Chest pain (rule-out)",
      "allergies" := "Penicillin",
      "medications" := "Aspirin 81 mg daily",
      "discharge instructions" := SampleInstructions,
      "follow-up" := "Family doctor in 2-3 days.",
      "return precautions" := SamplePrecautions]
  }

  const SampleInstructions: string := "Rest, avoid heavy exertion for 24 hours."

  const SamplePrecautions: string :=
    "Return immediately for worsening chest pain, shortness of breath, fainting, or sweating."

  lemma SampleFields()
    ensures var m := SampleSections();
            && Field(m, "diagnosis") == "Chest pain (rule-out)"
            && Field(m, "allergies") == "Penicillin"
            && Field(m, "medications") == "Aspirin 81 mg daily"
            && Field(m, "follow-up") == "Family doctor in 2-3 days."
            && Field(m, "discharge instructions") == SampleInstructions
            && Field(m, "return precautions") == SamplePrecautions
            && Field(m, "labs") == ""
  {
  }

  lemma SampleItems()
    ensures IsItem("Chest pain (rule-out)") && IsItem("Penicillin") && IsItem("Aspirin 81 mg daily")
  {
    assert NoneIn("Chest pain (rule-out)", ItemSeparators);
    assert NoneIn("Penicillin", ItemSeparators);
    assert NoneIn("Aspirin 81 mg daily", ItemSeparators);
  }

  /** The sample's sections become the expected record: one item per list, the
      follow-up, the instructions and the return precautions as written, and
      no labs. */
  lemma BuildRecordExample()
    ensures var r := BuildRecord(SampleSections());
            && r.diagnoses == ["Chest pain (rule-out)"]
            && r.allergies == ["Penicillin"]
            && r.medications == ["Aspirin 81 mg daily"]
            && r.followUp == "Family doctor in 2-3 days."
            && r.dischargeInstructions == SampleInstructions
            && r.returnPrecautions == SamplePrecautions
            && r.labs == []
  {
    SampleFields();
    SampleItems();
    SplitListItem("Chest pain (rule-out)");
    SplitListItem("Penicillin");
    SplitListItem("Aspirin 81 mg daily");
  }

  // ---------------------------------------------------------------------------
  // The whole text-to-record pipeline

  /** The record of a document's text. */
  function RecordOf(text: string): (r: Record)
    ensures r.encounter.visitType == "ED Discharge"
    ensures AllItems(r.diagnoses) && AllItems(r.allergies) && AllItems(r.medications)
  {
    BuildRecord(SplitIntoSections(text))
  }

  /** A text without a single header line gives the empty record, whatever
      else it says. */
  lemma NoHeaderEmptyRecord(text: string)
    requires !HasHeader(Entries(), text)
    ensures RecordOf(text) == EmptyRecord()
  {
    NoHeaderNoSections(text);
  }
}

=== FILE: headerexamples.dfy ===
/** Header lines read by the model: "FOLLOW UP:", one of the header lines the
    splitter's comment names (src/parse_sections.py), is a standalone
    follow-up header; and two illustrative lines of our own, "Plan: rest",
    which opens a discharge-instructions section, and "Plan to rest", which
    is ordinary text. */
module HeaderExamples {
  import opened Options
  import opened Text
  import opened Aliases
  import opened Sections

  predicate Lowercase(c: char) {
    'a' <= c <= 'z'
  }

  /** What keeps alias `x` from beginning "plan to rest": it is "plan" itself,
      or its first letter is not a p, or its second is an r. */
  predicate PlanApart(x: string) {
    x == "plan" || (|x| >= 2 && Lowercase(x[0]) && (x[0] != 'p' || x[1] == 'r'))
  }

  lemma PlanApartDiagnosis()
    ensures forall x :: x in AliasesOf(Diagnosis) ==> PlanApart(x)
  {
  }

  lemma PlanApartAllergies()
    ensures forall x :: x in AliasesOf(Allergies) ==> PlanApart(x)
  {
  }

  lemma PlanApartMedications()
    ensures forall x :: x in AliasesOf(Medications) ==> PlanApart(x)
  {
  }

  lemma PlanApartDischargeInstructions()
    ensures forall x :: x in AliasesOf(DischargeInstructions) ==> PlanApart(x)
  {
  }

  lemma PlanApartFollowUp()
    ensures forall x :: x in AliasesOf(FollowUp) ==> PlanApart(x)
  {
  }

  lemma PlanApartReturnPrecautions()
    ensures forall x :: x in AliasesOf(ReturnPrecautions) ==> PlanApart(x)
  {
  }

  lemma PlanApartVitals()
    ensures forall x :: x in AliasesOf(Vitals) ==> PlanApart(x)
  {
  }

  lemma PlanApartLabs()
    ensures forall x :: x in AliasesOf(Labs) ==> PlanApart(x)
  {
  }

  lemma PlanApartImaging()
    ensures forall x :: x in AliasesOf(Imaging) ==> PlanApart(x)
  {
  }

  lemma AllPlanApart(s: Section, x: string)
    requires x in AliasesOf(s)
    ensures PlanApart(x)
  {
    match s
    case Diagnosis => PlanApartDiagnosis();
    case Allergies => PlanApartAllergies();
    case Medications => PlanApartMedications();
    case DischargeInstructions => PlanApartDischargeInstructions();
    case FollowUp => PlanApartFollowUp();
    case ReturnPrecautions => PlanApartReturnPrecautions();
    case Vitals => PlanApartVitals();
    case Labs => PlanApartLabs();
    case Imaging => PlanApartImaging();
  }

  lemma PlanClean()
    ensures CleanAlias("plan") == "plan"
  {
    StrippedFixed("plan");
  }

  lemma LowerPlanToRest()
    ensures Lower("Plan to rest") == "plan to rest"
  {
  }

  lemma LowerPlanColon()
    ensures Lower("Plan: rest") == "plan: rest"
  {
  }

  lemma PlanNotBeforeTo(form: Form)
    ensures !Fits("plan to rest", "plan", form)
  {
    assert "plan" + " to rest" == "plan to rest";
    WordAfter("plan", " to rest", form);
  }

  lemma PlanBeforeColon()
    ensures Fits("plan: rest", "plan", Inline)
  {
    assert "plan: rest"[4..] == ": rest";
  }

  /** A cleaned alias whose first two letters are not "pl" does not begin a
      line whose lower-case form does. */
  lemma NotPl(low: string, x: string, form: Form)
    requires |low| >= 2 && low[0] == 'p' && low[1] == 'l'
    requires |x| >= 2 && Lowercase(x[0]) && (x[0] != 'p' || x[1] == 'r')
    ensures !Fits(low, CleanAlias(x), form)
  {
    CleanAliasAt(x, 0);
    if x[0] == 'p' {
      CleanAliasAt(x, 1);
    }
  }

  lemma NotPlanToRest(x: string, form: Form)
    requires PlanApart(x)
    ensures !Fits("plan to rest", CleanAlias(x), form)
  {
    if x == "plan" {
      PlanClean();
      PlanNotBeforeTo(form);
    } else {
      var low := "plan to rest";
      assert low[0] == 'p' && low[1] == 'l';
      NotPl(low, x, form);
    }
  }

  /** "Plan to rest" is not a header: no alias of the table fits its
      lower-case text in either form. */
  lemma PlanToRestNotHeader()
    ensures !IsHeader(Entries(), "Plan to rest")
  {
    LowerPlanToRest();
    forall i, form | 0 <= i < |Entries()| ensures !Fits(Lower("Plan to rest"), Entries()[i].0, form) {
      AllPlanApart(Table[i].1, Table[i].0);
      NotPlanToRest(Table[i].0, form);
    }
  }

  /** "Plan: rest" is a header: the alias "plan" fits it in the inline form. */
  lemma PlanColonRestIsHeader()
    ensures IsHeader(Entries(), "Plan: rest")
  {
    LowerPlanColon();
    TableLists(DischargeInstructions, "plan");
    var i :| 0 <= i < |Table| && Table[i] == ("plan", DischargeInstructions);
    PlanClean();
    PlanBeforeColon();
    assert Fits(Lower("Plan: rest"), Entries()[i].0, Inline);
  }

  // ---------------------------------------------------------------------------
  // Which alias a given line matches

  /** No character of `s` is an upper-case ASCII letter. */
  predicate NoUpper(s: string) {
    forall i :: 0 <= i < |s| ==> !('A' <= s[i] <= 'Z')
  }

  /** A stripped alias without upper-case letters is its own cleaned form. */
  lemma CleanWhenClean(x: string)
    requires IsStripped(x, Whitespace) && NoUpper(x)
    ensures CleanAlias(x) == x
  {
    StrippedFixed(x);
    assert Lower(x) == x;
  }

  /** Character `k` of alias `y` survives cleaning in place and, lower-cased,
      differs from character `k` of the line `low`. */
  predicate DiffersAt(low: string, y: string, k: nat) {
    k < |y| && k < |low| && Visible(y[0]) && Visible(y[k]) && LowerChar(y[k]) != low[k]
  }

  /** A printable ASCII character other than the space. */
  predicate Visible(c: char) {
    '!' <= c <= '~'
  }

  lemma VisibleNotWhitespace(c: char)
    requires Visible(c)
    ensures c !in Whitespace
  {
  }

  /** Alias `y` differs from `low` at one of its first twelve characters. */
  predicate DiffersEarly(low: string, y: string) {
    DiffersAt(low, y, 0) || DiffersAt(low, y, 1) || DiffersAt(low, y, 2) || DiffersAt(low, y, 3) ||
    DiffersAt(low, y, 4) || DiffersAt(low, y, 5) || DiffersAt(low, y, 6) || DiffersAt(low, y, 7) ||
    DiffersAt(low, y, 8) || DiffersAt(low, y, 9) || DiffersAt(low, y, 10) || DiffersAt(low, y, 11)
  }

  /** Alias `y`, once cleaned, is longer than the line `low`. */
  predicate Longer(low: string, y: string) {
    |y| > |low| && Visible(y[0]) && Visible(y[|y| - 1])
  }

  /** Alias `y`, once cleaned, cannot begin the line `low`. */
  predicate Excluded(low: string, y: string) {
    Longer(low, y) || DiffersEarly(low, y)
  }

  /** Of the aliases of `s`, none but `a` can begin the line `low`. */
  predicate OnlyFits(low: string, a: string, s: Section) {
    forall y :: y in AliasesOf(s) ==> y == a || Excluded(low, y)
  }

  lemma DiffIndex(low: string, y: string) returns (k: nat)
    requires DiffersEarly(low, y)
    ensures DiffersAt(low, y, k)
  {
    k :| k < 12 && DiffersAt(low, y, k);
  }

  /** An excluded alias fits the line in neither form. */
  lemma ExcludedNotFits(low: string, y: string, form: Form)
    requires Excluded(low, y)
    ensures !Fits(low, CleanAlias(y), form)
  {
    VisibleNotWhitespace(y[0]);
    if Longer(low, y) {
      VisibleNotWhitespace(y[|y| - 1]);
      CleanAliasAt(y, |y| - 1);
    } else {
      var k := DiffIndex(low, y);
      VisibleNotWhitespace(y[k]);
      CleanAliasAt(y, k);
    }
  }

  /** A line that alias `a` of section `s` fits in `form`, and that no other
      alias of the table fits, is a header of that form filed under the key of
      `s`; an inline fit counts only when `a` does not also fit standalone. */
  lemma HeaderOf(line: string, a: string, s: Section, form: Form)
    requires a in AliasesOf(s) && CleanAlias(a) == a
    requires Fits(Lower(line), a, form)
    requires form == Inline ==> !Fits(Lower(line), a, Standalone)
    requires forall t: Section :: OnlyFits(Lower(line), a, t)
    ensures MatchHeader(Entries(), line).Some?
    ensures MatchHeader(Entries(), line).value.form == form
    ensures Entries()[MatchHeader(Entries(), line).value.index].0 == a
    ensures MatchHeader(Entries(), line).value.key == s.Key()
  {
    ChosenAlias(line, a, s, form);
    EntriesClean();
    HeaderKey(Entries(), line);
    LookupOnly(Lower(line), a, s, form);
  }

  /** The alternative the pattern takes on such a line is alias `a` in `form`. */
  lemma ChosenAlias(line: string, a: string, s: Section, form: Form)
    requires a in AliasesOf(s) && CleanAlias(a) == a
    requires Fits(Lower(line), a, form)
    requires form == Inline ==> !Fits(Lower(line), a, Standalone)
    requires forall t: Section :: OnlyFits(Lower(line), a, t)
    ensures MatchHeader(Entries(), line).Some?
    ensures MatchHeader(Entries(), line).value.form == form
    ensures Entries()[MatchHeader(Entries(), line).value.index].0 == a
  {
    var low := Lower(line);
    var i := EntryOf(a, s);
    assert Fits(low, Entries()[i].0, form);
    var h := MatchHeader(Entries(), line).value;
    OnlyAt(low, a, h.index, h.form);
  }

  /** Where alias `a` of `s` sits among the entries. */
  lemma EntryOf(a: string, s: Section) returns (i: nat)
    requires a in AliasesOf(s) && CleanAlias(a) == a
    ensures i < |Entries()| && Entries()[i] == (a, s)
  {
    i := TableIndex(a, s);
    assert Entries()[i] == (CleanAlias(Table[i].0), Table[i].1);
  }

  /** The position of alias `a` of section `s` in the table. */
  lemma TableIndex(a: string, s: Section) returns (i: nat)
    requires a in AliasesOf(s)
    ensures i < |Table| && Table[i] == (a, s)
  {
    TableLists(s, a);
    i := IndexOf((a, s), Table);
  }

  /** A position at which `x` occurs in `t`. */
  lemma IndexOf<T>(x: T, t: seq<T>) returns (i: nat)
    requires x in t
    ensures i < |t| && t[i] == x
  {
    i :| 0 <= i < |t| && t[i] == x;
  }

  /** The dictionary files alias `a` under section `s` when no other alias of
      the table can begin a line that `a` fits. */
  lemma LookupOnly(low: string, a: string, s: Section, form: Form)
    requires a in AliasesOf(s) && CleanAlias(a) == a
    requires Fits(low, a, form)
    requires forall t: Section :: OnlyFits(low, a, t)
    ensures Lookup(Entries(), a) == Some(s)
  {
    var i := EntryOf(a, s);
    assert !Unlisted(a, Entries());
    var t := Lookup(Entries(), a).value;
    var m :| 0 <= m < |Entries()| && Entries()[m] == (a, t);
    OnlyAt(low, a, m, form);
    assert Table[m].0 in AliasesOf(Table[m].1);
    SectionsApart();
    assert !Apart(s, Table[m].1) by {
      assert a in AliasesOf(s) && a in AliasesOf(Table[m].1);
    }
  }

  /** The only entry that can begin `low` is alias `a` itself. */
  lemma OnlyAt(low: string, a: string, j: nat, form: Form)
    requires forall t: Section :: OnlyFits(low, a, t)
    requires CleanAlias(a) == a
    requires j < |Entries()|
    ensures Fits(low, Entries()[j].0, form) ==> Table[j].0 == a && Entries()[j].0 == a
  {
    var y := Table[j].0;
    assert OnlyFits(low, a, Table[j].1);
    if y != a {
      ExcludedNotFits(low, y, form);
    }
  }

  lemma LowerFollowUpLine()
    ensures Lower("FOLLOW UP:") == "follow up:"
  {
  }

  /** Of every section's aliases, only "follow up" can begin "follow up:". */
  lemma OnlyFollowUp(t: Section)
    ensures OnlyFits("follow up:", "follow up", t)
  {
    match t
    case Diagnosis => OnlyFollowUpDiagnosis();
    case Allergies => OnlyFollowUpAllergies();
    case Medications => OnlyFollowUpMedications();
    case DischargeInstructions => OnlyFollowUpDischargeInstructions();
    case FollowUp => OnlyFollowUpFollowUp();
    case ReturnPrecautions => OnlyFollowUpReturnPrecautions();
    case Vitals => OnlyFollowUpVitals();
    case Labs => OnlyFollowUpLabs();
    case Imaging => OnlyFollowUpImaging();
  }

  lemma OnlyFollowUpDiagnosis()
    ensures OnlyFits("follow up:", "follow up", Diagnosis)
  {
  }

  lemma OnlyFollowUpAllergies()
    ensures OnlyFits("follow up:", "follow up", Allergies)
  {
  }

  lemma OnlyFollowUpMedications()
    ensures OnlyFits("follow up:", "follow up", Medications)
  {
  }

  lemma OnlyFollowUpDischargeInstructions()
    ensures OnlyFits("follow up:", "follow up", DischargeInstructions)
  {
  }

  lemma OnlyFollowUpFollowUp()
    ensures OnlyFits("follow up:", "follow up", FollowUp)
  {
  }

  lemma OnlyFollowUpReturnPrecautions()
    ensures OnlyFits("follow up:", "follow up", ReturnPrecautions)
  {
  }

  lemma OnlyFollowUpVitals()
    ensures OnlyFits("follow up:", "follow up", Vitals)
  {
  }

  lemma OnlyFollowUpLabs()
    ensures OnlyFits("follow up:", "follow up", Labs)
  {
  }

  lemma OnlyFollowUpImaging()
    ensures OnlyFits("follow up:", "follow up", Imaging)
  {
  }

  /** "FOLLOW UP:", one of the header lines the splitter's comment gives as
      examples, is a header on a line of its own, filed under "follow-up"
      although the line spells it without the hyphen. */
  lemma FollowUpHeader()
    ensures MatchHeader(Entries(), "FOLLOW UP:").Some?
    ensures MatchHeader(Entries(), "FOLLOW UP:").value.form == Standalone
    ensures MatchHeader(Entries(), "FOLLOW UP:").value.key == "follow-up"
  {
    LowerFollowUpLine();
    forall t: Section ensures OnlyFits(Lower("FOLLOW UP:"), "follow up", t) {
      OnlyFollowUp(t);
    }
    CleanWhenClean("follow up");
    assert "follow up:"[..9] == "follow up" && "follow up:"[9..] == ":";
    HeaderOf("FOLLOW UP:", "follow up", FollowUp, Standalone);
  }
}

=== FILE: labexamples.dfy ===
/** Lab lines read by the model: the two lines `parse_labs_section`'s
    docstring gives (src/parse_labs.py), and two illustrative lines of our own
    that show a name holding a space and a bare trailing H. */
module LabExamples {
  import opened Options
  import opened Text
  import opened Decimals
  import opened LabGrammar
  import opened Labs

  const WbcLine: string := "WBC 13.2 x10^9/L (4.0 - 11.0) H"

  /** The entry of the docstring's first line. */
  function Wbc(): LabEntry {
    LabEntry("WBC", Decimal(132, 1), Some("x10^9/L"), Some("4.0 - 11.0"), Some('H'), WbcLine)
  }

  lemma WbcValueText()
    ensures ValueText(Decimal(132, 1)) == "13.2"
  {
    assert Pow10(1) == 10;
    assert NatText(13) == "13" by {
      assert NatText(1) == "1";
    }
    assert PadText(2, 1) == "2" by {
      assert PadText(0, 0) == "";
    }
  }

  lemma WbcName()
    ensures NameOk("WBC")
  {
    assert Between("WBC", 1, 3, NameChar) by {
      assert "WBC"[1] == 'B' && "WBC"[2] == 'C';
    }
    assert "WBC"[0] == 'W' && "WBC"[1] == 'B' && "WBC"[2] == 'C';
  }

  /** A name may hold a space before a word that does not begin like a
      value. */
  lemma HbA1cName()
    ensures NameOk("Hemoglobin A1c")
  {
    var t := "Hemoglobin A1c";
    assert t == "Hemoglobin" + " " + "A1c";
    forall i | 1 <= i < |t| && t[i - 1] in Whitespace && t[i] !in Whitespace
      ensures t[i] != '-' && !IsDigit(t[i])
    {
      assert i == 11;
    }
  }

  lemma WbcUnit()
    ensures UnitOk(Some("x10^9/L"))
  {
    var u := "x10^9/L";
    assert u[0] == 'x' && u[1] == '1' && u[2] == '0' && u[3] == '^';
    assert u[4] == '9' && u[5] == '/' && u[6] == 'L';
  }

  lemma WbcRange()
    ensures RangeOk(Some("4.0 - 11.0"))
  {
    var r := "4.0 - 11.0";
    assert r[0] == '4' && r[9] == '0';
    assert NoneIn(r, {')'});
  }

  lemma WbcWellFormed()
    ensures WellFormed(Wbc())
  {
    WbcName();
    WbcUnit();
    WbcRange();
  }

  lemma WbcTail()
    ensures TailText(Some("x10^9/L"), Some("4.0 - 11.0"), Some('H')) == " x10^9/L (4.0 - 11.0) H"
  {
    assert UnitText(Some("x10^9/L")) == " x10^9/L";
    assert RefText(Some("4.0 - 11.0")) == " (4.0 - 11.0)";
    assert FlagText(Some('H')) == " H";
  }

  lemma WbcRest()
    ensures " " + "13.2" + " x10^9/L (4.0 - 11.0) H" == " 13.2 x10^9/L (4.0 - 11.0) H"
  {
  }

  lemma WbcWhole()
    ensures "WBC" + " 13.2 x10^9/L (4.0 - 11.0) H" == WbcLine
  {
  }

  lemma WbcPieces()
    ensures "WBC" + (" " + "13.2" + " x10^9/L (4.0 - 11.0) H") == WbcLine
  {
    WbcRest();
    WbcWhole();
  }

  lemma WbcLineText()
    ensures LabLine(Wbc()) == WbcLine
  {
    WbcValueText();
    WbcTail();
    WbcPieces();
  }

  /** "WBC 13.2 x10^9/L (4.0 - 11.0) H" reads as test "WBC", value 13.2,
      unit "x10^9/L", range "4.0 - 11.0" and flag H. */
  lemma WbcExample()
    ensures ParseLine(WbcLine) == Some(Wbc())
  {
    WbcWellFormed();
    WbcLineText();
    LabLineRoundTrip(Wbc());
  }

  const CreatinineLine: string := "Creatinine 112 umol/L (60 - 110) H"

  /** The entry of the docstring's second line. */
  function Creatinine(): LabEntry {
    LabEntry("Creatinine", Decimal(112, 0), Some("umol/L"), Some("60 - 110"), Some('H'), CreatinineLine)
  }

  lemma CreatinineValueText()
    ensures ValueText(Decimal(112, 0)) == "112"
  {
    assert Pow10(0) == 1;
    assert NatText(112) == "112" by {
      assert NatText(11) == "11" by { assert NatText(1) == "1"; }
    }
  }

  /** A name of ASCII letters only is a well-formed name. */
  lemma LettersName(n: string)
    requires |n| >= 2 && forall m :: 0 <= m < |n| ==> IsAsciiLetter(n[m])
    ensures NameOk(n)
  {
    forall m | 0 <= m < |n| ensures n[m] !in Whitespace {
      assert IsAsciiLetter(n[m]);
    }
  }

  lemma CreatinineName()
    ensures NameOk("Creatinine")
  {
    var n := "Creatinine";
    assert n[0] == 'C' && n[1] == 'r' && n[2] == 'e' && n[3] == 'a' && n[4] == 't';
    assert n[5] == 'i' && n[6] == 'n' && n[7] == 'i' && n[8] == 'n' && n[9] == 'e';
    LettersName(n);
  }

  lemma CreatinineUnit()
    ensures UnitOk(Some("umol/L"))
  {
    var u := "umol/L";
    assert u[0] == 'u' && u[1] == 'm' && u[2] == 'o' && u[3] == 'l' && u[4] == '/' && u[5] == 'L';
  }

  lemma CreatinineRange()
    ensures RangeOk(Some("60 - 110"))
  {
    var r := "60 - 110";
    assert r[0] == '6' && r[7] == '0';
    assert NoneIn(r, {')'});
  }

  lemma CreatinineWellFormed()
    ensures WellFormed(Creatinine())
  {
    CreatinineName();
    CreatinineUnit();
    CreatinineRange();
  }

  lemma CreatinineTail()
    ensures TailText(Some("umol/L"), Some("60 - 110"), Some('H')) == " umol/L (60 - 110) H"
  {
    assert UnitText(Some("umol/L")) == " umol/L";
    assert RefText(Some("60 - 110")) == " (60 - 110)";
    assert FlagText(Some('H')) == " H";
  }

  lemma CreatininePieces()
    ensures "Creatinine" + (" " + "112" + " umol/L (60 - 110) H") == CreatinineLine
  {
  }

  lemma CreatinineLineText()
    ensures LabLine(Creatinine()) == CreatinineLine
  {
    CreatinineValueText();
    CreatinineTail();
    CreatininePieces();
  }

  /** "Creatinine 112 umol/L (60 - 110) H" reads as test "Creatinine", value
      112, unit "umol/L", range "60 - 110" and flag H. */
  lemma CreatinineExample()
    ensures ParseLine(CreatinineLine) == Some(Creatinine())
  {
    CreatinineWellFormed();
    CreatinineLineText();
    LabLineRoundTrip(Creatinine());
  }

  const HbA1cLine: string := "Hemoglobin A1c 6.1 %"

  /** The entry of a line whose name holds a space. */
  function HbA1c(): LabEntry {
    LabEntry("Hemoglobin A1c", Decimal(61, 1), Some("%"), None, None, HbA1cLine)
  }

  lemma HbA1cValueText()
    ensures ValueText(Decimal(61, 1)) == "6.1"
  {
    assert Pow10(1) == 10;
  }

  lemma HbA1cWellFormed()
    ensures WellFormed(HbA1c())
  {
    HbA1cName();
    assert "%"[0] == '%';
  }

  lemma HbA1cLineText()
    ensures LabLine(HbA1c()) == HbA1cLine
  {
    HbA1cValueText();
    assert TailText(Some("%"), None, None) == " %";
    assert "Hemoglobin A1c" + (" " + "6.1" + " %") == HbA1cLine;
  }

  /** "Hemoglobin A1c 6.1 %" reads as test "Hemoglobin A1c": the lazy name
      runs on past "Hemoglobin", since "A1c" is no value. */
  lemma HbA1cExample()
    ensures ParseLine(HbA1cLine) == Some(HbA1c())
  {
    HbA1cWellFormed();
    HbA1cLineText();
    LabLineRoundTrip(HbA1c());
  }

  const NaLine: string := "Na 140 H"

  lemma NaLineText()
    ensures LabLine(LabEntry("Na", Decimal(140, 0), None, None, Some('H'), "")) == NaLine
  {
    assert ValueText(Decimal(140, 0)) == "140" by {
      assert Pow10(0) == 1;
      assert NatText(140) == "140" by {
        assert NatText(14) == "14" by { assert NatText(1) == "1"; }
      }
    }
  }

  lemma NaWellFormed()
    ensures WellFormed(LabEntry("Na", Decimal(140, 0), Some("H"), None, None, ""))
  {
    assert Between("Na", 1, 2, NameChar) by { assert "Na"[1] == 'a'; }
    assert NoneIn("Na", Whitespace);
    assert Between("H", 0, 1, UnitChar);
  }

  /** "Na 140 H" reads the H as the unit and has no flag. */
  lemma NaExample()
    ensures ParseLine(NaLine) == Some(LabEntry("Na", Decimal(140, 0), Some("H"), None, None, NaLine))
  {
    NaLineText();
    NaWellFormed();
    BareFlagIsUnit(LabEntry("Na", Decimal(140, 0), None, None, Some('H'), ""));
  }
}

=== FILE: labgrammar.dfy ===
/** The lab-line pattern `LAB_LINE` (src/parse_labs.py) and the way Python's
    backtracking matcher resolves it.

    The pattern, read left to right, is: optional whitespace; the test name (a
    letter, then at least one more name character, matched lazily); at least
    one whitespace character; the number `-?\d+(\.\d+)?`; optional whitespace;
    an optional unit; optional whitespace; an optional `(reference range)`;
    optional whitespace; an optional `H` or `L` flag; optional whitespace; the
    end of the line.

    Every part after the test name either cannot give back characters without
    failing, or can give them back only to parts that would accept them
    anyway. So the matcher's answer is: the shortest test name after which a
    greedy reading of the remaining parts succeeds. `LabMatch` computes that
    reading; `Valid` is the pattern as a plain grammar over cut positions;
    `LabMatch`'s contract and `LabMatchComplete` relate the two. */
module LabGrammar {
  import opened Options
  import opened Text
  import opened Decimals

  /** The character classes the pattern uses. */
  datatype CharClass =
    | Space       // `\s`
    | NameChar    // `[A-Za-z0-9\s\-\(\)\/]`
    | UnitChar    // `[A-Za-zÂµ/%0-9\^\.\-]`
    | Digit       // `\d`
    | NumberChar  // a digit or the decimal point

  predicate InClass(c: char, k: CharClass) {
    match k
    case Space => c in Whitespace
    case NameChar => IsAsciiLetter(c) || IsDigit(c) || c in Whitespace || c == '-' || c == '(' || c == ')' || c == '/'
    case UnitChar =>
      IsAsciiLetter(c) || IsDigit(c) || c == '\U{00C2}' || c == '\U{00B5}'
      || c == '/' || c == '%' || c == '^' || c == '.' || c == '-'
    case Digit => IsDigit(c)
    case NumberChar => IsDigit(c) || c == '.'
  }

  predicate IsFlagChar(c: char) {
    c == 'H' || c == 'L'
  }

  /** Characters no whitespace run, reference range or flag can start with. */
  lemma ClassFacts(c: char)
    ensures InClass(c, NumberChar) ==> InClass(c, UnitChar) && !InClass(c, Space) && c != '(' && !IsFlagChar(c)
    ensures InClass(c, UnitChar) ==> !InClass(c, Space) && c != '('
    ensures IsFlagChar(c) ==> !InClass(c, Space) && c != '('
    ensures IsAsciiLetter(c) ==> !InClass(c, Space)
    ensures c == '-' ==> !InClass(c, Space)
  {
  }

  /** `s[i..j]` lies inside `s` and every character of it is of class `k`. */
  predicate Between(s: string, i: nat, j: nat, k: CharClass) {
    i <= j <= |s| && forall m :: i <= m < j ==> InClass(s[m], k)
  }

  lemma BetweenJoin(s: string, i: nat, j: nat, l: nat, k: CharClass)
    requires Between(s, i, j, k) && Between(s, j, l, k)
    ensures Between(s, i, l, k)
  {
  }

  /** The end of the longest run of class `k` that starts at `i`. */
  function Span(s: string, i: nat, k: CharClass): (j: nat)
    requires i <= |s|
    ensures Between(s, i, j, k)
    ensures j == |s| || !InClass(s[j], k)
    decreases |s| - i
  {
    if i < |s| && InClass(s[i], k) then Span(s, i + 1, k) else i
  }

  /** A run of class `k` that cannot be extended is the run `Span` finds. */
  lemma {:induction false} SpanAt(s: string, i: nat, j: nat, k: CharClass)
    requires Between(s, i, j, k)
    requires j == |s| || !InClass(s[j], k)
    ensures Span(s, i, k) == j
    decreases |s| - i
  {
    if i < j {
      SpanAt(s, i + 1, j, k);
    }
  }

  /** The longest run is at least as long as any run. */
  lemma {:induction false} SpanCovers(s: string, i: nat, j: nat, k: CharClass)
    requires Between(s, i, j, k)
    ensures j <= Span(s, i, k)
    decreases j - i
  {
    if i < j {
      SpanCovers(s, i + 1, j, k);
    }
  }

  function SkipSpace(s: string, i: nat): (j: nat)
    requires i <= |s|
    ensures Between(s, i, j, Space)
    ensures j == |s| || !InClass(s[j], Space)
  {
    Span(s, i, Space)
  }

  /** Skipping whitespace from inside a run of whitespace ends where the run
      ends. */
  lemma SkipSpaceFrom(s: string, i: nat, j: nat)
    requires Between(s, i, j, Space)
    requires j <= SkipSpace(s, i)
    ensures SkipSpace(s, j) == SkipSpace(s, i)
  {
    SpanAt(s, j, SkipSpace(s, i), Space);
  }

  /** The first `)` at or after `i`. */
  function CloseParen(s: string, i: nat): (r: Option<nat>)
    requires i <= |s|
    ensures r.Some? ==> i <= r.value < |s| && s[r.value] == ')'
    ensures forall m :: i <= m < (if r.Some? then r.value else |s|) ==> s[m] != ')'
    decreases |s| - i
  {
    if i == |s| then None else if s[i] == ')' then Some(i) else CloseParen(s, i + 1)
  }

  // ---------------------------------------------------------------------------
  // The pattern as a grammar over cut positions

  /** `\s* (H|L)? \s* $` from `q`: the flag is `s[f0..f1]`. */
  datatype FlagCut = FlagCut(f0: nat, f1: nat)

  /** `\s* (\( [^)]+ \))? ...` from `q`: the parenthesised range is `s[r0..r1]`. */
  datatype RefCut = RefCut(r0: nat, r1: nat, flag: FlagCut)

  /** `\s* unit? ...` from `q`: the unit is `s[u0..u1]`. */
  datatype UnitCut = UnitCut(u0: nat, u1: nat, ref: RefCut)

  /** `\s+ number ...` after the test name: the number is `s[v0..v1]`. */
  datatype RestCut = RestCut(v0: nat, v1: nat, unit: UnitCut)

  /** A whole line: the test name is `s[a..t]`. */
  datatype LabCut = LabCut(a: nat, t: nat, rest: RestCut)

  predicate ValidFlag(s: string, q: nat, c: FlagCut) {
    Between(s, q, c.f0, Space)
    && (c.f1 == c.f0 || (c.f1 == c.f0 + 1 && c.f0 < |s| && IsFlagChar(s[c.f0])))
    && Between(s, c.f1, |s|, Space)
  }

  /** `s[r0..r1]` is `(`, one or more characters other than `)`, and `)`. */
  predicate RefAt(s: string, r0: nat, r1: nat) {
    r0 + 3 <= r1 <= |s| && s[r0] == '(' && s[r1 - 1] == ')'
    && forall m :: r0 < m < r1 - 1 ==> s[m] != ')'
  }

  predicate ValidRef(s: string, q: nat, c: RefCut) {
    Between(s, q, c.r0, Space)
    && (c.r1 == c.r0 || RefAt(s, c.r0, c.r1))
    && ValidFlag(s, c.r1, c.flag)
  }

  predicate ValidUnit(s: string, q: nat, c: UnitCut) {
    Between(s, q, c.u0, Space) && Between(s, c.u0, c.u1, UnitChar) && ValidRef(s, c.u1, c.ref)
  }

  predicate ValidRest(s: string, t: nat, c: RestCut) {
    t < c.v0 && Between(s, t, c.v0, Space)
    && c.v0 < c.v1 <= |s| && IsNumber(s[c.v0..c.v1])
    && ValidUnit(s, c.v1, c.unit)
  }

  predicate ValidHead(s: string, a: nat, t: nat) {
    Between(s, 0, a, Space) && a + 2 <= t <= |s| && IsAsciiLetter(s[a])
    && Between(s, a + 1, t, NameChar)
  }

  /** `s` matches the pattern with the parts cut where `c` says. */
  predicate Valid(s: string, c: LabCut) {
    ValidHead(s, c.a, c.t) && ValidRest(s, c.t, c.rest)
  }

  // ---------------------------------------------------------------------------
  // The matcher

  function FlagPart(s: string, q: nat): (r: Option<FlagCut>)
    requires q <= |s|
    ensures r.Some? ==> ValidFlag(s, q, r.value) && r.value.f0 == SkipSpace(s, q)
  {
    var f0 := SkipSpace(s, q);
    var f1 := if f0 < |s| && IsFlagChar(s[f0]) then f0 + 1 else f0;
    if SkipSpace(s, f1) == |s| then Some(FlagCut(f0, f1)) else None
  }

  function RefPart(s: string, q: nat): (r: Option<RefCut>)
    requires q <= |s|
    ensures r.Some? ==> ValidRef(s, q, r.value) && r.value.r0 == SkipSpace(s, q)
  {
    RefFrom(s, SkipSpace(s, q))
  }

  /** The optional range and the flag once the whitespace before them is
      skipped: the range opens at `r0` or is absent. */
  function RefFrom(s: string, r0: nat): (r: Option<RefCut>)
    requires r0 <= |s|
    ensures r.Some? ==> r.value.r0 == r0 && ValidRef(s, r0, r.value)
  {
    if r0 < |s| && s[r0] == '(' then
      match CloseParen(s, r0 + 1)
      case None => None
      case Some(close) =>
        if close == r0 + 1 then None
        else
          match FlagPart(s, close + 1)
          case None => None
          case Some(f) => Some(RefCut(r0, close + 1, f))
    else
      match FlagPart(s, r0)
      case None => None
      case Some(f) =>
        SkipSpaceFrom(s, r0, r0);
        Some(RefCut(r0, r0, f))
  }

  function UnitPart(s: string, q: nat): (r: Option<UnitCut>)
    requires q <= |s|
    ensures r.Some? ==> ValidUnit(s, q, r.value) && r.value.u0 == SkipSpace(s, q)
  {
    var u0 := SkipSpace(s, q);
    var u1 := Span(s, u0, UnitChar);
    match RefPart(s, u1)
    case None => None
    case Some(ref) => Some(UnitCut(u0, u1, ref))
  }

  /** The unit is greedy: it is tried before the flag and the range, and the
      matcher keeps it as long as possible, so it stops only at the end of the
      line or at a character that cannot be part of a unit. */
  lemma UnitLongest(s: string, q: nat)
    requires q <= |s|
    ensures var r := UnitPart(s, q);
            r.Some? ==> r.value.u1 == |s| || !InClass(s[r.value.u1], UnitChar)
  {
  }

  /** `-?\d+(\.\d+)?` read greedily from `v0`: where the number ends. */
  function NumberEnd(s: string, v0: nat): (r: Option<nat>)
    requires v0 <= |s|
    ensures r.Some? ==> v0 < r.value <= |s|
  {
    var a := if v0 < |s| && s[v0] == '-' then v0 + 1 else v0;
    var d := Span(s, a, Digit);
    if d == a then None
    else if d + 1 < |s| && s[d] == '.' && IsDigit(s[d + 1]) then
      Some(Span(s, d + 1, Digit))
    else
      Some(d)
  }

  /** The greedy reading is a number text: an optional minus sign, digits,
      and a point with more digits when one follows. */
  lemma NumberEndIsNumber(s: string, v0: nat)
    requires v0 <= |s|
    ensures NumberEnd(s, v0).Some? ==> IsNumber(s[v0..NumberEnd(s, v0).value])
  {
    var a := if v0 < |s| && s[v0] == '-' then v0 + 1 else v0;
    var d := Span(s, a, Digit);
    if d != a {
      var e := if d + 1 < |s| && s[d] == '.' && IsDigit(s[d + 1]) then Span(s, d + 1, Digit) else d;
      assert NumberEnd(s, v0) == Some(e);
      NumberText(s, v0, a, d, e);
    }
  }

  /** The digits `s[a..d]`, after the sign `s[v0..a]`, and the fraction
      `s[d..e]` (empty, or a point and digits) form a number. */
  lemma NumberText(s: string, v0: nat, a: nat, d: nat, e: nat)
    requires v0 <= a <= v0 + 1 && a < d <= e <= |s|
    requires a == v0 + 1 <==> s[v0] == '-'
    requires Between(s, a, d, Digit)
    requires e == d || (d + 1 < e && s[d] == '.' && Between(s, d + 1, e, Digit))
    ensures IsNumber(s[v0..e])
  {
    UnsignedAt(s, v0, a, e);
    DotAt(s, a, d, e);
    DigitsBetween(s, a, d);
    if e > d {
      DigitsBetween(s, d + 1, e);
    }
  }

  /** Dropping the sign of `s[v0..e]` leaves `s[a..e]`. */
  lemma UnsignedAt(s: string, v0: nat, a: nat, e: nat)
    requires v0 <= a <= v0 + 1 && a < e <= |s|
    requires a == v0 + 1 <==> s[v0] == '-'
    requires a == v0 ==> IsDigit(s[a])
    ensures Unsigned(s[v0..e]) == s[a..e]
  {
    var x := s[v0..e];
    if a == v0 + 1 {
      assert x[1..] == s[a..e];
    } else {
      assert x[0] == s[v0];
    }
  }

  /** In `s[a..e]`, digits up to `d` put the first point at `d - a`. */
  lemma DotAt(s: string, a: nat, d: nat, e: nat)
    requires a < d <= e <= |s|
    requires Between(s, a, d, Digit)
    requires e == d || (d + 1 < e && s[d] == '.')
    ensures DotIndex(s[a..e]) == d - a
    ensures s[a..e][..d - a] == s[a..d]
    ensures e > d ==> s[a..e][d - a + 1..] == s[d + 1..e]
  {
    var b := s[a..e];
    SubSlice(s, a, e, 0, d - a);
    SubSlice(s, a, e, d - a, e - a);
    assert b == b[..d - a] + b[d - a..];
    DigitsBetween(s, a, d);
    DotIndexAfterDigits(s[a..d], s[d..e]);
    if e > d {
      SubSlice(s, a, e, d - a + 1, e - a);
    }
  }

  lemma DigitsBetween(s: string, i: nat, j: nat)
    requires Between(s, i, j, Digit)
    ensures AllDigits(s[i..j])
  {
    forall m | 0 <= m < j - i ensures IsDigit(s[i..j][m]) {
      assert s[i..j][m] == s[i + m];
    }
  }

  function RestPart(s: string, t: nat): (r: Option<RestCut>)
    requires t <= |s|
    ensures r.Some? ==> ValidRest(s, t, r.value)
  {
    var v0 := SkipSpace(s, t);
    if v0 == t then None
    else
      match NumberEnd(s, v0)
      case None => None
      case Some(v1) =>
        NumberEndIsNumber(s, v0);
        match UnitPart(s, v1)
        case None => None
        case Some(u) => Some(RestCut(v0, v1, u))
  }

  /** The greedy rest after every possible end of the test name. */
  function Rests(s: string): (rests: seq<Option<RestCut>>)
    ensures |rests| == |s| + 1
    ensures forall t :: 0 <= t <= |s| ==> rests[t] == RestPart(s, t)
  {
    seq(|s| + 1, t requires 0 <= t <= |s| => RestPart(s, t))
  }

  /** The lazy test name: try the name ending at `t`, then one character
      longer, for as long as the next character is a name character.
      `rests[u]` is the greedy rest after a name ending at `u`. */
  function Scan(s: string, rests: seq<Option<RestCut>>, a: nat, t: nat): (r: Option<(nat, RestCut)>)
    requires |rests| == |s| + 1
    requires a + 2 <= t
    ensures r.Some? ==> t <= r.value.0 <= |s|
    ensures r.Some? ==> Between(s, t - 1, r.value.0, NameChar)
    ensures r.Some? ==> rests[r.value.0] == Some(r.value.1)
    ensures r.Some? ==> forall u :: t <= u < r.value.0 ==> rests[u].None?
    decreases |s| + 1 - t
  {
    if t > |s| || !InClass(s[t - 1], NameChar) then None
    else if rests[t].Some? then Some((t, rests[t].value))
    else
      var r := Scan(s, rests, a, t + 1);
      assert r.Some? ==> Between(s, t - 1, r.value.0, NameChar) by {
        if r.Some? {
          BetweenJoin(s, t - 1, t, r.value.0, NameChar);
        }
      }
      r
  }

  /** `LAB_LINE.match(s)`: the cut positions of the match, if any. The match
      fits the grammar, and no shorter test name leaves a matching rest. */
  function LabMatch(s: string): (r: Option<LabCut>)
    ensures r.Some? ==> Valid(s, r.value)
    ensures r.Some? ==> forall u :: r.value.a + 2 <= u < r.value.t ==> RestPart(s, u).None?
  {
    var a := SkipSpace(s, 0);
    if a < |s| && IsAsciiLetter(s[a]) then NameFrom(s, a) else None
  }

  /** The match once the leading whitespace is skipped and the test name is
      known to start at `a`. */
  function NameFrom(s: string, a: nat): (r: Option<LabCut>)
    requires Between(s, 0, a, Space) && a < |s| && IsAsciiLetter(s[a])
    ensures r.Some? ==> r.value.a == a && Valid(s, r.value)
    ensures r.Some? ==> forall u :: a + 2 <= u < r.value.t ==> RestPart(s, u).None?
  {
    var rests := Rests(s);
    var found := Scan(s, rests, a, a + 2);
    if found.None? then None
    else
      var t := found.value.0;
      assert RestPart(s, t) == Some(found.value.1);
      Some(LabCut(a, t, found.value.1))
  }

  // ---------------------------------------------------------------------------
  // Completeness: whatever the grammar accepts, the matcher finds

  lemma FlagComplete(s: string, q: nat, c: FlagCut)
    requires q <= |s| && ValidFlag(s, q, c)
    ensures FlagPart(s, q).Some?
  {
    if c.f1 == c.f0 + 1 {
      ClassFacts(s[c.f0]);
      SpanAt(s, q, c.f0, Space);
      SpanAt(s, c.f1, |s|, Space);
    } else {
      BetweenJoin(s, q, c.f0, |s|, Space);
      SpanAt(s, q, |s|, Space);
      SpanAt(s, |s|, |s|, Space);
    }
  }

  /** What the part after a unit accepts at a character that is neither
      whitespace nor `(`: only a flag, followed by whitespace to the end. */
  lemma RefRejects(s: string, p: nat, c: RefCut)
    requires ValidRef(s, p, c)
    requires p < |s| && !InClass(s[p], Space) && s[p] != '('
    ensures IsFlagChar(s[p]) && Between(s, p + 1, |s|, Space)
  {
    assert c.r0 == p;
    assert c.r1 == p;
    assert c.flag.f0 == p;
  }

  lemma RefComplete(s: string, q: nat, c: RefCut)
    requires q <= |s| && ValidRef(s, q, c)
    ensures RefPart(s, q).Some?
  {
    if c.r1 != c.r0 {
      RefCompleteRange(s, q, c);
    } else {
      RefCompleteNone(s, q, c);
    }
  }

  lemma RefCompleteRange(s: string, q: nat, c: RefCut)
    requires q <= |s| && ValidRef(s, q, c) && c.r1 != c.r0
    ensures RefPart(s, q).Some?
  {
    SpanAt(s, q, c.r0, Space);
    assert SkipSpace(s, q) == c.r0;
    RangeFrom(s, c);
  }

  lemma RangeFrom(s: string, c: RefCut)
    requires RefAt(s, c.r0, c.r1) && ValidFlag(s, c.r1, c.flag)
    ensures RefFrom(s, c.r0).Some?
  {
    assert CloseParen(s, c.r0 + 1) == Some(c.r1 - 1) by {
      CloseParenAt(s, c.r0 + 1, c.r1 - 1);
    }
    FlagComplete(s, c.r1, c.flag);
  }

  lemma RefCompleteNone(s: string, q: nat, c: RefCut)
    requires q <= |s| && ValidRef(s, q, c) && c.r1 == c.r0
    ensures RefPart(s, q).Some?
  {
    var g := SkipSpace(s, q);
    BetweenJoin(s, q, c.r0, c.flag.f0, Space);
    FlagComplete(s, q, c.flag);
    SkipSpaceFrom(s, q, g);
    assert FlagPart(s, g) == FlagPart(s, q);
    if g < |s| {
      assert IsFlagChar(s[g]);
    }
  }

  lemma {:induction false} CloseParenAt(s: string, i: nat, j: nat)
    requires i <= j < |s| && s[j] == ')'
    requires forall m :: i <= m < j ==> s[m] != ')'
    ensures CloseParen(s, i) == Some(j)
    decreases j - i
  {
    if i < j {
      CloseParenAt(s, i + 1, j);
    }
  }

  /** Unit characters at `p` that the rest cannot take are taken by a longer
      unit: after the longest unit run the rest still matches. */
  lemma RefAfterUnit(s: string, p: nat, h: nat, c: RefCut)
    requires ValidRef(s, p, c)
    requires Between(s, p, h, UnitChar) && (h == |s| || !InClass(s[h], UnitChar))
    ensures RefPart(s, h).Some?
  {
    if p == h {
      RefComplete(s, p, c);
    } else {
      ClassFacts(s[p]);
      RefRejects(s, p, c);
      if h > p + 1 {
        ClassFacts(s[p + 1]);
        assert false;
      }
      RefComplete(s, h, RefCut(|s|, |s|, FlagCut(|s|, |s|)));
    }
  }

  lemma UnitComplete(s: string, q: nat, c: UnitCut)
    requires q <= |s| && ValidUnit(s, q, c)
    ensures UnitPart(s, q).Some?
  {
    var g := SkipSpace(s, q);
    var h := Span(s, g, UnitChar);
    if c.u1 > c.u0 {
      ClassFacts(s[c.u0]);
      SpanAt(s, q, c.u0, Space);
      SpanCovers(s, g, c.u1, UnitChar);
      RefAfterUnit(s, c.u1, h, c.ref);
    } else {
      BetweenJoin(s, q, c.u0, c.ref.r0, Space);
      RefComplete(s, q, c.ref);
      var rc := RefPart(s, q).value;
      assert ValidRef(s, g, rc);
      RefAfterUnit(s, g, h, rc);
    }
  }

  /** Digits and points the number did not take become the head of the unit. */
  lemma UnitAfterNumber(s: string, p: nat, e: nat, c: UnitCut)
    requires ValidUnit(s, p, c)
    requires Between(s, p, e, NumberChar)
    ensures UnitPart(s, e).Some?
  {
    if p == e {
      UnitComplete(s, p, c);
    } else {
      ClassFacts(s[p]);
      assert c.u0 == p;
      if c.u1 == p {
        RefRejects(s, p, c.ref);
        assert false;
      }
      if c.u1 < e {
        ClassFacts(s[c.u1]);
        RefRejects(s, c.u1, c.ref);
        assert false;
      }
      UnitComplete(s, e, UnitCut(e, c.u1, c.ref));
    }
  }

  /** The greedy number covers any number that starts at the same place, and
      what it takes beyond it are digits and points. */
  lemma NumberComplete(s: string, v0: nat, v1: nat)
    requires v0 < v1 <= |s| && IsNumber(s[v0..v1])
    ensures NumberEnd(s, v0).Some?
    ensures v1 <= NumberEnd(s, v0).value
    ensures Between(s, v1, NumberEnd(s, v0).value, NumberChar)
  {
    var a, d := NumberCuts(s, v0, v1);
    if d == v1 {
      NumberCompleteWhole(s, v0, a, v1);
    } else {
      NumberCompleteFraction(s, v0, a, d, v1);
    }
  }

  /** Where a number text `s[v0..v1]` has its digits: after the sign at `a`,
      up to the point at `d` (or to `v1` when there is no point), and digits
      again after the point. */
  lemma NumberCuts(s: string, v0: nat, v1: nat) returns (a: nat, d: nat)
    requires v0 < v1 <= |s| && IsNumber(s[v0..v1])
    ensures v0 <= a <= v0 + 1 && a < d <= v1
    ensures a == (if s[v0] == '-' then v0 + 1 else v0)
    ensures Between(s, a, d, Digit)
    ensures d == v1 || (d + 1 < v1 && s[d] == '.' && Between(s, d + 1, v1, Digit))
  {
    var x := s[v0..v1];
    a := if s[v0] == '-' then v0 + 1 else v0;
    var b := Unsigned(x);
    assert b == s[a..v1] by {
      assert x[0] == s[v0];
    }
    var k := DotIndex(b);
    assert |b| == v1 - a && k <= |b|;
    d := a + k;
    assert b[..k] == s[a..d] by {
      SubSlice(s, a, v1, 0, k);
    }
    BetweenDigits(s, a, d);
    if k < |b| {
      assert b[k + 1..] == s[d + 1..v1] by {
        SubSlice(s, a, v1, k + 1, |b|);
      }
      BetweenDigits(s, d + 1, v1);
    }
  }

  lemma SubSlice(s: string, a: nat, e: nat, i: nat, j: nat)
    requires a <= e <= |s| && i <= j <= e - a
    ensures s[a..e][i..j] == s[a + i..a + j]
  {
    forall m | 0 <= m < j - i ensures s[a..e][i..j][m] == s[a + i..a + j][m] {
      assert s[a..e][i..j][m] == s[a..e][i + m] == s[a + i + m];
    }
  }

  /** A number that no number character follows is the greedy number. */
  lemma NumberEndAt(s: string, v0: nat, v1: nat)
    requires v0 < v1 <= |s| && IsNumber(s[v0..v1])
    requires v1 == |s| || !InClass(s[v1], NumberChar)
    ensures NumberEnd(s, v0) == Some(v1)
  {
    NumberComplete(s, v0, v1);
  }

  lemma BetweenDigits(s: string, i: nat, j: nat)
    requires i <= j <= |s| && AllDigits(s[i..j])
    ensures Between(s, i, j, Digit)
  {
    forall m | i <= m < j ensures IsDigit(s[m]) {
      assert s[m] == s[i..j][m - i];
    }
  }

  /** A number without a point: the greedy number takes at least its digits. */
  lemma NumberCompleteWhole(s: string, v0: nat, a: nat, v1: nat)
    requires v0 <= a <= v0 + 1 && a < v1 <= |s|
    requires a == (if s[v0] == '-' then v0 + 1 else v0)
    requires Between(s, a, v1, Digit)
    ensures NumberEnd(s, v0).Some?
    ensures v1 <= NumberEnd(s, v0).value
    ensures Between(s, v1, NumberEnd(s, v0).value, NumberChar)
  {
    SpanCovers(s, a, v1, Digit);
    var d := Span(s, a, Digit);
    assert Between(s, v1, d, NumberChar);
    var e := NumberEnd(s, v0).value;
    if e != d {
      assert Between(s, d + 1, e, Digit);
    }
  }

  /** A number with a point at `d`: the greedy number takes the same whole
      digits and at least its fraction digits. */
  lemma NumberCompleteFraction(s: string, v0: nat, a: nat, d: nat, v1: nat)
    requires v0 <= a <= v0 + 1 && a < d && d + 1 < v1 <= |s|
    requires a == (if s[v0] == '-' then v0 + 1 else v0)
    requires Between(s, a, d, Digit) && s[d] == '.' && Between(s, d + 1, v1, Digit)
    ensures NumberEnd(s, v0).Some?
    ensures v1 <= NumberEnd(s, v0).value
    ensures Between(s, v1, NumberEnd(s, v0).value, NumberChar)
  {
    SpanAt(s, a, d, Digit);
    SpanCovers(s, d + 1, v1, Digit);
    var e := Span(s, d + 1, Digit);
    assert NumberEnd(s, v0) == Some(e);
  }

  /** The first character of a number is a minus sign or a digit. */
  lemma NumberStart(x: string)
    requires IsNumber(x)
    ensures |x| > 0 && (x[0] == '-' || IsDigit(x[0]))
  {
    var b := Unsigned(x);
    if !(|x| > 0 && x[0] == '-') {
      assert b == x;
      assert b[..DotIndex(b)][0] == b[0];
    }
  }

  /** With any matching rest after the test name, the greedy rest matches,
      and its number is at least as long. */
  lemma RestComplete(s: string, t: nat, c: RestCut)
    requires t <= |s| && ValidRest(s, t, c)
    ensures RestPart(s, t).Some?
    ensures c.v1 <= RestPart(s, t).value.v1
  {
    NumberStart(s[c.v0..c.v1]);
    assert s[c.v0..c.v1][0] == s[c.v0];
    ClassFacts(s[c.v0]);
    SpanAt(s, t, c.v0, Space);
    NumberComplete(s, c.v0, c.v1);
    var e := NumberEnd(s, c.v0).value;
    UnitAfterNumber(s, c.v1, e, c.unit);
  }

  lemma {:induction false} ScanComplete(s: string, rests: seq<Option<RestCut>>, a: nat, t: nat, end: nat)
    requires |rests| == |s| + 1
    requires ValidHead(s, a, end) && rests[end].Some?
    requires a + 2 <= t <= end
    ensures Scan(s, rests, a, t).Some? && Scan(s, rests, a, t).value.0 <= end
    decreases end - t
  {
    assert InClass(s[t - 1], NameChar);
    if rests[t].None? {
      ScanComplete(s, rests, a, t + 1, end);
    }
  }

  /** Whatever cut the grammar allows, the matcher finds a match whose test
      name is no longer, and with the same test name, a number no shorter:
      the lazy name and the greedy number of the pattern. */
  lemma LabMatchComplete(s: string, c: LabCut)
    requires Valid(s, c)
    ensures LabMatch(s).Some?
    ensures LabMatch(s).value.t <= c.t
    ensures LabMatch(s).value.t == c.t ==> c.rest.v1 <= LabMatch(s).value.rest.v1
  {
    ClassFacts(s[c.a]);
    SpanAt(s, 0, c.a, Space);
    ScanFinds(s, c);
    assert LabMatch(s) == NameFrom(s, c.a);
  }

  /** The lazy search from the shortest name finds a name end no later than
      any the grammar allows, and at that same end a number no shorter. */
  lemma ScanFinds(s: string, c: LabCut)
    requires Valid(s, c)
    ensures var f := Scan(s, Rests(s), c.a, c.a + 2);
            f.Some? && f.value.0 <= c.t && (f.value.0 == c.t ==> c.rest.v1 <= f.value.1.v1)
  {
    var rests := Rests(s);
    assert rests[c.t] == RestPart(s, c.t);
    RestComplete(s, c.t, c.rest);
    ScanComplete(s, rests, c.a, c.a + 2, c.t);
  }
}

=== FILE: labs.dfy ===
/** `parse_labs_section` (src/parse_labs.py): the labs section read line by
    line into lab entries. */
module Labs {
  import opened Options
  import opened Text
  import opened Decimals
  import opened LabGrammar

  /** One parsed lab line. The source's dictionary also carries a `datetime`
      key that is always `None`; it is left out here. */
  datatype LabEntry = LabEntry(
    test: string,
    value: Decimal,
    unit: Option<string>,
    refRange: Option<string>,
    flag: Option<char>,
    raw: string)

  /** Python's `x or None` for a string. */
  function OrNone(x: string): (r: Option<string>)
    ensures r.None? <==> x == ""
    ensures r.Some? ==> r.value == x
  {
    if x == "" then None else Some(x)
  }

  /** The unit group, stripped, or `None` when empty. */
  function UnitOf(s: string, c: UnitCut): Option<string>
    requires c.u0 <= c.u1 <= |s|
  {
    OrNone(Strip(s[c.u0..c.u1]))
  }

  /** The text between the parentheses, stripped, or `None` when there is no
      range or only whitespace inside it. */
  function RefOf(s: string, c: RefCut): Option<string>
    requires c.r1 == c.r0 || c.r0 + 2 <= c.r1 <= |s|
  {
    if c.r1 == c.r0 then None else OrNone(Strip(s[c.r0 + 1..c.r1 - 1]))
  }

  function FlagOf(s: string, c: FlagCut): Option<char>
    requires c.f1 == c.f0 || (c.f1 == c.f0 + 1 && c.f0 < |s|)
  {
    if c.f1 == c.f0 then None else Some(s[c.f0])
  }

  /** The entry the source builds from a match of `line`. */
  function Extract(line: string, c: LabCut): LabEntry
    requires Valid(line, c)
  {
    LabEntry(
      Strip(line[c.a..c.t]),
      NumberValue(line[c.rest.v0..c.rest.v1]),
      UnitOf(line, c.rest.unit),
      RefOf(line, c.rest.unit.ref),
      FlagOf(line, c.rest.unit.ref.flag),
      line)
  }

  /** One stripped, non-empty line: the entry, or `None` when the line does
      not match the lab-line pattern. */
  function ParseLine(line: string): (r: Option<LabEntry>)
    ensures r.Some? <==> LabMatch(line).Some?
    ensures r.Some? ==> r.value.raw == line
    ensures r.Some? ==> r.value.flag.Some? ==> IsFlagChar(r.value.flag.value)
    ensures r.Some? ==> r.value.test != [] && IsAsciiLetter(r.value.test[0])
                        && IsStripped(r.value.test, Whitespace)
    ensures r.Some? && r.value.unit.Some? ==>
              r.value.unit.value != "" && IsStripped(r.value.unit.value, Whitespace)
    ensures r.Some? && r.value.refRange.Some? ==>
              r.value.refRange.value != "" && IsStripped(r.value.refRange.value, Whitespace)
    ensures r.Some? ==> var c := LabMatch(line).value;
              && r.value.test == Strip(line[c.a..c.t])
              && r.value.value == NumberValue(line[c.rest.v0..c.rest.v1])
              && r.value.unit == UnitOf(line, c.rest.unit)
              && r.value.refRange == RefOf(line, c.rest.unit.ref)
              && r.value.flag == FlagOf(line, c.rest.unit.ref.flag)
  {
    match LabMatch(line)
    case None => None
    case Some(c) =>
      var name := line[c.a..c.t];
      assert name[0] == line[c.a];
      StripKeepsFirst(name);
      Some(Extract(line, c))
  }

  /** The entries of the lines, in order: each line stripped, blank lines and
      lines that do not match skipped. */
  function ParseLines(lines: seq<string>): (labs: seq<LabEntry>)
    ensures |labs| <= |lines|
    ensures forall i :: 0 <= i < |labs| ==> IsRaw(labs[i].raw)
  {
    if |lines| == 0 then [] else LineEntries(lines[0]) + ParseLines(lines[1..])
  }

  /** What the source keeps as the raw text of an entry: a stripped,
      non-empty line. */
  predicate IsRaw(raw: string) {
    raw != "" && IsStripped(raw, Whitespace)
  }

  /** The entries one line contributes: none for a blank line or a line that
      does not match, else the entry of the stripped line. */
  function LineEntries(line: string): (r: seq<LabEntry>)
    ensures |r| <= 1
    ensures |r| == 1 ==> IsRaw(r[0].raw) && ParseLine(Strip(line)) == Some(r[0])
    ensures |r| == 0 ==> Strip(line) == "" || ParseLine(Strip(line)).None?
  {
    var l := Strip(line);
    if l == "" then [] else match ParseLine(l) case None => [] case Some(e) => [e]
  }

  /** `parse_labs_section(labs_text)`. */
  function ParseLabs(text: string): (labs: seq<LabEntry>)
    ensures text == "" ==> labs == []
    ensures forall i :: 0 <= i < |labs| ==> IsRaw(labs[i].raw)
  {
    if text == "" then [] else ParseLines(SplitLines(text))
  }

  lemma {:induction false} ParseLinesAppend(xs: seq<string>, ys: seq<string>)
    ensures ParseLines(xs + ys) == ParseLines(xs) + ParseLines(ys)
    decreases |xs|
  {
    if |xs| == 0 {
      assert xs + ys == ys;
    } else {
      assert (xs + ys)[0] == xs[0];
      assert (xs + ys)[1..] == xs[1..] + ys;
      ParseLinesAppend(xs[1..], ys);
    }
  }

  /** The empty text is no exception: it is one blank line. */
  lemma {:induction false} ParseLabsLines(text: string)
    ensures ParseLabs(text) == ParseLines(SplitLines(text))
  {
    if text == "" {
      assert SplitLines(text) == [""];
      assert ParseLines([""]) == LineEntries("") + ParseLines([]);
    }
  }

  /** Lines are read independently: the entries of two texts joined by a line
      break are the entries of the first followed by those of the second. */
  lemma {:induction false} ParseLabsAppend(x: string, c: char, y: string)
    requires c in LineBreaks
    ensures ParseLabs(x + [c] + y) == ParseLabs(x) + ParseLabs(y)
  {
    ParseLabsLines(x + [c] + y);
    ParseLabsLines(x);
    ParseLabsLines(y);
    SplitAppend(x, y, c, LineBreaks);
    ParseLinesAppend(SplitLines(x), SplitLines(y));
  }

  /** A text that is one line gives the entry of that line, stripped. */
  lemma {:induction false} ParseLabsOneLine(line: string)
    requires NoneIn(line, LineBreaks)
    ensures ParseLabs(line) == LineEntries(line)
  {
    ParseLabsLines(line);
    SplitNoSep(line, LineBreaks);
    assert ParseLines([line]) == LineEntries(line) + ParseLines([]);
  }

  // ---------------------------------------------------------------------------
  // Writing an entry as a line, and reading it back

  /** A test name a line can carry as is: a letter, then name characters, not
      ending in whitespace, and no word after whitespace that begins like a
      value (a digit or `-`), where the lazy name would stop. */
  predicate NameOk(test: string) {
    |test| >= 2 && IsAsciiLetter(test[0])
    && Between(test, 1, |test|, NameChar) && test[|test| - 1] !in Whitespace
    && forall i :: 1 <= i < |test| && test[i - 1] in Whitespace && test[i] !in Whitespace ==>
                   test[i] != '-' && !IsDigit(test[i])
  }

  predicate UnitOk(unit: Option<string>) {
    unit.Some? ==> unit.value != "" && Between(unit.value, 0, |unit.value|, UnitChar)
  }

  /** A reference range that survives the parentheses and the strip: stripped,
      non-empty, without `)`. */
  predicate RangeOk(ref: Option<string>) {
    ref.Some? ==> ref.value != "" && NoneIn(ref.value, {')'}) && IsStripped(ref.value, Whitespace)
  }

  predicate FlagOk(flag: Option<char>) {
    flag.Some? ==> IsFlagChar(flag.value)
  }

  /** Not a flag alone after the value, which the pattern reads as a unit
      (see `BareFlagIsUnit`). */
  predicate NoBareFlag(unit: Option<string>, ref: Option<string>, flag: Option<char>) {
    unit.None? && ref.None? ==> flag.None?
  }

  /** An entry that a lab line can express and `ParseLine` reads back as is. */
  predicate WellFormed(e: LabEntry) {
    NameOk(e.test) && Canonical(e.value) && UnitOk(e.unit) && RangeOk(e.refRange)
    && FlagOk(e.flag) && NoBareFlag(e.unit, e.refRange, e.flag)
  }

  function UnitText(unit: Option<string>): string {
    if unit.Some? then " " + unit.value else ""
  }

  function RefText(ref: Option<string>): string {
    if ref.Some? then " (" + ref.value + ")" else ""
  }

  function FlagText(flag: Option<char>): string {
    if flag.Some? then " " + [flag.value] else ""
  }

  /** What a line carries after its value. */
  function TailText(unit: Option<string>, ref: Option<string>, flag: Option<char>): string {
    UnitText(unit) + (RefText(ref) + FlagText(flag))
  }

  /** The entry as a line in the layout of the function's documentation:
      `WBC 13.2 x10^9/L (4.0 - 11.0) H`. */
  function LabLine(e: LabEntry): string {
    e.test + (" " + ValueText(e.value) + TailText(e.unit, e.refRange, e.flag))
  }

  /** The rest cut `c` reads the value, unit, range and flag given. */
  predicate RestReads(s: string, t: nat, c: RestCut, value: Decimal, unit: Option<string>,
                      ref: Option<string>, flag: Option<char>)
    requires t <= |s| && ValidRest(s, t, c)
  {
    NumberValue(s[c.v0..c.v1]) == value && UnitOf(s, c.unit) == unit
    && RefOf(s, c.unit.ref) == ref && FlagOf(s, c.unit.ref.flag) == flag
  }

  /** The value of a number text, or `None` for any other text. */
  function ReadNumber(x: string): Option<Decimal> {
    if IsNumber(x) then Some(NumberValue(x)) else None
  }

  /** Reading the line of a well-formed entry gives the entry back. */
  lemma {:induction false} LabLineRoundTrip(e: LabEntry)
    requires WellFormed(e)
    ensures ParseLine(LabLine(e)) == Some(e.(raw := LabLine(e)))
  {
    NumberRoundTrip(e.value);
    NumberStart(ValueText(e.value));
    TailStart(e.unit, e.refRange, e.flag);
    LineRoundTrip(LabLine(e), e, ValueText(e.value), TailText(e.unit, e.refRange, e.flag));
  }

  /** The line `e.test + " " + v + tail`, where `v` is a number text worth
      `e.value` and `tail` is the tail of `e`, parses to `e`. */
  lemma {:induction false} LineRoundTrip(s: string, e: LabEntry, v: string, tail: string)
    requires WellFormed(e)
    requires s == e.test + (" " + v + tail)
    requires ReadNumber(v) == Some(e.value) && |v| >= 1
    requires tail == TailText(e.unit, e.refRange, e.flag)
    requires tail == "" || tail[0] == ' '
    ensures ParseLine(s) == Some(e.(raw := s))
  {
    var n, v1 := LineReading(s, e.test, v, tail);
    ParseLineAt(s, e, n, v1, tail);
  }

  /** Where the parts of `test + " " + v + tail` sit. */
  lemma {:induction false} LineLayout(s: string, test: string, v: string, tail: string)
    requires s == test + (" " + v + tail) && |v| >= 1
    requires tail == "" || tail[0] == ' '
    ensures |test| + 1 < |test| + 1 + |v| <= |s|
    ensures s[..|test|] == test && s[|test|] == ' '
    ensures s[|test| + 1..|test| + 1 + |v|] == v
    ensures |test| + 1 + |v| == |s| || s[|test| + 1 + |v|] == ' '
    ensures s[|test| + 1 + |v|..] == tail
  {
    assert s[|test|..] == " " + v + tail;
    SpacedAt(s, |test|, v, tail);
  }

  /** The same, with the end of the number text as a position. */
  lemma {:induction false} NumberEndLayout(s: string, test: string, v: string, tail: string)
    returns (v1: nat)
    requires s == test + (" " + v + tail) && |v| >= 1
    requires tail == "" || tail[0] == ' '
    ensures |test| + 1 < v1 <= |s|
    ensures s[..|test|] == test && s[|test|] == ' '
    ensures s[|test| + 1..v1] == v
    ensures v1 == |s| || s[v1] == ' '
    ensures s[v1..] == tail
  {
    LineLayout(s, test, v, tail);
    v1 := |test| + 1 + |v|;
  }

  /** The same, with the number text replaced by what it reads as, and the
      end of the name as a position too. */
  lemma {:induction false} LineReading(s: string, test: string, v: string, tail: string)
    returns (n: nat, v1: nat)
    requires s == test + (" " + v + tail) && |v| >= 1
    requires tail == "" || tail[0] == ' '
    ensures n == |test| && n + 1 < v1 <= |s|
    ensures s[..n] == test && s[n] == ' '
    ensures ReadNumber(s[n + 1..v1]) == ReadNumber(v)
    ensures v1 == |s| || s[v1] == ' '
    ensures s[v1..] == tail
  {
    v1 := NumberEndLayout(s, test, v, tail);
    n := |test|;
    ReadSlice(s, n + 1, v1, v);
  }

  /** Equal texts read the same. */
  lemma {:induction false} ReadSlice(s: string, a: nat, b: nat, v: string)
    requires a <= b <= |s| && s[a..b] == v
    ensures ReadNumber(s[a..b]) == ReadNumber(v)
  {
  }

  /** A line holding the name of `e` up to `n`, a space, a number text worth
      `e.value` ending at `v1`, and then the tail of `e`, parses to `e`. */
  lemma {:induction false} ParseLineAt(s: string, e: LabEntry, n: nat, v1: nat, tail: string)
    requires WellFormed(e) && n == |e.test|
    requires n + 1 < v1 <= |s| && s[..n] == e.test && s[n] == ' '
    requires ReadNumber(s[n + 1..v1]) == Some(e.value)
    requires v1 == |s| || s[v1] == ' '
    requires s[v1..] == tail && tail == TailText(e.unit, e.refRange, e.flag)
    ensures ParseLine(s) == Some(e.(raw := s))
  {
    RestLayout(s, e, n, v1, tail);
    HeadRoundTrip(s, e.test);
    LabMatchAt(s, n);
    ExtractAt(s, LabCut(0, n, RestPart(s, n).value), e);
  }

  /** After a name ending at `n`, a space, a number text worth `e.value`
      ending at `v1` and the tail of `e`, the rest of the line reads the
      value, unit, range and flag of `e`. */
  lemma {:induction false} RestLayout(s: string, e: LabEntry, n: nat, v1: nat, tail: string)
    requires WellFormed(e)
    requires n + 1 < v1 <= |s| && s[n] == ' '
    requires ReadNumber(s[n + 1..v1]) == Some(e.value)
    requires v1 == |s| || s[v1] == ' '
    requires s[v1..] == tail && tail == TailText(e.unit, e.refRange, e.flag)
    ensures RestPart(s, n).Some?
    ensures RestReads(s, n, RestPart(s, n).value, e.value, e.unit, e.refRange, e.flag)
  {
    UnitAt(s, v1, tail, e);
    RestAt(s, n, v1, e.value, e.unit, e.refRange, e.flag);
  }

  /** The unit, range and flag of a tail written at `q` are read back. */
  lemma {:induction false} UnitAt(s: string, q: nat, tail: string, e: LabEntry)
    requires WellFormed(e)
    requires q <= |s| && s[q..] == tail && tail == TailText(e.unit, e.refRange, e.flag)
    ensures UnitPart(s, q).Some?
    ensures UnitOf(s, UnitPart(s, q).value) == e.unit
    ensures RefOf(s, UnitPart(s, q).value.ref) == e.refRange
    ensures FlagOf(s, UnitPart(s, q).value.ref.flag) == e.flag
  {
    UnitRoundTrip(s, q, e.unit, e.refRange, e.flag);
  }

  /** After a name ending at `n`, a space, a number text worth `value`
      ending at `v1`, and a unit part that reads the parts given, the rest of
      the line reads them all. */
  lemma {:induction false} RestAt(s: string, n: nat, v1: nat, value: Decimal, unit: Option<string>,
                                  ref: Option<string>, flag: Option<char>)
    requires n + 1 < v1 <= |s| && s[n] == ' ' && ReadNumber(s[n + 1..v1]) == Some(value)
    requires v1 == |s| || s[v1] == ' '
    requires UnitPart(s, v1).Some? && UnitOf(s, UnitPart(s, v1).value) == unit
    requires RefOf(s, UnitPart(s, v1).value.ref) == ref
    requires FlagOf(s, UnitPart(s, v1).value.ref.flag) == flag
    ensures RestPart(s, n).Some?
    ensures RestReads(s, n, RestPart(s, n).value, value, unit, ref, flag)
  {
    NumberAfterSpace(s, n, v1);
    RestPartAt(s, n, v1, UnitPart(s, v1).value);
  }

  /** The entry of a match whose name is `e.test` and whose rest reads the
      other parts of `e`. */
  lemma {:induction false} ExtractAt(s: string, m: LabCut, e: LabEntry)
    requires LabMatch(s) == Some(m) && m.a == 0 && m.t == |e.test|
    requires NameOk(e.test) && s[..m.t] == e.test
    requires RestReads(s, m.t, m.rest, e.value, e.unit, e.refRange, e.flag)
    ensures Extract(s, m) == e.(raw := s)
  {
    assert s[m.a..m.t] == e.test;
    NameStripped(e.test);
  }

  lemma {:induction false} NameStripped(test: string)
    requires NameOk(test)
    ensures Strip(test) == test
  {
    assert test[0] !in Whitespace && test[|test| - 1] !in Whitespace;
    StrippedFixed(test);
  }

  /** The match of a line with a letter at its start, name characters up to
      `n`, a rest after `n` and none after any shorter name. */
  lemma {:induction false} LabMatchAt(s: string, n: nat)
    requires 2 <= n <= |s| && IsAsciiLetter(s[0]) && Between(s, 1, n, NameChar)
    requires RestPart(s, n).Some?
    requires forall u :: 2 <= u < n ==> RestPart(s, u).None?
    ensures LabMatch(s) == Some(LabCut(0, n, RestPart(s, n).value))
  {
    ClassFacts(s[0]);
    SpanAt(s, 0, 0, Space);
    ScanFinds(s, Rests(s), 0, 2, n);
  }

  /** A line that starts with a well-formed name: no shorter name leaves a
      rest to match, since whitespace and a value must follow the name. */
  lemma {:induction false} HeadRoundTrip(s: string, test: string)
    requires NameOk(test)
    requires |test| <= |s| && s[..|test|] == test
    ensures IsAsciiLetter(s[0]) && Between(s, 1, |test|, NameChar)
    ensures forall u :: 2 <= u < |test| ==> RestPart(s, u).None?
  {
    assert s[0] == test[0];
    forall m | 1 <= m < |test| ensures InClass(s[m], NameChar) {
      assert s[m] == test[m];
    }
    forall u | 2 <= u < |test| ensures RestPart(s, u).None? {
      NoRestInName(s, test, u);
    }
  }

  /** Inside a well-formed name, either no whitespace follows, or what follows
      the whitespace is no number. */
  lemma {:induction false} NoRestInName(s: string, test: string, u: nat)
    requires NameOk(test)
    requires |test| <= |s| && s[..|test|] == test && 2 <= u < |test|
    ensures RestPart(s, u).None?
  {
    var v0 := SkipSpace(s, u);
    if v0 != u {
      var n := |test|;
      assert s[n - 1] == test[n - 1];
      assert v0 < n;
      assert s[v0] == test[v0] && s[v0 - 1] == test[v0 - 1];
      assert InClass(s[v0 - 1], Space);
      SpanAt(s, v0, v0, Digit);
    }
  }

  /** The lazy scan stops at the first end with a matching rest. */
  lemma {:induction false} ScanFinds(s: string, rests: seq<Option<RestCut>>, a: nat, t: nat, n: nat)
    requires |rests| == |s| + 1
    requires a + 2 <= t <= n <= |s|
    requires Between(s, t - 1, n, NameChar)
    requires rests[n].Some?
    requires forall u :: t <= u < n ==> rests[u].None?
    ensures Scan(s, rests, a, t) == Some((n, rests[n].value))
    decreases n - t
  {
    assert InClass(s[t - 1], NameChar);
    if t < n {
      ScanFinds(s, rests, a, t + 1, n);
    }
  }

  /** The characters of `" " + x + tail` written at `q`. */
  lemma {:induction false} SpacedAt(s: string, q: nat, x: string, tail: string)
    requires q <= |s| && s[q..] == " " + x + tail
    requires tail == "" || tail[0] == ' '
    ensures |s| == q + 1 + |x| + |tail| && s[q] == ' '
    ensures s[q + 1..q + 1 + |x|] == x
    ensures forall m :: 0 <= m < |x| ==> s[q + 1 + m] == x[m]
    ensures s[q + 1 + |x|..] == tail
    ensures q + 1 + |x| == |s| || s[q + 1 + |x|] == ' '
  {
    forall m | 0 <= m < |x| ensures s[q + 1 + m] == x[m] {
      assert s[q..][1 + m] == x[m];
    }
    if tail != "" {
      assert s[q..][1 + |x|] == tail[0];
    }
  }

  /** What follows the value, and what follows the unit, starts with a space
      unless it is empty. */
  lemma {:induction false} TailStart(unit: Option<string>, ref: Option<string>, flag: Option<char>)
    ensures TailText(unit, ref, flag) == "" || TailText(unit, ref, flag)[0] == ' '
    ensures RefText(ref) + FlagText(flag) == "" || (RefText(ref) + FlagText(flag))[0] == ' '
  {
  }

  /** The rest after `n` once its whitespace, number and unit are known. */
  lemma {:induction false} RestPartAt(s: string, n: nat, v1: nat, u: UnitCut)
    requires n + 1 <= |s| && SkipSpace(s, n) == n + 1
    requires NumberEnd(s, n + 1) == Some(v1)
    requires UnitPart(s, v1) == Some(u)
    ensures RestPart(s, n) == Some(RestCut(n + 1, v1, u))
  {
  }

  /** A number text after a space, followed by a space or the end, is read
      greedily and whole. */
  lemma {:induction false} NumberAfterSpace(s: string, n: nat, v1: nat)
    requires n + 1 < v1 <= |s| && s[n] == ' ' && ReadNumber(s[n + 1..v1]).Some?
    requires v1 == |s| || s[v1] == ' '
    ensures SkipSpace(s, n) == n + 1
    ensures NumberEnd(s, n + 1) == Some(v1)
  {
    NumberStart(s[n + 1..v1]);
    assert s[n + 1..v1][0] == s[n + 1];
    ClassFacts(s[n + 1]);
    SpanAt(s, n, n + 1, Space);
    NumberEndAt(s, n + 1, v1);
  }

  /** The unit, range and flag written at `q` are read back. */
  lemma {:induction false} UnitRoundTrip(s: string, q: nat, unit: Option<string>,
                                          ref: Option<string>, flag: Option<char>)
    requires UnitOk(unit) && RangeOk(ref) && FlagOk(flag) && NoBareFlag(unit, ref, flag)
    requires q <= |s| && s[q..] == TailText(unit, ref, flag)
    ensures UnitPart(s, q).Some?
    ensures UnitOf(s, UnitPart(s, q).value) == unit
    ensures RefOf(s, UnitPart(s, q).value.ref) == ref
    ensures FlagOf(s, UnitPart(s, q).value.ref.flag) == flag
  {
    if unit.Some? {
      UnitSomeRoundTrip(s, q, unit.value, ref, flag);
    } else {
      UnitNoneRoundTrip(s, q, ref, flag);
    }
  }

  lemma {:induction false} UnitSomeRoundTrip(s: string, q: nat, u: string,
                                              ref: Option<string>, flag: Option<char>)
    requires u != "" && Between(u, 0, |u|, UnitChar) && RangeOk(ref) && FlagOk(flag)
    requires q <= |s| && s[q..] == " " + u + (RefText(ref) + FlagText(flag))
    ensures UnitPart(s, q).Some?
    ensures UnitOf(s, UnitPart(s, q).value) == Some(u)
    ensures RefOf(s, UnitPart(s, q).value.ref) == ref
    ensures FlagOf(s, UnitPart(s, q).value.ref.flag) == flag
  {
    var u1 := q + 1 + |u|;
    TailStart(None, ref, flag);
    SpacedAt(s, q, u, RefText(ref) + FlagText(flag));
    UnitSpanAt(s, q, u);
    RefRoundTrip(s, u1, ref, flag);
    var rc := RefPart(s, u1).value;
    UnitPartAt(s, q, q + 1, u1, rc);
    UnitOfAt(s, UnitCut(q + 1, u1, rc), u);
  }

  lemma {:induction false} UnitNoneRoundTrip(s: string, q: nat, ref: Option<string>, flag: Option<char>)
    requires RangeOk(ref) && FlagOk(flag) && (ref.None? ==> flag.None?)
    requires q <= |s| && s[q..] == RefText(ref) + FlagText(flag)
    ensures UnitPart(s, q).Some?
    ensures UnitOf(s, UnitPart(s, q).value) == None
    ensures RefOf(s, UnitPart(s, q).value.ref) == ref
    ensures FlagOf(s, UnitPart(s, q).value.ref.flag) == flag
  {
    var g := SkipSpace(s, q);
    if ref.Some? {
      assert s[q..][0] == ' ' && s[q..][1] == '(';
      SpanAt(s, q, q + 1, Space);
    } else {
      assert s[q..] == "";
      SpanAt(s, q, q, Space);
    }
    SpanAt(s, g, g, UnitChar);
    RefRoundTrip(s, q, ref, flag);
    RefPartFrom(s, q, g);
    var rc := RefPart(s, q).value;
    UnitPartAt(s, q, g, g, rc);
    UnitOfEmpty(s, UnitCut(g, g, rc));
  }

  /** The unit part once its whitespace, unit run and range are known. */
  lemma {:induction false} UnitPartAt(s: string, q: nat, u0: nat, u1: nat, rc: RefCut)
    requires q <= |s| && SkipSpace(s, q) == u0 && Span(s, u0, UnitChar) == u1
    requires RefPart(s, u1) == Some(rc)
    ensures UnitPart(s, q) == Some(UnitCut(u0, u1, rc))
  {
  }

  /** The unit run of `" " + u` written at `q`, `u` a well-formed unit
      followed by a space or the end of the line. */
  lemma {:induction false} UnitSpanAt(s: string, q: nat, u: string)
    requires u != "" && Between(u, 0, |u|, UnitChar)
    requires q + 1 + |u| <= |s| && s[q] == ' '
    requires forall m :: 0 <= m < |u| ==> s[q + 1 + m] == u[m]
    requires q + 1 + |u| == |s| || s[q + 1 + |u|] == ' '
    ensures SkipSpace(s, q) == q + 1
    ensures Span(s, q + 1, UnitChar) == q + 1 + |u|
  {
    var u0, u1 := q + 1, q + 1 + |u|;
    assert Between(s, u0, u1, UnitChar) by {
      forall m | u0 <= m < u1 ensures InClass(s[m], UnitChar) {
        assert s[q + 1 + (m - u0)] == u[m - u0];
      }
    }
    assert s[u0] == u[0];
    ClassFacts(s[u0]);
    SpanAt(s, q, u0, Space);
    SpanAt(s, u0, u1, UnitChar);
  }

  /** The unit read from a cut around a well-formed unit. */
  lemma {:induction false} UnitOfAt(s: string, c: UnitCut, u: string)
    requires u != "" && Between(u, 0, |u|, UnitChar)
    requires c.u0 <= c.u1 <= |s| && s[c.u0..c.u1] == u
    ensures UnitOf(s, c) == Some(u)
  {
    UnitStripped(u);
  }

  lemma {:induction false} UnitOfEmpty(s: string, c: UnitCut)
    requires c.u0 == c.u1 <= |s|
    ensures UnitOf(s, c) == None
  {
    assert s[c.u0..c.u1] == "";
  }

  /** A unit has no whitespace, so stripping leaves it alone. */
  lemma {:induction false} UnitStripped(u: string)
    requires u != "" && Between(u, 0, |u|, UnitChar)
    ensures Strip(u) == u
  {
    ClassFacts(u[0]);
    ClassFacts(u[|u| - 1]);
    StrippedFixed(u);
  }

  /** The range-and-flag part depends only on where the whitespace run ends. */
  lemma {:induction false} RefPartFrom(s: string, q: nat, p: nat)
    requires q <= p <= |s| && Between(s, q, p, Space) && p <= SkipSpace(s, q)
    ensures RefPart(s, p) == RefPart(s, q)
  {
    SkipSpaceFrom(s, q, p);
  }

  /** The range and flag written at `q` are read back. */
  lemma {:induction false} RefRoundTrip(s: string, q: nat, ref: Option<string>, flag: Option<char>)
    requires RangeOk(ref) && FlagOk(flag)
    requires q <= |s| && s[q..] == RefText(ref) + FlagText(flag)
    ensures RefPart(s, q).Some?
    ensures RefOf(s, RefPart(s, q).value) == ref
    ensures FlagOf(s, RefPart(s, q).value.flag) == flag
  {
    if ref.Some? {
      RangeSomeRoundTrip(s, q, ref.value, flag);
    } else {
      assert s[q..] == FlagText(flag);
      RangeNoneRoundTrip(s, q, flag);
    }
  }

  lemma {:induction false} RangeSomeRoundTrip(s: string, q: nat, r: string, flag: Option<char>)
    requires r != "" && NoneIn(r, {')'}) && IsStripped(r, Whitespace) && FlagOk(flag)
    requires q <= |s| && s[q..] == " (" + r + ")" + FlagText(flag)
    ensures RefPart(s, q).Some?
    ensures RefOf(s, RefPart(s, q).value) == Some(r)
    ensures FlagOf(s, RefPart(s, q).value.flag) == flag
  {
    var r1 := q + 3 + |r|;
    RefTextAt(s, q, r, FlagText(flag));
    FlagRoundTrip(s, r1, flag);
    var f := FlagPart(s, r1).value;
    RefPartAt(s, q, r1, f);
    RefOfAt(s, RefCut(q + 1, r1, f), r);
  }

  lemma {:induction false} RangeNoneRoundTrip(s: string, q: nat, flag: Option<char>)
    requires FlagOk(flag)
    requires q <= |s| && s[q..] == FlagText(flag)
    ensures RefPart(s, q).Some?
    ensures RefOf(s, RefPart(s, q).value) == None
    ensures FlagOf(s, RefPart(s, q).value.flag) == flag
  {
    FlagRoundTrip(s, q, flag);
    var g := SkipSpace(s, q);
    if flag.Some? {
      assert s[q] == ' ' && IsFlagChar(s[q + 1]);
      ClassFacts(s[q + 1]);
      SpanAt(s, q, q + 1, Space);
    } else {
      SpanAt(s, q, q, Space);
    }
    SkipSpaceFrom(s, q, g);
    var f := FlagPart(s, q).value;
    assert FlagPart(s, g) == Some(f);
    RefFromNone(s, g, f);
  }

  /** With no `(` where the range would open, only the flag is read. */
  lemma {:induction false} RefFromNone(s: string, r0: nat, f: FlagCut)
    requires r0 <= |s| && (r0 == |s| || s[r0] != '(')
    requires FlagPart(s, r0) == Some(f)
    ensures RefFrom(s, r0) == Some(RefCut(r0, r0, f))
  {
  }

  /** The range read from a cut around a stripped, non-empty text. */
  lemma {:induction false} RefOfAt(s: string, c: RefCut, r: string)
    requires c.r0 + 3 <= c.r1 <= |s| && s[c.r0 + 1..c.r1 - 1] == r && IsStripped(r, Whitespace)
    ensures RefOf(s, c) == Some(r)
  {
    StrippedFixed(r);
  }

  /** The characters of a written reference range. */
  lemma {:induction false} RefTextAt(s: string, q: nat, r: string, ft: string)
    requires r != "" && NoneIn(r, {')'})
    requires q <= |s| && s[q..] == " (" + r + ")" + ft
    ensures q + 3 + |r| <= |s| && s[q] == ' ' && s[q + 1] == '(' && s[q + 2 + |r|] == ')'
    ensures s[q + 2..q + 2 + |r|] == r
    ensures forall m :: q + 2 <= m < q + 2 + |r| ==> s[m] != ')'
    ensures s[q + 3 + |r|..] == ft
  {
    forall m | q + 2 <= m < q + 2 + |r| ensures s[m] != ')' {
      assert s[m] == r[m - q - 2];
    }
  }

  /** The greedy range and flag after a space and a parenthesised range
      `s[q + 1..r1]`. */
  lemma {:induction false} RefPartAt(s: string, q: nat, r1: nat, f: FlagCut)
    requires q + 4 <= r1 <= |s| && s[q] == ' ' && s[q + 1] == '(' && s[r1 - 1] == ')'
    requires forall m :: q + 2 <= m < r1 - 1 ==> s[m] != ')'
    requires FlagPart(s, r1) == Some(f)
    ensures RefPart(s, q) == Some(RefCut(q + 1, r1, f))
  {
    SpanAt(s, q, q + 1, Space);
    RefFromAt(s, q + 1, r1, f);
  }

  /** The range opening at `r0` and closing just before `r1`, then the flag. */
  lemma {:induction false} RefFromAt(s: string, r0: nat, r1: nat, f: FlagCut)
    requires r0 + 3 <= r1 <= |s| && s[r0] == '(' && s[r1 - 1] == ')'
    requires forall m :: r0 + 1 <= m < r1 - 1 ==> s[m] != ')'
    requires FlagPart(s, r1) == Some(f)
    ensures RefFrom(s, r0) == Some(RefCut(r0, r1, f))
  {
    CloseParenAt(s, r0 + 1, r1 - 1);
  }

  /** The flag written at `q` is read back. */
  lemma {:induction false} FlagRoundTrip(s: string, q: nat, flag: Option<char>)
    requires FlagOk(flag)
    requires q <= |s| && s[q..] == FlagText(flag)
    ensures FlagPart(s, q).Some?
    ensures FlagOf(s, FlagPart(s, q).value) == flag
  {
    if flag.Some? {
      assert s[q] == ' ' && s[q + 1] == flag.value && |s| == q + 2;
      ClassFacts(s[q + 1]);
      SpanAt(s, q, q + 1, Space);
      SpanAt(s, q + 2, q + 2, Space);
    } else {
      SpanAt(s, q, q, Space);
    }
  }

  /** A flag alone after the value is read as the unit: `Na 140 H` has unit
      `H` and no flag, because the optional unit comes first and accepts `H`. */
  lemma {:induction false} BareFlagIsUnit(e: LabEntry)
    requires e.unit.None? && e.refRange.None? && e.flag.Some?
    requires WellFormed(e.(unit := Some([e.flag.value]), flag := None))
    ensures ParseLine(LabLine(e)) ==
            Some(e.(unit := Some([e.flag.value]), flag := None, raw := LabLine(e)))
  {
    var e' := e.(unit := Some([e.flag.value]), flag := None);
    assert LabLine(e') == LabLine(e);
    LabLineRoundTrip(e');
  }
}

=== FILE: lists.dfy ===
/** `_split_list` (src/parse_fields.py): a comma- or newline-separated list
    turned into its clean items. */
module Lists {
  import opened Text

  /** The characters `x.strip(" -\t\r")` removes from each end of an item. */
  const ItemTrim: set<char> := {' ', '-', '\t', '\r'}

  /** The characters that separate items. */
  const ItemSeparators: set<char> := {',', '\n'}

  /** An item `_split_list` can return: not empty, without separators, and
      without trimmed characters at either end. */
  predicate IsItem(x: string) {
    x != "" && NoneIn(x, ItemSeparators) && IsStripped(x, ItemTrim)
  }

  /** A slice has only characters of the text it is cut from. */
  lemma SliceNoneIn(s: string, lo: nat, hi: nat, bad: set<char>)
    requires lo <= hi <= |s| && NoneIn(s, bad)
    ensures NoneIn(s[lo..hi], bad)
  {
    forall k | 0 <= k < hi - lo ensures s[lo..hi][k] !in bad {
      assert s[lo..hi][k] == s[lo + k];
    }
  }

  /** Trimming keeps only characters of the original text. */
  lemma StripKeepsNoneIn(s: string, cs: set<char>, bad: set<char>)
    requires NoneIn(s, bad)
    ensures NoneIn(StripChars(s, cs), bad)
  {
    var l := TrimLeft(s, cs);
    TrimLeftSuffix(s, cs);
    TrimRightPrefix(l, cs);
    SliceNoneIn(s, |s| - |l|, |s|, bad);
    assert l == s[|s| - |l|..|s|];
    var r := TrimRight(l, cs);
    SliceNoneIn(l, 0, |r|, bad);
    assert r == l[0..|r|];
  }

  /** One piece trimmed: the item it holds, if any. */
  function CleanItem(piece: string): (items: seq<string>)
    requires NoneIn(piece, ItemSeparators)
    ensures AllItems(items)
    ensures |items| <= 1
  {
    var x := StripChars(piece, ItemTrim);
    StripKeepsNoneIn(piece, ItemTrim, ItemSeparators);
    if x == "" then [] else [x]
  }

  /** The pieces trimmed, the empty ones dropped, in order. */
  function CleanItems(pieces: seq<string>): (items: seq<string>)
    requires SepFree(pieces)
    ensures AllItems(items)
    ensures |items| <= |pieces|
  {
    if |pieces| == 0 then []
    else
      var head := CleanItem(pieces[0]);
      var rest := CleanItems(pieces[1..]);
      AllItemsAppend(head, rest);
      head + rest
  }

  /** No piece holds a separator. */
  predicate SepFree(pieces: seq<string>) {
    forall i :: 0 <= i < |pieces| ==> NoneIn(pieces[i], ItemSeparators)
  }

  lemma SepFreeAppend(xs: seq<string>, ys: seq<string>)
    requires SepFree(xs) && SepFree(ys)
    ensures SepFree(xs + ys)
  {
    forall i | 0 <= i < |xs + ys| ensures NoneIn((xs + ys)[i], ItemSeparators) {
      if i < |xs| { assert (xs + ys)[i] == xs[i]; }
      else { assert (xs + ys)[i] == ys[i - |xs|]; }
    }
  }

  /** Every element of `xs` is an item. */
  predicate AllItems(xs: seq<string>) {
    forall i :: 0 <= i < |xs| ==> IsItem(xs[i])
  }

  lemma AllItemsAppend(xs: seq<string>, ys: seq<string>)
    requires AllItems(xs) && AllItems(ys)
    ensures AllItems(xs + ys)
  {
    forall i | 0 <= i < |xs + ys| ensures IsItem((xs + ys)[i]) {
      if i < |xs| { assert (xs + ys)[i] == xs[i]; }
      else { assert (xs + ys)[i] == ys[i - |xs|]; }
    }
  }

  lemma {:induction false} CleanItemsAppend(p: seq<string>, q: seq<string>)
    requires SepFree(p) && SepFree(q)
    ensures SepFree(p + q)
    ensures CleanItems(p + q) == CleanItems(p) + CleanItems(q)
    decreases |p|
  {
    SepFreeAppend(p, q);
    if |p| == 0 {
      assert p + q == q;
    } else {
      assert (p + q)[0] == p[0];
      assert (p + q)[1..] == p[1..] + q;
      CleanItemsAppend(p[1..], q);
      assert CleanItems(p + q) == CleanItem(p[0]) + CleanItems(p[1..] + q);
    }
  }

  /** The pieces between commas once every newline has become a comma. */
  function Pieces(text: string): (pieces: seq<string>)
    ensures SepFree(pieces)
  {
    var raw := ReplaceChar(text, '\n', ',');
    var pieces := Split(raw, {','});
    assert forall i :: 0 <= i < |pieces| ==> NoneIn(pieces[i], {','});
    assert NoneIn(raw, {'\n'});
    SplitKeepsNoneIn(raw, {','}, {'\n'});
    pieces
  }

  /** `_split_list(text)`. */
  function SplitList(text: string): (items: seq<string>)
    ensures text == "" ==> items == []
    ensures AllItems(items)
  {
    if text == "" then [] else CleanItems(Pieces(text))
  }

  /** Splitting never produces characters the text does not have. */
  lemma {:induction false} SplitKeepsNoneIn(s: string, seps: set<char>, bad: set<char>)
    requires NoneIn(s, bad)
    ensures forall i :: 0 <= i < |Split(s, seps)| ==> NoneIn(Split(s, seps)[i], bad)
    decreases |s|
  {
    if |s| > 0 {
      SplitKeepsNoneIn(s[1..], seps, bad);
    }
  }

  /** The empty text is no exception: it is one empty piece, and no item. */
  lemma SplitListPieces(text: string)
    ensures SplitList(text) == CleanItems(Pieces(text))
  {
    if text == "" {
      assert Pieces(text) == [""];
      assert CleanItem("") == [];
      assert CleanItems([""]) == CleanItem("") + CleanItems([]);
    }
  }

  /** Separators on both sides of a character split the same way. */
  lemma PiecesAppend(a: string, c: char, b: string)
    requires c in ItemSeparators
    ensures Pieces(a + [c] + b) == Pieces(a) + Pieces(b)
  {
    var ra := ReplaceChar(a, '\n', ',');
    var rb := ReplaceChar(b, '\n', ',');
    assert ReplaceChar(a + [c] + b, '\n', ',') == ra + [','] + rb;
    SplitAppend(ra, rb, ',', {','});
  }

  /** A separator splits the list into the items on each side, in order. */
  lemma SplitListAppend(a: string, c: char, b: string)
    requires c in ItemSeparators
    ensures SplitList(a + [c] + b) == SplitList(a) + SplitList(b)
  {
    SplitListPieces(a + [c] + b);
    SplitListPieces(a);
    SplitListPieces(b);
    PiecesAppend(a, c, b);
    CleanItemsAppend(Pieces(a), Pieces(b));
  }

  /** A text that is already one clean item is a list of that item alone. */
  lemma SplitListItem(x: string)
    requires IsItem(x)
    ensures SplitList(x) == [x]
  {
    assert ReplaceChar(x, '\n', ',') == x;
    SplitNoSep(x, {','});
    StripFixpoint(x, ItemTrim);
  }

  /** Surrounding spaces and hyphens do not survive in an item. */
  lemma SplitListPadded(pad: string, x: string)
    requires IsItem(x) && AllIn(pad, ItemTrim) && NoneIn(pad, ItemSeparators)
    ensures SplitList(pad + x) == [x]
  {
    var s := pad + x;
    assert NoneIn(s, ItemSeparators);
    assert ReplaceChar(s, '\n', ',') == s;
    SplitNoSep(s, {','});
    StripExact(pad, x, "", ItemTrim);
    assert pad + x + "" == s;
  }

  /** Clean items joined with ", " split back into the same items: the list
      text the views print is read back by `_split_list` unchanged. */
  lemma {:induction false} SplitListJoin(items: seq<string>)
    requires AllItems(items)
    ensures SplitList(Join(items, ", ")) == items
    decreases |items|
  {
    if |items| == 0 {
    } else if |items| == 1 {
      SplitListItem(items[0]);
    } else {
      var x, tail := items[0], items[1..];
      var rest := Join(tail, ", ");
      assert Join(items, ", ") == x + [','] + (" " + rest) by {
        assert Join(items, ", ") == x + ", " + rest;
      }
      calc {
        SplitList(Join(items, ", "));
        { SplitListAppend(x, ',', " " + rest); }
        SplitList(x) + SplitList(" " + rest);
        { SplitListItem(x); SplitListLeadingSpace(rest); }
        [x] + SplitList(rest);
        { SplitListJoin(tail); }
        [x] + tail;
      }
      assert items == [x] + tail;
    }
  }

  /** A leading space before the first item is trimmed away. */
  lemma SplitListLeadingSpace(t: string)
    ensures SplitList(" " + t) == SplitList(t)
  {
    var ps := Pieces(" " + t);
    var pt := Pieces(t);
    SplitListPieces(" " + t);
    SplitListPieces(t);
    PiecesCons(' ', t);
    CleanItemSpace(pt[0]);
    CleanItemsCons(ps);
    CleanItemsCons(pt);
  }

  lemma CleanItemSpace(x: string)
    requires NoneIn(x, ItemSeparators)
    ensures NoneIn(" " + x, ItemSeparators)
    ensures CleanItem(" " + x) == CleanItem(x)
  {
    var y := " " + x;
    forall k | 0 <= k < |y| ensures y[k] !in ItemSeparators {
      if k > 0 { assert y[k] == x[k - 1]; }
    }
    assert AllIn(" ", ItemTrim);
    TrimLeftSkips(" ", x, ItemTrim);
    assert StripChars(y, ItemTrim) == StripChars(x, ItemTrim);
  }

  lemma CleanItemsCons(p: seq<string>)
    requires |p| > 0 && SepFree(p)
    ensures NoneIn(p[0], ItemSeparators) && SepFree(p[1..])
    ensures CleanItems(p) == CleanItem(p[0]) + CleanItems(p[1..])
  {
  }

  /** A character that is no separator joins the first piece. */
  lemma PiecesCons(c: char, t: string)
    requires c !in ItemSeparators
    ensures Pieces([c] + t) == [[c] + Pieces(t)[0]] + Pieces(t)[1..]
  {
    var rt := ReplaceChar(t, '\n', ',');
    assert ReplaceChar([c] + t, '\n', ',') == [c] + rt;
    assert ([c] + rt)[1..] == rt;
  }

  /** Splitting is idempotent: the items, joined again, split into themselves. */
  lemma SplitListIdempotent(text: string)
    ensures SplitList(Join(SplitList(text), ", ")) == SplitList(text)
  {
    SplitListJoin(SplitList(text));
  }

  lemma ExampleItems()
    ensures IsItem("Penicillin") && IsItem("Latex") && IsItem("Peanuts")
  {
    assert NoneIn("Penicillin", ItemSeparators);
    assert NoneIn("Latex", ItemSeparators);
    assert NoneIn("Peanuts", ItemSeparators);
  }

  /** Three items, the first two separated by ", " and the last two by a
      line break, come back as the three items. */
  lemma SplitListThree(x: string, y: string, z: string)
    requires IsItem(x) && IsItem(y) && IsItem(z)
    ensures SplitList(x + ", " + y + "\n" + z) == [x, y, z]
  {
    var b := " " + y + ['\n'] + z;
    assert x + ", " + y + "\n" + z == x + [','] + b;
    calc {
      SplitList(x + [','] + b);
      { SplitListAppend(x, ',', b); }
      SplitList(x) + SplitList(b);
      { SplitListAppend(" " + y, '\n', z); }
      SplitList(x) + SplitList(" " + y) + SplitList(z);
      { SplitListLeadingSpace(y); }
      SplitList(x) + SplitList(y) + SplitList(z);
      { SplitListItem(x); SplitListItem(y); SplitListItem(z); }
      [x] + [y] + [z];
    }
  }

  lemma ExampleText()
    ensures "Penicillin, Latex\nPeanuts" == "Penicillin" + ", " + "Latex" + "\n" + "Peanuts"
  {
  }

  /** The example from the function's documentation. */
  lemma SplitListExample()
    ensures SplitList("Penicillin, Latex\nPeanuts") == ["Penicillin", "Latex", "Peanuts"]
  {
    ExampleItems();
    SplitListThree("Penicillin", "Latex", "Peanuts");
    ExampleText();
  }
}

=== FILE: options.dfy ===
/** The optional value used wherever the source returns `None` or leaves a
    dictionary key unset. */
module Options {

  datatype Option<+T> = None | Some(value: T) {

    /** The wrapped value, or `default` when there is none (Python's `x or default`
        for a value that is either missing or present). */
    function GetOr(default: T): T {
      match this
      case Some(v) => v
      case None => default
    }
  }
}

=== FILE: render.dfy ===
/** `render_patient_view` (src/render_patient.py) and `render_emt_view`
    (src/render_emt.py): the two read-only views of a structured record. */
module Render {
  import opened Options
  import opened Text
  import opened Lists
  import opened Fields

  // ---------------------------------------------------------------------------
  // Patient view

  /** The patient view: a fixed title, one or two summary sentences, and the
      record's medications and narrative texts. */
  datatype PatientView = PatientView(
    title: string,
    summary: seq<string>,
    medications: seq<string>,
    dischargeInstructions: string,
    followUp: string,
    returnPrecautions: string)

  const SeenFor: string := "You were seen in the emergency department for: "
  const SeenPlain: string := "You were seen in the emergency department."
  const OnFile: string := "Allergies on file: "

  /** `prefix` followed by the items joined with ", " and a full stop. */
  function Listing(prefix: string, xs: seq<string>): string {
    prefix + Join(xs, ", ") + "."
  }

  /** The first summary sentence, which names the diagnoses when there are
      any. */
  function SeenLine(dx: seq<string>): (line: string)
    ensures dx != [] ==> StartsWith(line, SeenFor)
    ensures dx == [] <==> line == SeenPlain
  {
    if dx != [] then
      SeenForDiffers(dx);
      Listing(SeenFor, dx)
    else SeenPlain
  }

  lemma SeenForDiffers(dx: seq<string>)
    ensures StartsWith(Listing(SeenFor, dx), SeenFor)
    ensures Listing(SeenFor, dx) != SeenPlain
  {
    var line := Listing(SeenFor, dx);
    assert line[..|SeenFor|] == SeenFor;
    assert line[41] == SeenFor[41] == ' ';
  }

  /** `render_patient_view(record)`. */
  function RenderPatient(r: Record): (v: PatientView)
    ensures v.title == "Patient View"
    ensures 1 <= |v.summary| <= 2
    ensures |v.summary| == 2 <==> r.allergies != []
    ensures r.diagnoses != [] ==> StartsWith(v.summary[0], SeenFor)
    ensures r.diagnoses == [] <==> v.summary[0] == SeenPlain
    ensures v.medications == r.medications
    ensures v.dischargeInstructions == r.dischargeInstructions
    ensures v.followUp == r.followUp && v.returnPrecautions == r.returnPrecautions
  {
    var allergyLines := if r.allergies != [] then [Listing(OnFile, r.allergies)] else [];
    PatientView("Patient View", [SeenLine(r.diagnoses)] + allergyLines,
      r.medications, r.dischargeInstructions, r.followUp, r.returnPrecautions)
  }

  // Reading a summary sentence back

  /** The items of a sentence written by `Listing(prefix, _)`, or `None` when
      the sentence does not have that shape. */
  function ReadListing(prefix: string, line: string): (r: Option<seq<string>>)
    ensures r.Some? ==> AllItems(r.value)
  {
    if |prefix| < |line| && line[..|prefix|] == prefix && line[|line| - 1] == '.'
    then Some(SplitList(line[|prefix|..|line| - 1]))
    else None
  }

  /** The diagnoses the first summary sentence names. */
  function ReadSeenLine(line: string): (r: Option<seq<string>>)
    ensures r.Some? ==> AllItems(r.value)
  {
    if line == SeenPlain then Some([]) else ReadListing(SeenFor, line)
  }

  /** A listing sentence gives back its items. */
  lemma {:induction false} ListingRoundTrip(prefix: string, xs: seq<string>)
    requires AllItems(xs)
    ensures ReadListing(prefix, Listing(prefix, xs)) == Some(xs)
  {
    var j := Join(xs, ", ");
    var line := Listing(prefix, xs);
    assert line[..|prefix|] == prefix;
    assert line[|prefix|..|line| - 1] == j;
    SplitListJoin(xs);
  }

  /** The first sentence gives back the diagnoses. */
  lemma {:induction false} SeenLineRoundTrip(dx: seq<string>)
    requires AllItems(dx)
    ensures ReadSeenLine(SeenLine(dx)) == Some(dx)
  {
    if dx != [] {
      SeenForDiffers(dx);
      ListingRoundTrip(SeenFor, dx);
    }
  }

  /** The summary of a record with clean lists names its diagnoses and
      allergies exactly: reading the sentences back gives the lists. */
  lemma {:induction false} SummaryRoundTrip(r: Record)
    requires AllItems(r.diagnoses) && AllItems(r.allergies)
    ensures var v := RenderPatient(r);
            && ReadSeenLine(v.summary[0]) == Some(r.diagnoses)
            && (|v.summary| == 2 ==> ReadListing(OnFile, v.summary[1]) == Some(r.allergies))
  {
    SeenLineRoundTrip(r.diagnoses);
    if r.allergies != [] {
      ListingRoundTrip(OnFile, r.allergies);
    }
  }

  /** The same for the record of any document text: its lists are always
      clean. */
  lemma {:induction false} SummaryOfText(text: string)
    ensures var r := RecordOf(text);
            var v := RenderPatient(r);
            && ReadSeenLine(v.summary[0]) == Some(r.diagnoses)
            && (|v.summary| == 2 ==> ReadListing(OnFile, v.summary[1]) == Some(r.allergies))
  {
    SummaryRoundTrip(RecordOf(text));
  }

  // ---------------------------------------------------------------------------
  // EMT view

  /** The EMT view: a fixed title, three lists that are never empty, and the
      return precautions. */
  datatype EmtView = EmtView(
    title: string,
    allergies: seq<string>,
    medications: seq<string>,
    problems: seq<string>,
    returnPrecautions: string)

  const NoneListed: string := "None listed"
  const NotSpecified: string := "Not specified"

  /** Python's `xs if xs else [placeholder]`. */
  function OrPlaceholder(xs: seq<string>, placeholder: string): (ys: seq<string>)
    ensures ys != []
    ensures xs != [] ==> ys == xs
    ensures xs == [] ==> ys == [placeholder]
  {
    if xs != [] then xs else [placeholder]
  }

  /** `render_emt_view(record)`. */
  function RenderEmt(r: Record): (v: EmtView)
    ensures v.title == "EMT View"
    ensures v.allergies != [] && v.medications != [] && v.problems != []
    ensures v.allergies == OrPlaceholder(r.allergies, "None listed")
    ensures v.medications == OrPlaceholder(r.medications, "None listed")
    ensures v.problems == OrPlaceholder(r.diagnoses, "Not specified")
    ensures v.returnPrecautions == r.returnPrecautions
  {
    EmtView("EMT View",
      OrPlaceholder(r.allergies, NoneListed),
      OrPlaceholder(r.medications, NoneListed),
      OrPlaceholder(r.diagnoses, NotSpecified),
      r.returnPrecautions)
  }

  /** A list shown with a placeholder, read back: the placeholder alone
      stands for the empty list. */
  function Unplaced(ys: seq<string>, placeholder: string): seq<string> {
    if ys == [placeholder] then [] else ys
  }

  /** Reading a placeholder list back gives the original list exactly when
      the original is not the placeholder itself: a record whose only
      allergy is "None listed" looks like one with none. */
  lemma PlaceholderRoundTrip(xs: seq<string>, placeholder: string)
    ensures Unplaced(OrPlaceholder(xs, placeholder), placeholder) == xs <==> xs != [placeholder]
  {
  }

  /** The EMT lists give back the record's lists unless a list is its own
      placeholder. */
  lemma {:induction false} EmtRoundTrip(r: Record)
    ensures var v := RenderEmt(r);
            && (Unplaced(v.allergies, NoneListed) == r.allergies <==> r.allergies != [NoneListed])
            && (Unplaced(v.medications, NoneListed) == r.medications <==> r.medications != [NoneListed])
            && (Unplaced(v.problems, NotSpecified) == r.diagnoses <==> r.diagnoses != [NotSpecified])
  {
    PlaceholderRoundTrip(r.allergies, NoneListed);
    PlaceholderRoundTrip(r.medications, NoneListed);
    PlaceholderRoundTrip(r.diagnoses, NotSpecified);
  }

  /** The two views agree on the return precautions always, and on the
      medications exactly when the record lists some. */
  lemma ViewsAgree(r: Record)
    ensures RenderPatient(r).returnPrecautions == RenderEmt(r).returnPrecautions
    ensures RenderPatient(r).medications == RenderEmt(r).medications <==> r.medications != []
  {
  }
}

=== FILE: sections.dfy ===
/** `split_into_sections` (src/parse_sections.py): finding header lines,
    cutting the text between them, merging repeated sections and the NKDA
    fallback for allergies. The header regular expression is modelled line by
    line: a match can only begin where a line begins, and what decides a match
    is the line's text. */
module Sections {
  import opened Options
  import opened Text
  import opened Aliases

  // ---------------------------------------------------------------------------
  // The header pattern

  /** The two alternatives of the pattern: `^(alias)\s*:?\s*$` (a header on a
      line of its own) and `^(alias)\s*:\s*` (a header followed by content). */
  datatype Form = Standalone | Inline

  /** What may follow the alias on a header line of its own: whitespace, at most
      one colon, whitespace, and the end of the line. */
  predicate StandaloneRest(rest: string) {
    var t := TrimLeft(rest, Whitespace);
    t == [] || (t[0] == ':' && AllIn(t[1..], Whitespace))
  }

  /** What must follow the alias on an inline header: whitespace, then a colon. */
  predicate InlineRest(rest: string) {
    var t := TrimLeft(rest, Whitespace);
    t != [] && t[0] == ':'
  }

  /** The lower-cased line `low` begins with alias `a` and continues as `form`
      requires. */
  predicate Fits(low: string, a: string, form: Form) {
    StartsWith(low, a) &&
    (if form == Standalone then StandaloneRest(low[|a|..]) else InlineRest(low[|a|..]))
  }

  /** An alias followed by whitespace and then a word is no header in either
      form: only whitespace and a colon may come between them. */
  lemma WordAfter(a: string, rest: string, form: Form)
    requires |rest| >= 2 && rest[0] in Whitespace && rest[1] !in Whitespace && rest[1] != ':'
    ensures !Fits(a + rest, a, form)
  {
    assert (a + rest)[|a|..] == rest;
    assert TrimLeft(rest, Whitespace) == TrimLeft(rest[1..], Whitespace);
  }

  /** The characters `re.escape` puts a backslash in front of. */
  const RegexSpecial: set<char> := {
    '(', ')', '[', ']', '{', '}', '?', '*', '+', '-', '|', '^', '$', '\\', '.',
    '&', '~', '#', ' ', '\t', '\n', '\r', '\U{0B}', '\U{0C}'
  }

  /** `len(re.escape(a))`, the key the alternatives are sorted by. */
  function EscapedLength(a: string): nat {
    if |a| == 0 then 0
    else (if a[0] in RegexSpecial then 2 else 1) + EscapedLength(a[1..])
  }

  /** Alternative `i` comes before alternative `j` in the pattern, given each
      alternative's sort key: longest first, and the sort is stable. */
  predicate SortsBefore(keys: seq<nat>, i: nat, j: nat)
    requires i < |keys| && j < |keys|
  {
    keys[i] > keys[j] || (keys[i] == keys[j] && i < j)
  }

  /** The sort keys of the alternatives built from `table`. */
  function SortKeys(table: seq<(string, Section)>): (keys: seq<nat>)
    ensures |keys| == |table|
  {
    seq(|table|, j requires 0 <= j < |table| => EscapedLength(table[j].0))
  }

  /** The alternative the engine takes among the first `n`, where `fits[j]` says
      whether alternative `j` matches: the engine tries the alternatives in
      sorted order and keeps the first that matches, which is the one sorting
      before every other matching alternative. */
  function Pick(keys: seq<nat>, fits: seq<bool>, n: nat): (r: Option<nat>)
    requires |fits| == |keys| && n <= |keys|
    ensures r.None? <==> forall j :: 0 <= j < n ==> !fits[j]
    ensures r.Some? ==> r.value < n && fits[r.value]
    ensures r.Some? ==> forall j :: 0 <= j < n && j != r.value && fits[j] ==> SortsBefore(keys, r.value, j)
  {
    if n == 0 then None
    else
      var prev := Pick(keys, fits, n - 1);
      if fits[n - 1] && (prev.None? || keys[n - 1] > keys[prev.value]) then Some(n - 1) else prev
  }

  /** Which alternatives built from `table` match the lower-cased line `low` in
      `form`. */
  function Fitting(table: seq<(string, Section)>, low: string, form: Form): (fits: seq<bool>)
    ensures |fits| == |table|
    ensures forall j :: 0 <= j < |table| ==> (fits[j] <==> Fits(low, table[j].0, form))
  {
    seq(|table|, j requires 0 <= j < |table| => Fits(low, table[j].0, form))
  }

  /** A line the pattern matches: which alternative, which alias (by its
      position among the entries), the canonical key, and the text after the
      match on the same line. */
  datatype HeaderMatch = HeaderMatch(form: Form, index: nat, key: string, tail: string)

  /** The text an inline header leaves on its line: whatever follows the colon,
      without leading whitespace. */
  function InlineTail(rest: string): string
    requires InlineRest(rest)
  {
    TrimLeft(TrimLeft(rest, Whitespace)[1..], Whitespace)
  }

  /** The alternative the pattern takes at the start of a line whose lower-case
      form is `low`: the standalone form first, the inline form only when no
      alias fits the standalone form; within a form, the alias sorting first. */
  function Choose(table: seq<(string, Section)>, low: string): (r: Option<(Form, nat)>)
    ensures r.Some? <==> exists i, form :: 0 <= i < |table| && Fits(low, table[i].0, form)
    ensures r.Some? ==> r.value.1 < |table| && Fits(low, table[r.value.1].0, r.value.0)
    ensures r.Some? && r.value.0 == Inline ==>
              forall i :: 0 <= i < |table| ==> !Fits(low, table[i].0, Standalone)
    ensures r.Some? ==> forall j :: 0 <= j < |table| && j != r.value.1 && Fits(low, table[j].0, r.value.0)
                                    ==> SortsBefore(SortKeys(table), r.value.1, j)
  {
    var keys := SortKeys(table);
    var alone := Fitting(table, low, Standalone);
    var inline := Fitting(table, low, Inline);
    var s := Pick(keys, alone, |table|);
    if s.Some? then
      Some((Standalone, s.value))
    else
      var n := Pick(keys, inline, |table|);
      if n.Some? then Some((Inline, n.value)) else None
  }

  /** From position `n` on, `line` holds a colon with whitespace around it and
      then `tail`, which does not begin with whitespace. */
  predicate ColonThen(line: string, n: nat, tail: string) {
    n + |tail| <= |line| && line[|line| - |tail|..] == tail &&
    Strip(line[n..|line| - |tail|]) == ":" && (tail == [] || tail[0] !in Whitespace)
  }

  /** The pattern applied to `line`: the alternative taken, the canonical key of
      the matched header text and what the match leaves on the line. With a
      clean table the key is a canonical one; an inline match splits the line
      into the alias, a colon between whitespace, and the tail. */
  function MatchHeader(table: seq<(string, Section)>, line: string): (r: Option<HeaderMatch>)
    ensures r.Some? <==> Choose(table, Lower(line)).Some?
    ensures r.Some? ==> (r.value.form, r.value.index) == Choose(table, Lower(line)).value
    ensures r.Some? && AllClean(table) ==> r.value.key in CanonicalKeys
    ensures r.Some? && r.value.form == Standalone ==> r.value.tail == ""
    ensures r.Some? && r.value.form == Inline ==>
              r.value.index < |table| && ColonThen(line, |table[r.value.index].0|, r.value.tail)
  {
    var c := Choose(table, Lower(line));
    if c.None? then None else Some(MatchAt(table, line, c.value.0, c.value.1))
  }

  /** The match of alternative `i` in `form` on a line it fits. */
  function MatchAt(table: seq<(string, Section)>, line: string, form: Form, i: nat): (h: HeaderMatch)
    requires i < |table| && Fits(Lower(line), table[i].0, form)
    ensures h.form == form && h.index == i
    ensures AllClean(table) ==> h.key in CanonicalKeys
    ensures form == Standalone ==> h.tail == ""
    ensures form == Inline ==> ColonThen(line, |table[i].0|, h.tail)
  {
    var a := table[i].0;
    var key := Canonicalize(table, CleanAlias(line[..|a|]));
    MatchedKey(table, line, i);
    if form == Standalone then HeaderMatch(Standalone, i, key, "")
    else
      InlineRestOfLine(line, a);
      InlineLineShape(line, |a|);
      HeaderMatch(Inline, i, key, InlineTail(line[|a|..]))
  }

  /** The text an alias of a clean table matches canonicalizes to a canonical
      key. */
  lemma MatchedKey(table: seq<(string, Section)>, line: string, i: nat)
    requires i < |table| && StartsWith(Lower(line), table[i].0)
    ensures AllClean(table) ==> Canonicalize(table, CleanAlias(line[..|table[i].0|])) in CanonicalKeys
  {
    if AllClean(table) {
      var a := table[i].0;
      MatchedAlias(line, a);
      assert !Unlisted(a, table);
      assert Lookup(table, a).Some?;
    }
  }

  /** The text a clean alias matched cleans back to that alias. */
  lemma MatchedAlias(line: string, a: string)
    requires StartsWith(Lower(line), a) && CleanAlias(a) == a
    ensures CleanAlias(line[..|a|]) == a
  {
    assert Lower(line[..|a|]) == Lower(line)[..|a|] == a;
    CleanMatchedText(line[..|a|], a);
  }

  /** An inline header ending at `n` leaves a suffix of its line, after a colon
      with whitespace around it. */
  lemma InlineLineShape(line: string, n: nat)
    requires n <= |line| && InlineRest(line[n..])
    ensures ColonThen(line, n, InlineTail(line[n..]))
  {
    var rest := line[n..];
    var t := InlineTail(rest);
    InlineTailShape(rest);
    assert line[|line| - |t|..] == rest[|rest| - |t|..];
    assert line[n..|line| - |t|] == rest[..|rest| - |t|];
  }

  /** What an inline header leaves is a suffix of the rest of the line, and what
      it consumes is a colon with whitespace around it. */
  lemma InlineTailShape(rest: string)
    requires InlineRest(rest)
    ensures var t := InlineTail(rest);
            |t| < |rest| && rest[|rest| - |t|..] == t && Strip(rest[..|rest| - |t|]) == ":"
  {
    var u := TrimLeft(rest, Whitespace);
    TrimLeftSuffix(rest, Whitespace);
    var p := |rest| - |u|;
    var v := u[1..];
    var t := TrimLeft(v, Whitespace);
    TrimLeftSuffix(v, Whitespace);
    var q := |v| - |t|;
    assert rest[..p + 1 + q] == rest[..p] + ":" + v[..q];
    StripExact(rest[..p], ":", v[..q], Whitespace);
  }

  /** The colon an inline header needs is found in the line itself, not only in
      its lower-case form. */
  lemma InlineRestOfLine(line: string, a: string)
    requires Fits(Lower(line), a, Inline)
    ensures |a| <= |line| && InlineRest(line[|a|..])
  {
    assert Lower(line)[|a|..] == Lower(line[|a|..]);
    LowerTrimLeft(line[|a|..]);
  }

  /** Lower-casing does not move whitespace or colons, so the rest of the line
      has the same shape before and after. */
  lemma LowerTrimLeft(s: string)
    ensures |TrimLeft(Lower(s), Whitespace)| == |TrimLeft(s, Whitespace)|
    ensures TrimLeft(Lower(s), Whitespace) != [] ==>
              (TrimLeft(Lower(s), Whitespace)[0] == ':' <==> TrimLeft(s, Whitespace)[0] == ':')
  {
    if |s| > 0 {
      LowerCharKeepsWhitespace(s[0]);
      assert Lower(s)[1..] == Lower(s[1..]);
      LowerTrimLeft(s[1..]);
    }
  }

  /** The key of a header line is the section `alias_to_canonical` records for
      the alias that matched, so it is always one of the nine canonical keys. */
  lemma HeaderKey(table: seq<(string, Section)>, line: string)
    requires AllClean(table)
    requires MatchHeader(table, line).Some?
    ensures Lookup(table, table[MatchHeader(table, line).value.index].0).Some?
    ensures MatchHeader(table, line).value.key == Lookup(table, table[MatchHeader(table, line).value.index].0).value.Key()
    ensures MatchHeader(table, line).value.key in CanonicalKeys
  {
    var h := MatchHeader(table, line).value;
    var a := table[h.index].0;
    assert Lower(line[..|a|]) == Lower(line)[..|a|] == a;
    CleanMatchedText(line[..|a|], a);
    assert !Unlisted(a, table);
  }

  // ---------------------------------------------------------------------------
  // Cutting the text at header lines

  /** The lines `^` and `$` see under `re.MULTILINE`: only `\n` ends a line. */
  function Lines(text: string): seq<string> {
    Split(text, {'\n'})
  }

  predicate IsHeader(table: seq<(string, Section)>, line: string) {
    MatchHeader(table, line).Some?
  }

  /** The pattern's result on every line. */
  function MatchLines(table: seq<(string, Section)>, lines: seq<string>): (hs: seq<Option<HeaderMatch>>)
    ensures |hs| == |lines|
  {
    seq(|lines|, k requires 0 <= k < |lines| => MatchHeader(table, lines[k]))
  }

  /** Every header line carries one of the nine canonical keys. */
  predicate KeysCanonical(hs: seq<Option<HeaderMatch>>) {
    forall k :: 0 <= k < |hs| && hs[k].Some? ==> hs[k].value.key in CanonicalKeys
  }

  lemma MatchLinesKeys(table: seq<(string, Section)>, lines: seq<string>)
    requires AllClean(table)
    ensures KeysCanonical(MatchLines(table, lines))
  {
    forall k | 0 <= k < |lines| && MatchLines(table, lines)[k].Some?
      ensures MatchLines(table, lines)[k].value.key in CanonicalKeys
    {
      HeaderKey(table, lines[k]);
    }
  }

  /** The first header line at or after `from`, or `|hs|` when there is none. */
  function NextHeader(hs: seq<Option<HeaderMatch>>, from: nat): (j: nat)
    requires from <= |hs|
    ensures from <= j <= |hs|
    ensures forall k :: from <= k < j ==> hs[k].None?
    ensures j < |hs| ==> hs[j].Some?
    decreases |hs| - from
  {
    if from == |hs| || hs[from].Some? then from else NextHeader(hs, from + 1)
  }

  /** The lines `from` up to `to`, each with the line break before it. */
  function Following(lines: seq<string>, from: nat, to: nat): string
    requires from <= to <= |lines|
    decreases (to as int) - from
  {
    if from == to then "" else "\n" + lines[from] + Following(lines, from + 1, to)
  }

  /** One match: its canonical key and the text between its end and the start
      of the next match. */
  datatype Occurrence = Occurrence(key: string, raw: string) {
    /** `text[start:end].strip()`, what the loop files under the key. */
    function Content(): string {
      Strip(raw)
    }
  }

  /** The matches from line `from` on, in document order, where `hs` holds the
      pattern's result on each line: every header line gives one, and its
      content runs from the end of the match to the start of the next header
      line (or to the end of the text). */
  function Occurrences(lines: seq<string>, hs: seq<Option<HeaderMatch>>, from: nat): seq<Occurrence>
    requires |hs| == |lines| && from <= |lines|
    decreases |lines| - from
  {
    var k := NextHeader(hs, from);
    if k == |lines| then [] else [OccurrenceAt(lines, hs, k)] + Occurrences(lines, hs, k + 1)
  }

  /** Every match carries one of the nine canonical keys. */
  predicate KeysIn(occs: seq<Occurrence>) {
    forall i :: 0 <= i < |occs| ==> occs[i].key in CanonicalKeys
  }

  /** With canonical header keys every match has a canonical key. */
  lemma {:induction false} OccurrencesKeys(lines: seq<string>, hs: seq<Option<HeaderMatch>>, from: nat)
    requires |hs| == |lines| && from <= |lines| && KeysCanonical(hs)
    ensures KeysIn(Occurrences(lines, hs, from))
    decreases |lines| - from
  {
    var k := NextHeader(hs, from);
    if k < |lines| {
      OccurrencesKeys(lines, hs, k + 1);
      var o := OccurrenceAt(lines, hs, k);
      var rest := Occurrences(lines, hs, k + 1);
      assert Occurrences(lines, hs, from) == [o] + rest;
      assert o.key in CanonicalKeys;
      KeysInCons(o, rest);
    }
  }

  lemma KeysInCons(o: Occurrence, rest: seq<Occurrence>)
    requires o.key in CanonicalKeys && KeysIn(rest)
    ensures KeysIn([o] + rest)
  {
    assert forall i :: 1 <= i < |[o] + rest| ==> ([o] + rest)[i] == rest[i - 1];
  }

  /** There is no match from line `from` on exactly when no line from there on
      is a header line. */
  lemma {:induction false} OccurrencesEmpty(lines: seq<string>, hs: seq<Option<HeaderMatch>>, from: nat)
    requires |hs| == |lines| && from <= |lines|
    ensures Occurrences(lines, hs, from) == [] <==> forall k :: from <= k < |hs| ==> hs[k].None?
  {
  }

  /** The match of header line `k`: its content is what the match leaves on the
      line and the lines up to the next header line, with the line break that
      precedes that header line. */
  function OccurrenceAt(lines: seq<string>, hs: seq<Option<HeaderMatch>>, k: nat): (o: Occurrence)
    requires |hs| == |lines| && k < |lines| && hs[k].Some?
    ensures o.key == hs[k].value.key
  {
    var h := hs[k].value;
    var j := NextHeader(hs, k + 1);
    Occurrence(h.key, h.tail + Following(lines, k + 1, j) + (if j < |lines| then "\n" else ""))
  }

  /** The matches of the whole text. */
  function TextOccurrences(table: seq<(string, Section)>, text: string): seq<Occurrence> {
    var lines := Lines(text);
    Occurrences(lines, MatchLines(table, lines), 0)
  }

  /** The lines from `from` to the end, each after a line break, are their own
      join after one line break. */
  lemma {:induction false} FollowingJoin(lines: seq<string>, from: nat)
    requires from < |lines|
    ensures Following(lines, from, |lines|) == "\n" + Join(lines[from..], "\n")
    decreases |lines| - from
  {
    if from + 1 < |lines| {
      FollowingJoin(lines, from + 1);
      assert lines[from..][1..] == lines[from + 1..];
    } else {
      assert lines[from..] == [lines[from]];
    }
  }

  lemma {:induction false} FollowingSplit(lines: seq<string>, a: nat, b: nat, c: nat)
    requires a <= b <= c <= |lines|
    ensures Following(lines, a, c) == Following(lines, a, b) + Following(lines, b, c)
    decreases b - a
  {
    if a < b {
      FollowingSplit(lines, a + 1, b, c);
    }
  }

  /** The text is its lines up to line `k`, then the later lines each after a
      line break. */
  lemma JoinFollowing(lines: seq<string>, k: nat)
    requires k < |lines|
    ensures Join(lines, "\n") == Join(lines[..k + 1], "\n") + Following(lines, k + 1, |lines|)
  {
    if k + 1 < |lines| {
      assert lines == lines[..k + 1] + lines[k + 1..];
      JoinAppend(lines[..k + 1], lines[k + 1..], "\n");
      FollowingJoin(lines, k + 1);
    } else {
      assert lines[..k + 1] == lines;
    }
  }

  /** The text up to line `k` ends with line `k`. */
  lemma JoinEndsWithLast(lines: seq<string>, k: nat, t: string)
    requires k < |lines| && |t| <= |lines[k]| && lines[k][|lines[k]| - |t|..] == t
    ensures var head := Join(lines[..k + 1], "\n");
            |t| <= |head| && head[..|head| - |t|] + t == head
  {
    var head := Join(lines[..k + 1], "\n");
    if k > 0 {
      assert lines[..k + 1] == lines[..k] + [lines[k]];
      JoinSnoc(lines[..k], lines[k], "\n");
    }
    assert head[|head| - |t|..] == t;
  }

  /** `text` is the lines up to line `k` without line `k`'s last `|tail|`
      characters, then `raw`, then the lines from the next header line after
      `k` on (nothing when there is none). */
  predicate Placed(text: string, lines: seq<string>, hs: seq<Option<HeaderMatch>>, k: nat, tail: string, raw: string)
    requires |hs| == |lines| && k < |lines|
  {
    var j := NextHeader(hs, k + 1);
    var head := Join(lines[..k + 1], "\n");
    |tail| <= |head| &&
    text == head[..|head| - |tail|] + raw + (if j < |lines| then Join(lines[j..], "\n") else "")
  }

  /** The occurrence of header line `k` holds the text from where its match
      ends (where its tail begins) up to the line break before the next header
      line, that line break included, or to the end of the text. */
  lemma {:induction false} OccurrenceSpan(lines: seq<string>, hs: seq<Option<HeaderMatch>>, k: nat)
    requires |hs| == |lines| && k < |lines| && hs[k].Some?
    requires IsSuffix(hs[k].value.tail, lines[k])
    ensures Placed(Join(lines, "\n"), lines, hs, k, hs[k].value.tail, OccurrenceAt(lines, hs, k).raw)
  {
    var t := hs[k].value.tail;
    var j := NextHeader(hs, k + 1);
    var n := |lines|;
    var head := Join(lines[..k + 1], "\n");
    var rest := if j < n then Join(lines[j..], "\n") else "";
    var brk := if j < n then "\n" else "";
    JoinEndsWithLast(lines, k, t);
    JoinFollowing(lines, k);
    FollowingSplit(lines, k + 1, j, n);
    if j < n {
      FollowingJoin(lines, j);
    }
    Regroup(Join(lines, "\n"), head[..|head| - |t|], t, Following(lines, k + 1, j), brk, rest);
  }

  /** A line that is no header adds no match; a header line adds one, in
      front. */
  lemma OccurrencesStep(lines: seq<string>, hs: seq<Option<HeaderMatch>>, from: nat)
    requires |hs| == |lines| && from < |lines|
    ensures Occurrences(lines, hs, from) ==
              (if hs[from].Some? then [OccurrenceAt(lines, hs, from)] else []) + Occurrences(lines, hs, from + 1)
  {
    if hs[from].Some? {
      assert NextHeader(hs, from) == from;
    } else {
      assert NextHeader(hs, from) == NextHeader(hs, from + 1);
    }
  }

  /** `c` is what is left of `a` after dropping some of its first elements. */
  ghost predicate IsSuffix<T>(c: seq<T>, a: seq<T>) {
    |c| <= |a| && a[|a| - |c|..] == c
  }

  /** The matches from a later line on are the last matches from an earlier
      line on. */
  lemma {:induction false} OccurrencesFrom(lines: seq<string>, hs: seq<Option<HeaderMatch>>, from: nat, k: nat)
    requires |hs| == |lines| && from <= k <= |lines|
    ensures IsSuffix(Occurrences(lines, hs, k), Occurrences(lines, hs, from))
    decreases k - from
  {
    if from < k {
      OccurrencesFrom(lines, hs, from + 1, k);
      OccurrencesSuffixStep(lines, hs, from);
      SuffixTrans(Occurrences(lines, hs, k), Occurrences(lines, hs, from + 1), Occurrences(lines, hs, from));
    } else {
      SuffixOfItself(Occurrences(lines, hs, from));
    }
  }

  lemma OccurrencesSuffixStep(lines: seq<string>, hs: seq<Option<HeaderMatch>>, from: nat)
    requires |hs| == |lines| && from < |lines|
    ensures IsSuffix(Occurrences(lines, hs, from + 1), Occurrences(lines, hs, from))
  {
    OccurrencesStep(lines, hs, from);
    var b := Occurrences(lines, hs, from + 1);
    SuffixOfItself(b);
    SuffixLink(Occurrences(lines, hs, from), b, b, if hs[from].Some? then [OccurrenceAt(lines, hs, from)] else []);
  }

  lemma SuffixOfItself<T>(a: seq<T>)
    ensures IsSuffix(a, a)
  {
    assert a[|a| - |a|..] == a;
  }

  lemma SuffixTrans<T>(c: seq<T>, b: seq<T>, a: seq<T>)
    requires IsSuffix(c, b) && IsSuffix(b, a)
    ensures IsSuffix(c, a)
  {
    assert a[|a| - |c|..] == a[|a| - |b|..][|b| - |c|..];
  }

  /** A suffix of `b` is a suffix of `b` with something put in front. */
  lemma SuffixLink<T>(a: seq<T>, b: seq<T>, c: seq<T>, x: seq<T>)
    requires a == x + b
    requires IsSuffix(c, b)
    ensures IsSuffix(c, a)
  {
    assert a[|a| - |c|..] == b[|b| - |c|..];
  }

  /** Header line `k` gives the match that has as many matches after it as
      there are from line `k + 1` on. */
  lemma {:induction false} OccurrenceIndex(lines: seq<string>, hs: seq<Option<HeaderMatch>>, k: nat)
    requires |hs| == |lines| && k < |lines| && hs[k].Some?
    ensures var occs := Occurrences(lines, hs, 0);
            var i := |occs| - |Occurrences(lines, hs, k)|;
            0 <= i < |occs| && occs[i] == OccurrenceAt(lines, hs, k)
  {
    OccurrencesFrom(lines, hs, 0, k);
    OccurrencesStep(lines, hs, k);
  }

  /** Every header line of the text gives one match, whose raw content is the
      text between the end of the match and the next header line (or the end
      of the text). */
  lemma {:induction false} TextOccurrenceSpan(table: seq<(string, Section)>, text: string, k: nat)
    requires k < |Lines(text)| && IsHeader(table, Lines(text)[k])
    ensures var lines := Lines(text);
            var hs := MatchLines(table, lines);
            var occs := TextOccurrences(table, text);
            var i := |occs| - |Occurrences(lines, hs, k)|;
            0 <= i < |occs| && occs[i] == OccurrenceAt(lines, hs, k) &&
            Placed(text, lines, hs, k, MatchHeader(table, lines[k]).value.tail, occs[i].raw)
  {
    TextPlaced(table, text, k);
    TextOccurrenceIndex(table, text, k);
  }

  lemma {:induction false} TextOccurrenceIndex(table: seq<(string, Section)>, text: string, k: nat)
    requires k < |Lines(text)| && IsHeader(table, Lines(text)[k])
    ensures var lines := Lines(text);
            var hs := MatchLines(table, lines);
            var occs := TextOccurrences(table, text);
            var i := |occs| - |Occurrences(lines, hs, k)|;
            0 <= i < |occs| && occs[i] == OccurrenceAt(lines, hs, k)
  {
    var lines := Lines(text);
    var hs := MatchLines(table, lines);
    assert hs[k] == MatchHeader(table, lines[k]);
    OccurrenceIndex(lines, hs, k);
  }

  lemma {:induction false} TextPlaced(table: seq<(string, Section)>, text: string, k: nat)
    requires k < |Lines(text)| && IsHeader(table, Lines(text)[k])
    ensures var lines := Lines(text);
            var hs := MatchLines(table, lines);
            hs[k].Some? &&
            Placed(text, lines, hs, k, MatchHeader(table, lines[k]).value.tail, OccurrenceAt(lines, hs, k).raw)
  {
    LinesPlaced(table, Lines(text), k);
    JoinSplit(text, '\n');
    assert "\n" == ['\n'];
  }

  lemma {:induction false} LinesPlaced(table: seq<(string, Section)>, lines: seq<string>, k: nat)
    requires k < |lines| && IsHeader(table, lines[k])
    ensures var hs := MatchLines(table, lines);
            hs[k].Some? &&
            Placed(Join(lines, "\n"), lines, hs, k, MatchHeader(table, lines[k]).value.tail, OccurrenceAt(lines, hs, k).raw)
  {
    var hs := MatchLines(table, lines);
    assert hs[k] == MatchHeader(table, lines[k]);
    TailEndsLine(table, lines[k]);
    OccurrenceSpan(lines, hs, k);
  }

  /** What a match leaves on its line is the end of that line. */
  lemma TailEndsLine(table: seq<(string, Section)>, line: string)
    requires IsHeader(table, line)
    ensures IsSuffix(MatchHeader(table, line).value.tail, line)
  {
    if MatchHeader(table, line).value.form == Standalone {
      assert line[|line|..] == [];
    }
  }

  lemma Regroup(text: string, p: string, t: string, f: string, brk: string, rest: string)
    requires text == (p + t) + (f + (brk + rest))
    ensures text == p + (t + f + brk) + rest
  {
  }

  // ---------------------------------------------------------------------------
  // Merging repeated sections

  /** One step of the loop over the matches: a non-empty repeat is appended on
      a new line, anything else replaces what was there. */
  function MergeOne(sections: map<string, string>, o: Occurrence): map<string, string> {
    var content := o.Content();
    if o.key in sections && content != "" then
      sections[o.key := Strip(sections[o.key] + "\n" + content)]
    else
      sections[o.key := content]
  }

  /** The loop over all matches, in order. */
  function Merge(occs: seq<Occurrence>): map<string, string>
    decreases |occs|
  {
    if |occs| == 0 then map[] else MergeOne(Merge(occs[..|occs| - 1]), occs[|occs| - 1])
  }

  /** The contents of the matches filed under `key`, in document order. */
  function ContentsFor(occs: seq<Occurrence>, key: string): (cs: seq<string>)
    ensures forall i :: 0 <= i < |cs| ==> IsStripped(cs[i], Whitespace)
    decreases |occs|
  {
    if |occs| == 0 then []
    else
      var last := occs[|occs| - 1];
      ContentsFor(occs[..|occs| - 1], key) + (if last.key == key then [last.Content()] else [])
  }

  /** The contents after the last empty one: an empty repeat wipes what came
      before it. */
  function AfterLastEmpty(cs: seq<string>): (r: seq<string>)
    ensures forall i :: 0 <= i < |r| ==> r[i] != ""
    ensures |r| <= |cs| && r == cs[|cs| - |r|..]
  {
    if |cs| == 0 || cs[|cs| - 1] == "" then []
    else AfterLastEmpty(cs[..|cs| - 1]) + [cs[|cs| - 1]]
  }
  /** The contents `AfterLastEmpty` drops end with an empty one: it keeps the
      longest run of non-empty contents at the end, and nothing more. */
  lemma {:induction false} AfterLastEmptyCut(cs: seq<string>)
    ensures var r := AfterLastEmpty(cs); |r| < |cs| ==> cs[|cs| - |r| - 1] == ""
    decreases |cs|
  {
    if |cs| > 0 && cs[|cs| - 1] != "" {
      var init := cs[..|cs| - 1];
      AfterLastEmptyCut(init);
      assert |AfterLastEmpty(cs)| == |AfterLastEmpty(init)| + 1;
    }
  }


  lemma {:induction false} AfterLastEmptyStripped(cs: seq<string>)
    requires forall i :: 0 <= i < |cs| ==> IsStripped(cs[i], Whitespace)
    ensures forall i :: 0 <= i < |AfterLastEmpty(cs)| ==> IsStripped(AfterLastEmpty(cs)[i], Whitespace)
    decreases |cs|
  {
    if |cs| > 0 && cs[|cs| - 1] != "" {
      AfterLastEmptyStripped(cs[..|cs| - 1]);
    }
  }

  lemma AfterLastEmptySnoc(cs: seq<string>, c: string)
    ensures AfterLastEmpty(cs + [c]) == if c == "" then [] else AfterLastEmpty(cs) + [c]
  {
    assert (cs + [c])[..|cs|] == cs;
  }

  /** The merged text of stripped contents, with one more non-empty content
      appended on a new line and the result stripped, is the merged text of
      the longer list. */
  lemma AppendLine(prior: seq<string>, c: string)
    requires forall i :: 0 <= i < |prior| ==> prior[i] != "" && IsStripped(prior[i], Whitespace)
    requires c != "" && IsStripped(c, Whitespace)
    ensures Strip(Join(prior, "\n") + "\n" + c) == Join(prior + [c], "\n")
  {
    if prior == [] {
      assert Join(prior, "\n") + "\n" + c == "\n" + c + "";
      StripExact("\n", c, "", Whitespace);
      assert Join(prior + [c], "\n") == c;
    } else {
      JoinStripped(prior);
      JoinSnoc(prior, c, "\n");
      StripsJoinedLines(Join(prior, "\n"), c);
    }
  }

  /** One step of the merge loop keeps the loop-free description of `key`. */
  lemma MergeOneValue(m: map<string, string>, o: Occurrence, key: string, cs: seq<string>)
    requires forall i :: 0 <= i < |cs| ==> IsStripped(cs[i], Whitespace)
    requires key in m <==> cs != []
    requires key in m ==> m[key] == Join(AfterLastEmpty(cs), "\n")
    ensures var cs' := cs + (if o.key == key then [o.Content()] else []);
            && (key in MergeOne(m, o) <==> cs' != [])
            && (key in MergeOne(m, o) ==> MergeOne(m, o)[key] == Join(AfterLastEmpty(cs'), "\n"))
  {
    if o.key != key {
      MergeOneOther(m, o, key);
      assert cs + [] == cs;
    } else {
      MergeOneSame(m, o, cs);
    }
  }

  /** A step for another key leaves `key` as it was. */
  lemma MergeOneOther(m: map<string, string>, o: Occurrence, key: string)
    requires o.key != key
    ensures key in MergeOne(m, o) <==> key in m
    ensures key in m ==> MergeOne(m, o)[key] == m[key]
  {
  }

  lemma MergeOneSame(m: map<string, string>, o: Occurrence, cs: seq<string>)
    requires forall i :: 0 <= i < |cs| ==> IsStripped(cs[i], Whitespace)
    requires o.key in m <==> cs != []
    requires o.key in m ==> m[o.key] == Join(AfterLastEmpty(cs), "\n")
    ensures MergeOne(m, o)[o.key] == Join(AfterLastEmpty(cs + [o.Content()]), "\n")
  {
    var c := o.Content();
    AfterLastEmptySnoc(cs, c);
    if c != "" {
      if o.key in m {
        AfterLastEmptyStripped(cs);
        AppendLine(AfterLastEmpty(cs), c);
      } else {
        assert AfterLastEmpty(cs) == [];
        assert Join([] + [c], "\n") == c;
      }
    }
  }

  /** What the merge loop leaves under each key, stated without the loop: a key
      is present exactly when some match used it, and its text is the contents
      since the last empty one, one per line. */
  lemma {:induction false} MergeValue(occs: seq<Occurrence>, key: string)
    ensures key in Merge(occs) <==> ContentsFor(occs, key) != []
    ensures key in Merge(occs) ==> Merge(occs)[key] == Join(AfterLastEmpty(ContentsFor(occs, key)), "\n")
    decreases |occs|
  {
    if |occs| > 0 {
      var init := occs[..|occs| - 1];
      MergeValue(init, key);
      MergeOneValue(Merge(init), occs[|occs| - 1], key, ContentsFor(init, key));
    }
  }

  /** Non-empty stripped lines joined with line breaks form a stripped text. */
  lemma {:induction false} JoinStripped(xs: seq<string>)
    requires forall i :: 0 <= i < |xs| ==> xs[i] != "" && IsStripped(xs[i], Whitespace)
    ensures IsStripped(Join(xs, "\n"), Whitespace)
    ensures xs != [] ==> Join(xs, "\n") != "" && Join(xs, "\n")[0] == xs[0][0]
    ensures xs != [] ==> Join(xs, "\n")[|Join(xs, "\n")| - 1] == xs[|xs| - 1][|xs[|xs| - 1]| - 1]
    decreases |xs|
  {
    if |xs| > 1 {
      JoinStripped(xs[1..]);
    }
  }

  /** Two non-empty stripped texts joined by a line break stay stripped. */
  lemma StripsJoinedLines(a: string, b: string)
    requires a != [] && b != []
    requires IsStripped(a, Whitespace) && IsStripped(b, Whitespace)
    ensures Strip(a + "\n" + b) == a + "\n" + b
  {
    var s := a + "\n" + b;
    assert s[0] == a[0] && s[|s| - 1] == b[|b| - 1];
    StripFixpoint(s, Whitespace);
  }

  /** The merge loop never keeps a value with surrounding whitespace. */
  lemma {:induction false} MergeStripped(occs: seq<Occurrence>)
    ensures forall k :: k in Merge(occs) ==> IsStripped(Merge(occs)[k], Whitespace)
    ensures forall k :: k in Merge(occs) <==> exists i :: 0 <= i < |occs| && occs[i].key == k
    decreases |occs|
  {
    if |occs| > 0 {
      var init := occs[..|occs| - 1];
      MergeStripped(init);
      forall k | k in Merge(occs) ensures IsStripped(Merge(occs)[k], Whitespace) {
        if k != occs[|occs| - 1].key {
          assert Merge(occs)[k] == Merge(init)[k];
        }
      }
      forall k ensures k in Merge(occs) <==> exists i :: 0 <= i < |occs| && occs[i].key == k {
        if k in Merge(init) {
          var i :| 0 <= i < |init| && init[i].key == k;
          assert occs[i] == init[i];
        }
        if exists i :: 0 <= i < |occs| && occs[i].key == k {
          var i :| 0 <= i < |occs| && occs[i].key == k;
          if i < |init| { assert init[i] == occs[i]; }
        }
      }
    }
  }

  // ---------------------------------------------------------------------------
  // The NKDA fallback

  /** A character `\b` treats as part of a word (ASCII only; see README). */
  predicate IsWordChar(c: char) {
    IsAsciiLetter(c) || IsDigit(c) || c == '_'
  }

  /** `\bNKDA\b`, ignoring case, matches at position `i` of `text`. */
  predicate NkdaAt(text: string, i: nat) {
    i + 4 <= |text|
    && LowerChar(text[i]) == 'n' && LowerChar(text[i + 1]) == 'k'
    && LowerChar(text[i + 2]) == 'd' && LowerChar(text[i + 3]) == 'a'
    && (i == 0 || !IsWordChar(text[i - 1]))
    && (i + 4 == |text| || !IsWordChar(text[i + 4]))
  }

  /** `re.search(r"\bNKDA\b", text, re.I)` from position `from` on. */
  function SearchNkda(text: string, from: nat): (found: bool)
    ensures found <==> exists i: nat :: from <= i && NkdaAt(text, i)
    decreases |text| - from
  {
    if from + 4 > |text| then false
    else NkdaAt(text, from) || SearchNkda(text, from + 1)
  }

  /** Allergies are set to "NKDA" when they are missing or blank and the text
      mentions NKDA as a word anywhere. */
  function WithNkda(sections: map<string, string>, text: string): map<string, string> {
    if ("allergies" !in sections || Strip(sections["allergies"]) == "") && SearchNkda(text, 0)
    then sections["allergies" := "NKDA"]
    else sections
  }

  // ---------------------------------------------------------------------------
  // split_into_sections

  /** Some line of `text` is a header for `table`. */
  predicate HasHeader(table: seq<(string, Section)>, text: string) {
    exists k :: 0 <= k < |Lines(text)| && IsHeader(table, Lines(text)[k])
  }

  /** What the splitter returns once the matches are known: nothing when there
      are none, otherwise the merged sections with the NKDA fallback. */
  function Assemble(occs: seq<Occurrence>, text: string): (r: map<string, string>)
    ensures occs == [] ==> r == map[]
    ensures forall k :: k in r ==> IsStripped(r[k], Whitespace)
  {
    if occs == [] then map[]
    else
      MergeStripped(occs);
      assert IsStripped("NKDA", Whitespace);
      WithNkda(Merge(occs), text)
  }

  /** The splitter with the header pattern and dictionary built from `table`. */
  function SplitWith(table: seq<(string, Section)>, text: string): (r: map<string, string>)
    ensures text == "" ==> r == map[]
    ensures forall k :: k in r ==> IsStripped(r[k], Whitespace)
  {
    if text == "" then map[] else Assemble(TextOccurrences(table, text), text)
  }

  /** The text has a header line exactly when the pattern finds a match. */
  lemma HasHeaderIff(table: seq<(string, Section)>, text: string)
    ensures TextOccurrences(table, text) != [] <==> HasHeader(table, text)
  {
    var lines := Lines(text);
    var hs := MatchLines(table, lines);
    OccurrencesEmpty(lines, hs, 0);
    assert forall k :: 0 <= k < |lines| ==> (hs[k].Some? <==> IsHeader(table, lines[k]));
  }

  /** `split_into_sections(text)`: the splitter with the source's alias table. */
  function SplitIntoSections(text: string): (r: map<string, string>)
    ensures text == "" ==> r == map[]
    ensures forall k :: k in r ==> k in CanonicalKeys
    ensures forall k :: k in r ==> IsStripped(r[k], Whitespace)
  {
    EntriesClean();
    SplitKeys(Entries(), text);
    SplitWith(Entries(), text)
  }

  /** With a clean table every key the splitter returns is canonical. */
  lemma SplitKeys(table: seq<(string, Section)>, text: string)
    requires AllClean(table)
    ensures forall k :: k in SplitWith(table, text) ==> k in CanonicalKeys
  {
    if text != "" {
      TextOccurrencesKeys(table, text);
      AssembleKeys(TextOccurrences(table, text), text);
    }
  }

  lemma TextOccurrencesKeys(table: seq<(string, Section)>, text: string)
    requires AllClean(table)
    ensures KeysIn(TextOccurrences(table, text))
  {
    MatchLinesKeys(table, Lines(text));
    OccurrencesKeys(Lines(text), MatchLines(table, Lines(text)), 0);
  }

  /** Assembling adds no key but those of the matches and "allergies". */
  lemma AssembleKeys(occs: seq<Occurrence>, text: string)
    requires KeysIn(occs)
    ensures forall k :: k in Assemble(occs, text) ==> k in CanonicalKeys
  {
    if occs != [] {
      MergeStripped(occs);
      assert Allergies.Key() == "allergies";
    }
  }

  /** The merged text of `key`, stated without the loop, is already stripped
      and is empty when no match used the key. */
  lemma MergedText(occs: seq<Occurrence>, key: string)
    ensures var merged := Join(AfterLastEmpty(ContentsFor(occs, key)), "\n");
            && (key in Merge(occs) <==> ContentsFor(occs, key) != [])
            && (key in Merge(occs) ==> Merge(occs)[key] == merged)
            && (key !in Merge(occs) ==> merged == "")
            && Strip(merged) == merged
  {
    MergeValue(occs, key);
    var cs := ContentsFor(occs, key);
    var merged := Join(AfterLastEmpty(cs), "\n");
    AfterLastEmptyStripped(cs);
    JoinStripped(AfterLastEmpty(cs));
    StripFixpoint(merged, Whitespace);
    if cs == [] {
      assert AfterLastEmpty(cs) == [];
    }
  }

  /** The NKDA fallback changes nothing but a blank or missing allergies entry. */
  lemma WithNkdaValue(m: map<string, string>, text: string, key: string, merged: string)
    requires key in m ==> m[key] == merged
    requires key !in m ==> merged == ""
    requires Strip(merged) == merged
    ensures var nkda := key == "allergies" && merged == "" && SearchNkda(text, 0);
            && (key in WithNkda(m, text) <==> key in m || nkda)
            && (key in WithNkda(m, text) ==> WithNkda(m, text)[key] == if nkda then "NKDA" else merged)
  {
  }

  /** The value of `key` once the matches are known, stated without the loop. */
  lemma AssembleValue(occs: seq<Occurrence>, text: string, key: string)
    requires occs != []
    ensures var merged := Join(AfterLastEmpty(ContentsFor(occs, key)), "\n");
            var nkda := key == "allergies" && merged == "" && SearchNkda(text, 0);
            && (key in Assemble(occs, text) <==> ContentsFor(occs, key) != [] || nkda)
            && (key in Assemble(occs, text) ==> Assemble(occs, text)[key] == if nkda then "NKDA" else merged)
  {
    MergedText(occs, key);
    WithNkdaValue(Merge(occs), text, key, Join(AfterLastEmpty(ContentsFor(occs, key)), "\n"));
  }

  /** The splitter as a whole, stated without its loop: with at least one header
      line, a key is present exactly when a header used it (or, for allergies,
      when NKDA is mentioned), its text is the merged contents, and blank
      allergies become "NKDA" when NKDA is mentioned. */
  lemma SplitValue(table: seq<(string, Section)>, text: string, key: string)
    requires text != "" && HasHeader(table, text)
    ensures var occs := TextOccurrences(table, text);
            var merged := Join(AfterLastEmpty(ContentsFor(occs, key)), "\n");
            var nkda := key == "allergies" && merged == "" && SearchNkda(text, 0);
            && (key in SplitWith(table, text) <==> ContentsFor(occs, key) != [] || nkda)
            && (key in SplitWith(table, text) ==>
                  SplitWith(table, text)[key] == if nkda then "NKDA" else merged)
  {
    HasHeaderIff(table, text);
    AssembleValue(TextOccurrences(table, text), text, key);
  }

  /** Without a single header line the splitter returns nothing, even when the
      text mentions NKDA: the fallback only runs after headers were found. */
  lemma NoHeaderNoSections(text: string)
    requires !HasHeader(Entries(), text)
    ensures SplitIntoSections(text) == map[]
  {
    HasHeaderIff(Entries(), text);
  }

  /** A repeated section with empty content replaces the earlier content
      instead of keeping it. */
  lemma EmptyRepeatReplaces(key: string, first: string)
    ensures Merge([Occurrence(key, first), Occurrence(key, "")])[key] == ""
  {
    var occs := [Occurrence(key, first), Occurrence(key, "")];
    assert occs[..1] == [Occurrence(key, first)];
    assert occs[..1][..0] == [];
  }
}

=== FILE: text.dfy ===
/** The handful of Python `str` operations the pipeline is built from:
    whitespace, `strip`, `lower`, `split`, `join`, `replace` and `splitlines`,
    each stated over `string` (a `seq<char>` of code points). */
module Text {

  /** The characters Python's `str.isspace()` accepts: `\t` to `\r`, the
      separators `\x1c` to `\x1f`, the space, `\x85`, `\xa0` and the Unicode
      spaces. `str.strip()` with no argument and the regular-expression class
      `\s` both use this set. */
  const Whitespace: set<char> := {
    ' ', '\t', '\n', '\U{0B}', '\U{0C}', '\r',
    '\U{1C}', '\U{1D}', '\U{1E}', '\U{1F}', '\U{85}', '\U{A0}', '\U{1680}',
    '\U{2000}', '\U{2001}', '\U{2002}', '\U{2003}', '\U{2004}', '\U{2005}',
    '\U{2006}', '\U{2007}', '\U{2008}', '\U{2009}', '\U{200A}',
    '\U{2028}', '\U{2029}', '\U{202F}', '\U{205F}', '\U{3000}'
  }

  /** The line boundaries of Python's `str.splitlines()`: `\n` to `\r`, `\x1c`
      to `\x1e`, `\x85` and the line and paragraph separators (`\r\n` counts
      as one boundary there; see `SplitLines`). */
  const LineBreaks: set<char> := {
    '\n', '\r', '\U{0B}', '\U{0C}', '\U{1C}', '\U{1D}', '\U{1E}',
    '\U{85}', '\U{2028}', '\U{2029}'
  }

  predicate IsAsciiLetter(c: char) {
    ('A' <= c <= 'Z') || ('a' <= c <= 'z')
  }

  predicate IsDigit(c: char) {
    '0' <= c <= '9'
  }

  /** Every character of `s` is in `cs`. */
  predicate AllIn(s: string, cs: set<char>) {
    forall i :: 0 <= i < |s| ==> s[i] in cs
  }

  /** No character of `s` is in `cs`. */
  predicate NoneIn(s: string, cs: set<char>) {
    forall i :: 0 <= i < |s| ==> s[i] !in cs
  }

  /** `s` neither begins nor ends with a character of `cs`. */
  predicate IsStripped(s: string, cs: set<char>) {
    s == [] || (s[0] !in cs && s[|s| - 1] !in cs)
  }

  predicate StartsWith(s: string, prefix: string) {
    |prefix| <= |s| && s[..|prefix|] == prefix
  }

  // ---------------------------------------------------------------------------
  // strip

  /** Python's `s.lstrip(chars)`: the suffix of `s` left after dropping the
      leading characters that are in `cs` (`TrimLeftSuffix`). */
  function TrimLeft(s: string, cs: set<char>): (r: string)
    ensures |r| <= |s|
    ensures r == [] || r[0] !in cs
  {
    if |s| > 0 && s[0] in cs then TrimLeft(s[1..], cs) else s
  }

  lemma {:induction false} TrimLeftSuffix(s: string, cs: set<char>)
    ensures var r := TrimLeft(s, cs); r == s[|s| - |r|..] && AllIn(s[..|s| - |r|], cs)
  {
    if |s| > 0 && s[0] in cs {
      TrimLeftSuffix(s[1..], cs);
      var r := TrimLeft(s, cs);
      assert s[1..][|s| - 1 - |r|..] == s[|s| - |r|..];
      var p, q := s[..|s| - |r|], s[1..][..|s| - 1 - |r|];
      forall i | 0 <= i < |p| ensures p[i] in cs {
        if i > 0 {
          assert p[i] == q[i - 1];
        }
      }
    }
  }

  /** Python's `s.rstrip(chars)`: the prefix of `s` left after dropping the
      trailing characters that are in `cs` (`TrimRightPrefix`). */
  function TrimRight(s: string, cs: set<char>): (r: string)
    ensures |r| <= |s|
    ensures r == [] || r[|r| - 1] !in cs
  {
    if |s| > 0 && s[|s| - 1] in cs then TrimRight(s[..|s| - 1], cs) else s
  }

  lemma {:induction false} TrimRightPrefix(s: string, cs: set<char>)
    ensures var r := TrimRight(s, cs); r == s[..|r|] && AllIn(s[|r|..], cs)
  {
    if |s| > 0 && s[|s| - 1] in cs {
      var t := s[..|s| - 1];
      TrimRightPrefix(t, cs);
      var r := TrimRight(s, cs);
      assert t[..|r|] == s[..|r|];
      var p, q := s[|r|..], t[|r|..];
      forall i | 0 <= i < |p| ensures p[i] in cs {
        if i < |q| {
          assert p[i] == q[i];
        }
      }
    } else {
      assert s[..|s|] == s;
    }
  }

  /** Python's `s.strip(chars)`: `s` without its leading and trailing characters
      from `cs` (`StripExact` shows that exactly those are removed). */
  function StripChars(s: string, cs: set<char>): (r: string)
    ensures IsStripped(r, cs)
    ensures |r| <= |s|
  {
    var l := TrimLeft(s, cs);
    TrimRightPrefix(l, cs);
    TrimRight(l, cs)
  }

  /** Stripping leaves nothing exactly when every character is stripped. */
  lemma StripEmpty(s: string, cs: set<char>)
    ensures StripChars(s, cs) == [] <==> AllIn(s, cs)
  {
    var l := TrimLeft(s, cs);
    TrimLeftSuffix(s, cs);
    TrimRightPrefix(l, cs);
    if l == [] {
      assert s[..|s|] == s;
    }
  }

  /** Python's `s.strip()` with no argument. */
  function Strip(s: string): string {
    StripChars(s, Whitespace)
  }

  lemma {:induction false} TrimLeftSkips(a: string, x: string, cs: set<char>)
    requires AllIn(a, cs)
    ensures TrimLeft(a + x, cs) == TrimLeft(x, cs)
  {
    if |a| == 0 {
      assert a + x == x;
    } else {
      assert (a + x)[0] == a[0];
      assert (a + x)[1..] == a[1..] + x;
      TrimLeftSkips(a[1..], x, cs);
    }
  }

  lemma {:induction false} TrimRightSkips(x: string, c: string, cs: set<char>)
    requires AllIn(c, cs)
    ensures TrimRight(x + c, cs) == TrimRight(x, cs)
  {
    if |c| == 0 {
      assert x + c == x;
    } else {
      assert (x + c)[|x + c| - 1] == c[|c| - 1];
      assert (x + c)[..|x + c| - 1] == x + c[..|c| - 1];
      TrimRightSkips(x, c[..|c| - 1], cs);
    }
  }

  /** Stripping removes exactly the surrounding `cs` characters: a stripped core
      `b` wrapped in `cs` characters strips back to `b`. */
  lemma StripExact(a: string, b: string, c: string, cs: set<char>)
    requires AllIn(a, cs) && AllIn(c, cs) && IsStripped(b, cs)
    ensures StripChars(a + b + c, cs) == b
  {
    var bc := b + c;
    assert a + b + c == a + bc;
    TrimLeftSkips(a, bc, cs);
    if b == [] {
      assert bc == c;
      TrimLeftSkips(c, [], cs);
      assert c + [] == c;
      assert TrimLeft(c, cs) == [];
    } else {
      assert bc[0] == b[0];
      assert TrimLeft(bc, cs) == bc;
      TrimRightSkips(b, c, cs);
      assert TrimRight(b, cs) == b;
    }
  }

  /** A stripped string is left alone by `strip`, so `strip` is idempotent. */
  lemma StripFixpoint(s: string, cs: set<char>)
    ensures IsStripped(s, cs) <==> StripChars(s, cs) == s
    ensures StripChars(StripChars(s, cs), cs) == StripChars(s, cs)
  {
    if IsStripped(s, cs) {
      StripExact([], s, [], cs);
      assert [] + s + [] == s;
    }
    var r := StripChars(s, cs);
    StripExact([], r, [], cs);
    assert [] + r + [] == r;
  }

  /** A string that does not begin with whitespace keeps its first character
      through `strip()`. */
  lemma StripKeepsFirst(x: string)
    requires x != [] && x[0] !in Whitespace
    ensures Strip(x) != [] && Strip(x)[0] == x[0]
  {
    assert TrimLeft(x, Whitespace) == x;
    TrimRightPrefix(x, Whitespace);
  }

  /** `strip()` leaves a string without surrounding whitespace alone. */
  lemma StrippedFixed(s: string)
    requires IsStripped(s, Whitespace)
    ensures Strip(s) == s
  {
    StripFixpoint(s, Whitespace);
  }

  // ---------------------------------------------------------------------------
  // lower

  /** Python's `c.lower()` restricted to ASCII: upper-case letters map to lower
      case, every other character is unchanged. */
  function LowerChar(c: char): (r: char)
    ensures !('A' <= r <= 'Z')
    ensures r != c ==> 'A' <= c <= 'Z' && IsAsciiLetter(r)
  {
    if 'A' <= c <= 'Z' then (c as int + 32) as char else c
  }

  function Lower(s: string): (r: string)
    ensures |r| == |s|
    ensures forall i :: 0 <= i < |s| ==> r[i] == LowerChar(s[i])
  {
    seq(|s|, i requires 0 <= i < |s| => LowerChar(s[i]))
  }

  /** `lower` neither creates nor removes whitespace. */
  lemma LowerCharKeepsWhitespace(c: char)
    ensures LowerChar(c) in Whitespace <==> c in Whitespace
  {
    if 'A' <= c <= 'Z' {
      assert 'a' <= LowerChar(c) <= 'z';
    }
  }

  lemma LowerKeepsStripped(s: string)
    ensures IsStripped(Lower(s), Whitespace) <==> IsStripped(s, Whitespace)
  {
    if s != [] {
      LowerCharKeepsWhitespace(s[0]);
      LowerCharKeepsWhitespace(s[|s| - 1]);
    }
  }

  /** Lower-casing twice is lower-casing once. */
  lemma LowerIdempotent(s: string)
    ensures Lower(Lower(s)) == Lower(s)
  {
    var l := Lower(s);
    forall i | 0 <= i < |s| ensures Lower(l)[i] == l[i] {
      assert !('A' <= l[i] <= 'Z');
    }
  }

  // ---------------------------------------------------------------------------
  // split, join, replace

  /** Python's `s.split(sep)`, generalised to a set of one-character separators:
      the pieces between separators, in order, empty pieces included, so the
      result is never empty (`"".split(",") == [""]`). */
  function Split(s: string, seps: set<char>): (r: seq<string>)
    ensures |r| >= 1
    ensures forall i :: 0 <= i < |r| ==> NoneIn(r[i], seps)
  {
    if |s| == 0 then [""]
    else
      var rest := Split(s[1..], seps);
      if s[0] in seps then [""] + rest
      else [[s[0]] + rest[0]] + rest[1..]
  }

  /** Python's `sep.join(xs)`. */
  function Join(xs: seq<string>, sep: string): string {
    if |xs| == 0 then ""
    else if |xs| == 1 then xs[0]
    else xs[0] + sep + Join(xs[1..], sep)
  }

  /** Joining one more element appends the separator and the element. */
  lemma {:induction false} JoinSnoc(xs: seq<string>, x: string, sep: string)
    requires xs != []
    ensures Join(xs + [x], sep) == Join(xs, sep) + sep + x
    decreases |xs|
  {
    if |xs| == 1 {
      assert (xs + [x])[1..] == [x];
    } else {
      assert (xs + [x])[1..] == xs[1..] + [x];
      JoinSnoc(xs[1..], x, sep);
    }
  }

  /** Joining two non-empty lists puts one separator between their joins. */
  lemma {:induction false} JoinAppend(a: seq<string>, b: seq<string>, sep: string)
    requires a != [] && b != []
    ensures Join(a + b, sep) == Join(a, sep) + sep + Join(b, sep)
    decreases |a|
  {
    if |a| == 1 {
      assert (a + b)[1..] == b;
    } else {
      assert (a + b)[1..] == a[1..] + b;
      JoinAppend(a[1..], b, sep);
    }
  }

  /** Python's `s.replace(from, to)` for one-character `from` and `to`. */
  function ReplaceChar(s: string, from: char, to: char): (r: string)
    ensures |r| == |s|
    ensures forall i :: 0 <= i < |s| ==> r[i] == (if s[i] == from then to else s[i])
  {
    if |s| == 0 then "" else [if s[0] == from then to else s[0]] + ReplaceChar(s[1..], from, to)
  }

  /** The lines of `text` at every character of `LineBreaks`. Python's
      `splitlines()` treats `\r\n` as one boundary and drops the empty piece
      after a final boundary; the pieces it does not produce are empty, which
      is all its callers here depend on. */
  function SplitLines(text: string): seq<string> {
    Split(text, LineBreaks)
  }

  /** A separator splits the text into the pieces of each side. */
  lemma {:induction false} SplitAppend(a: string, b: string, c: char, seps: set<char>)
    requires c in seps
    ensures Split(a + [c] + b, seps) == Split(a, seps) + Split(b, seps)
  {
    if |a| == 0 {
      assert a + [c] + b == [c] + b;
      assert ([c] + b)[1..] == b;
    } else {
      assert (a + [c] + b)[1..] == a[1..] + [c] + b;
      SplitAppend(a[1..], b, c, seps);
    }
  }

  /** A piece without separators splits into itself. */
  lemma {:induction false} SplitNoSep(x: string, seps: set<char>)
    requires NoneIn(x, seps)
    ensures Split(x, seps) == [x]
  {
    if |x| > 0 {
      SplitNoSep(x[1..], seps);
      assert [x[0]] + x[1..] == x;
    }
  }

  /** Joining the pieces with the separator gives back the text. */
  lemma {:induction false} JoinSplit(s: string, sep: char)
    ensures Join(Split(s, {sep}), [sep]) == s
  {
    if |s| > 0 {
      var rest := Split(s[1..], {sep});
      JoinSplit(s[1..], sep);
      if s[0] == sep {
        assert Join([""] + rest, [sep]) == "" + [sep] + Join(rest, [sep]);
        assert s == [sep] + s[1..];
      } else {
        var xs := [[s[0]] + rest[0]] + rest[1..];
        if |rest| == 1 {
          assert Join(rest, [sep]) == rest[0];
        } else {
          assert Join(rest, [sep]) == rest[0] + [sep] + Join(rest[1..], [sep]);
          assert xs[1..] == rest[1..];
        }
        assert s == [s[0]] + s[1..];
      }
    }
  }

  /** Splitting the join of separator-free pieces gives back the pieces. */
  lemma {:induction false} SplitJoin(xs: seq<string>, sep: char)
    requires |xs| >= 1
    requires forall i :: 0 <= i < |xs| ==> NoneIn(xs[i], {sep})
    ensures Split(Join(xs, [sep]), {sep}) == xs
  {
    SplitNoSep(xs[0], {sep});
    if |xs| > 1 {
      SplitJoin(xs[1..], sep);
      SplitAppend(xs[0], Join(xs[1..], [sep]), sep, {sep});
      assert xs == [xs[0]] + xs[1..];
    }
  }
}
